=== FILE: README.md ===
# Antigravity → Claude response translator, modelled in Dafny

This project models the translator that turns responses of the Antigravity
(Gemini-style) backend into Anthropic Claude messages. The translator has two
entry points:

* **Streaming** (`ConvertAntigravityResponseToClaude`). Each upstream chunk,
  or the `[DONE]` sentinel, becomes a list of Claude server-sent events:
  `message_start`, `content_block_start/delta/stop`, `message_delta` and
  `message_stop`. A per-turn state (`Params`) carries the following across
  chunks:
  * which block is open and its index;
  * the finish reason and the latest token usage;
  * the thinking text that is accumulated for the signature cache;
  * a web-search ("grounding") mode. In that mode plain answer text is held
    back, and at the end of the turn it is emitted after a `server_tool_use`
    block, a `web_search_tool_result` block and one cited-text block per
    usable citation.
* **One-shot** (`ConvertAntigravityResponseToClaudeNonStream`). A complete
  response becomes one message document. Answer text and reasoning are
  buffered and flushed into `text` and `thinking` blocks when the kind
  changes. Function calls become `tool_use` blocks numbered `tool_1`,
  `tool_2`, and so on. Grounding data adds the same web-search blocks, with
  the trailing answer text placed after them.

The model is a set of pure functions. Chunks are typed values (`Upstream`),
not JSON text, and events are typed values (`Claude`), not SSE text. Effects
of the source become explicit parameters or results:

* The wall clock and the process-wide tool counter are inputs of a step, and
  a step returns the counter after it. A tool-use id is
  `ToolUseId(name, now, counter + 1)`.
* The random server-tool-use id is an input as well.
* Writes to the signature cache come back from a step as `puts`.

A client-side tracker (`Cursor` / `Replay` in `Claude`) checks that an event
sequence is well formed. It requires that:

* a block is started only at the next index and only when no block is open;
* each delta goes to the open block and is of a kind that block accepts;
* stops close the open block.

Files, one module each:

| file | module | contents |
|---|---|---|
| `wrappers.dfy` | `Wrappers` | `Option` |
| `upstream.dfy` | `Upstream` | the upstream chunk: parts, grounding metadata, usage |
| `claude.dfy` | `Claude` | events, content blocks, the client tracker, event statistics |
| `usage.dfy` | `Usage` | token accounting and the stop-reason mapping shared by both paths |
| `web_search.dfy` | `WebSearch` | search results, citations, grounding state, the web-search block sequence |
| `stream.dfy` | `Stream` | the streaming state machine |
| `stream_props.dfy` | `StreamProps` | well-formedness, envelope and tool-id properties of the streaming path |
| `non_stream.dfy` | `NonStream` | the one-shot translator |
| `non_stream_props.dfy` | `NonStreamProps` | content, numbering, tidiness and cross-path properties of the one-shot path |

## Behaviours of the code worth knowing

The model follows the code, including these behaviours a reader might not
expect:

* In web-search mode, the query is replaced by every later chunk whose first
  search query is non-empty, not only by the first one.
* The results and supports arrays are replaced wholesale by each chunk that
  carries them. They are not appended.
* The thinking accumulator is not cleared when a text or tool block starts.
  It is cleared only when a signature is cached or a new thinking block
  opens.
* The two paths report usage differently. Streaming subtracts cached tokens
  from the prompt and rebuilds a zero candidate count from the total.
  One-shot does neither (`NonStreamProps.UsageDiverges` gives a concrete
  case).
* In streaming web-search mode, function-call parts are dropped. The stop
  reason can then be `end_turn` where the one-shot path says `tool_use`.
* The one-shot query prefers `searchEntryPoint.renderedContent` over the
  first search query. One-shot grounding reads chunks and supports only from
  `groundingMetadata`, and a lone value counts as a one-element list.
  Streaming also reads the candidate-level arrays, and only when they are
  arrays.
* In web-search mode, buffering text does not count as content. If `[DONE]`
  arrives before a chunk with a finish reason and usage, a turn that only
  buffered text sends nothing more, and its grounding blocks and text are
  lost (`StreamProps.BufferedTextLostAtDone`).
* A buffered empty text part still gives the streaming path a final text
  block, with no delta. The one-shot path adds its final text block only for
  non-empty text, so the two paths then differ by that block
  (`NonStreamProps.EmptyBufferedTextDiverges`).
* After a normal-mode turn is finalised, the index is not moved past the
  closed block. A part arriving in a later chunk therefore reuses that
  index, and its block is never closed.
* In the streaming path, a thought part with a non-empty `thoughtSignature`
  is sent as a `signature_delta` and its text is not sent. The one-shot path
  also accepts `thought_signature`.

## Model

| member | source | states |
|---|---|---|
| Usage.RecordUsage | internal/translator/antigravity/claude/antigravity_claude_response.go:382-395 | The stored counts depend only on the latest usage record. The prompt count is the prompt minus cached tokens. A zero candidate count with a positive total is rebuilt as total − prompt − thoughts, clamped at zero. |
| Usage.OutputTokens | internal/translator/antigravity/claude/antigravity_claude_response.go:433-439 | Output tokens are candidates + thoughts when non-zero. Otherwise they are total − prompt, clamped at zero, when a total is known, and 0 without one. |
| Usage.CacheRead | internal/translator/antigravity/claude/antigravity_claude_response.go:445-451 | `cache_read_input_tokens` is present exactly when some tokens were cached, and then holds that count. |
| Usage.StopReasonFor | internal/translator/antigravity/claude/antigravity_claude_response.go:457-470 | The stop reason is `tool_use` iff a tool was used. Otherwise it is `max_tokens` iff the finish reason is MAX_TOKENS, and `end_turn` for every other reason, known or unknown. |
| WebSearch.ResultOf | internal/translator/antigravity/claude/antigravity_claude_response.go:711-730 | A chunk yields a result iff it has `web` with a url, title or domain. The domain stands in for a missing title, and the encrypted content is derived from url and title. |
| WebSearch.ToWebSearchResultsUsable | internal/translator/antigravity/claude/antigravity_claude_response.go:709-733 | Every derived result has a url or a title, and its encrypted content encodes exactly those with no cited text. |
| WebSearch.ToWebSearchResultsAppend | internal/translator/antigravity/claude/antigravity_claude_response.go:709-733 | Deriving results preserves order: the results of a concatenation are the concatenation of the results. |
| WebSearch.ToWebSearchResultsSingle | internal/translator/antigravity/claude/antigravity_claude_response.go:711-730 | A single chunk contributes exactly its own result, or nothing. |
| WebSearch.UpdateWebSearchState | internal/translator/antigravity/claude/antigravity_claude_response.go:754-785 | A non-empty first query replaces the stored one. A results or supports array (candidate-level first, else from the metadata) replaces the stored list. The tool id and the buffer are kept, and a chunk without grounding data changes nothing. |
| WebSearch.BuildCitation | internal/translator/antigravity/claude/antigravity_claude_response.go:788-812 | A support yields a citation iff it has non-empty cited text and a first chunk index inside the results. The citation carries that result's url and title, and a token that covers the cited text too. |
| WebSearch.TextDeltas | internal/translator/antigravity/claude/antigravity_claude_response.go:890-898 | The buffered texts become one `text_delta` per non-empty text, in order, and together they carry the whole buffered text. |
| WebSearch.CitationBlocksContent | internal/translator/antigravity/claude/antigravity_claude_response.go:862-882 | The citation blocks start only cited-text blocks, one per usable citation, and carry exactly those citations in support order. |
| WebSearch.CitationBlocksReplay | internal/translator/antigravity/claude/antigravity_claude_response.go:862-882 | The citation blocks are well formed from a closed cursor and leave it closed at the next free index. |
| WebSearch.WebSearchBlocks | internal/translator/antigravity/claude/antigravity_claude_response.go:831-904 | The grounding blocks take two blocks, plus one per citation, plus one when anything was buffered. |
| WebSearch.WebSearchBlocksReplay | internal/translator/antigravity/claude/antigravity_claude_response.go:831-904 | The grounding blocks form a well-formed block sequence from a closed cursor. |
| WebSearch.WebSearchBlocksOrder | internal/translator/antigravity/claude/antigravity_claude_response.go:831-904 | The blocks come in a fixed order: `server_tool_use`, then `web_search_tool_result`, then one cited-text block per citation, then a text block iff anything was buffered. |
| WebSearch.WebSearchBlocksHead | internal/translator/antigravity/claude/antigravity_claude_response.go:831-860 | The sequence opens with the tool-use block carrying the query and the result block carrying the results, both under the session's tool id. |
| WebSearch.WebSearchBlocksPayload | internal/translator/antigravity/claude/antigravity_claude_response.go:862-904 | The cited-text blocks carry exactly the usable citations, and the text block carries the buffered text in arrival order. |
| WebSearch.WebSearchBlocksQuiet | internal/translator/antigravity/claude/antigravity_claude_response.go:816-907 | The grounding blocks hold block events only. They never touch the message envelope or draw a tool serial. |
| Stream.SignaturePart | internal/translator/antigravity/claude/antigravity_claude_response.go:239-251 | A signature becomes one `signature_delta` at the current index and the block state is kept. The accumulated thinking text is cached under it exactly when there is a session id and some text, and the accumulator then restarts. |
| Stream.ThinkingTextPart | internal/translator/antigravity/claude/antigravity_claude_response.go:252-285 | Thinking text continues an open thinking block and extends the accumulator. Otherwise it closes the open block, opens a thinking block at the next index and restarts the accumulator from this text. |
| Stream.TextPart | internal/translator/antigravity/claude/antigravity_claude_response.go:287-322 | An empty text in a chunk with a finish reason changes nothing. Non-empty text continues or opens a text block. An empty text otherwise closes the open block without opening one. The thinking accumulator is never touched. |
| Stream.FunctionCallPart | internal/translator/antigravity/claude/antigravity_claude_response.go:324-372 | A function call marks tool use and closes the open block once. It opens a `tool_use` block under the id drawn from the next counter value, and sends the arguments when present. |
| Stream.PartStep | internal/translator/antigravity/claude/antigravity_claude_response.go:206-375 | In web-search mode, plain text is buffered and function calls are ignored: such a part sends nothing, and leaves the content flag, the open block and the index as they were. A part with text is never a function call, and exactly one tool id is drawn per function call in normal mode. |
| Stream.ProcessParts | internal/translator/antigravity/claude/antigravity_claude_response.go:206-375 | Over a chunk the index never moves back. Normal mode draws one tool serial per function-call part, and tool use is recorded iff one was seen. |
| Stream.Prelude | internal/translator/antigravity/claude/antigravity_claude_response.go:165-202 | `message_start` is sent only on the first chunk. Web-search mode is switched on by the first chunk with grounding data, taking the drawn tool id, and stays on. In web-search mode the chunk's grounding data is merged into the web-search state; outside it, that state is untouched. |
| Stream.RecordMetadata | internal/translator/antigravity/claude/antigravity_claude_response.go:377-395 | A present finish reason is recorded. A present usage record overwrites the stored counts. Nothing else changes. |
| Stream.EnsureToolUseId | internal/translator/antigravity/claude/antigravity_claude_response.go:826-829 | A fallback id is used only when no tool id was stored. |
| Stream.EmitWebSearchBlocks | internal/translator/antigravity/claude/antigravity_claude_response.go:816-907 | The open block is closed, and the index then moves on by exactly the number of grounding blocks. No block is open afterwards, and the session flags are untouched. |
| Stream.FinalBlocks | internal/translator/antigravity/claude/antigravity_claude_response.go:418-430 | Outside web-search mode, only the open block is closed, without moving the index. In web-search mode, the grounding blocks count as content. |
| Stream.AppendFinalEvents | internal/translator/antigravity/claude/antigravity_claude_response.go:404-455 | Finalisation does nothing once done, without usage unless forced, or without content outside web-search mode. Otherwise it ends with exactly one `message_delta` carrying the stop reason and token counts, and no block is left open. |
| Stream.AppendFinalEventsFrame | internal/translator/antigravity/claude/antigravity_claude_response.go:404-455 | Finalisation leaves the tool flag, usage, finish reason, session id and mode untouched. |
| Stream.ConvertChunk | internal/translator/antigravity/claude/antigravity_claude_response.go:161-401 | After a chunk, the index has not moved back, the tool counter has not decreased, and usage and the finish reason reflect the chunk. Web-search mode is on iff it was on or the chunk has grounding data. |
| Stream.Convert | internal/translator/antigravity/claude/antigravity_claude_response.go:149-159 | `[DONE]` without content emits nothing and changes nothing. After content, it ends with `message_stop`, and the turn is finalised. |
| Stream.Run | internal/translator/antigravity/claude/antigravity_claude_response.go:137-147 | Over a session, the block index and the tool counter only grow, and finalisation is never undone. |
| StreamProps.CloseOpenBlockReplay | internal/translator/antigravity/claude/antigravity_claude_response.go:261-271 | The client, after the close, has no block open at the index the state moves to. |
| StreamProps.CloseOpenBlockStats | internal/translator/antigravity/claude/antigravity_claude_response.go:261-271 | Closing sends exactly as many `content_block_stop` events as the index advances (one with a block open, none without), and never starts a tool use. |
| StreamProps.SignaturePartReplay | internal/translator/antigravity/claude/antigravity_claude_response.go:239-251 | A signature keeps client and state in step iff a thinking block is open. |
| StreamProps.PartStepReplay | internal/translator/antigravity/claude/antigravity_claude_response.go:206-375 | One part keeps the client's view and the state in step iff the part is safe. A part is unsafe when it is a signature with no thinking block open, or an empty text that closes a thinking or tool block while the state still believes it open. |
| StreamProps.ProcessPartsBuffer | internal/translator/antigravity/claude/antigravity_claude_response.go:206-226 | In web-search mode, a chunk's plain texts are appended to the buffer in arrival order. Otherwise the buffer is unchanged. |
| StreamProps.ProcessPartsBufferedQuiet | internal/translator/antigravity/claude/antigravity_claude_response.go:211-225 | In web-search mode, a chunk with no thought text sends nothing and writes no cache entry. The content flag, the open block and the index are unchanged. |
| StreamProps.ProcessPartsStats | internal/translator/antigravity/claude/antigravity_claude_response.go:227-375 | A chunk's parts emit block events only. They close exactly as many blocks as the index advances, and draw consecutive tool serials. |
| StreamProps.ProcessPartsReplay | internal/translator/antigravity/claude/antigravity_claude_response.go:206-375 | Safe parts keep the client's view and the state in step over a whole chunk. |
| StreamProps.EmitWebSearchBlocksReplay | internal/translator/antigravity/claude/antigravity_claude_response.go:816-907 | The web-search emission is well formed from the state's view and leaves no block open. |
| StreamProps.AppendFinalEventsReplay | internal/translator/antigravity/claude/antigravity_claude_response.go:404-455 | Finalisation closes every open block before its `message_delta`. |
| StreamProps.TextAfterFinalReusesIndex | internal/translator/antigravity/claude/antigravity_claude_response.go:424-429 | Normal-mode finalisation closes the open block without moving the index. A text part that arrives afterwards opens its block at the index just closed, and the client rejects the stream. |
| StreamProps.AppendFinalEventsStats | internal/translator/antigravity/claude/antigravity_claude_response.go:404-455 | Finalisation sends one `message_delta` iff it applies. It never sends `message_start` or `message_stop` and never draws a tool serial. |
| StreamProps.PreludeStats | internal/translator/antigravity/claude/antigravity_claude_response.go:165-190 | `message_start` is sent exactly on the first chunk, and nothing else is sent before the parts. |
| StreamProps.FinishChunkStats | internal/translator/antigravity/claude/antigravity_claude_response.go:397-399 | A chunk finalises the turn exactly when usage and a finish reason have both been seen and some content was emitted or web-search mode is on; the turn stays finalised once it was. `message_delta` is sent exactly when this chunk finalises, and never `message_start`, `message_stop` or a tool use. |
| StreamProps.ConvertChunkReplay | internal/translator/antigravity/claude/antigravity_claude_response.go:161-401 | A safe chunk keeps the client tracker and the session state in step. A chunk is safe when its parts are safe and it carries no parts once the turn is finalised. |
| StreamProps.ConvertChunkEnvelope | internal/translator/antigravity/claude/antigravity_claude_response.go:161-401 | Per chunk: `message_start` exactly on the first, `message_delta` exactly when the chunk finalises, and never `message_stop`. |
| StreamProps.ConvertChunkSerials | internal/translator/antigravity/claude/antigravity_claude_response.go:355-363 | The tool serials drawn by a chunk come right after the counter, in order. |
| StreamProps.DoneReplay | internal/translator/antigravity/claude/antigravity_claude_response.go:149-159 | `[DONE]` after content gives forced finalisation and then `message_stop`, with no block open. |
| StreamProps.BufferedTextLostAtDone | internal/translator/antigravity/claude/antigravity_claude_response.go:149-159 | Take a grounded chunk of plain text, before any content and with no finish reason. It sends at most `message_start`, keeps its text in the buffer, and leaves the content flag off, so a `[DONE]` that follows sends nothing and the buffered text and grounding blocks are lost. |
| StreamProps.ConvertEnvelope | internal/translator/antigravity/claude/antigravity_claude_response.go:149-401 | Per input: `message_start` only on the first chunk, `message_delta` only when the input finalises, and `message_stop` exactly on `[DONE]` after content. |
| StreamProps.SessionWellFormed | internal/translator/antigravity/claude/antigravity_claude_response.go:137-455 | A safe session from the initial state sends a well-formed Claude stream, and every block is closed once the turn is finalised. A session is safe when each chunk is safe in the state it meets. |
| StreamProps.SessionEnvelope | internal/translator/antigravity/claude/antigravity_claude_response.go:137-455 | A session sends `message_start` exactly once if any chunk arrived, and `message_delta` at most once. |
| StreamProps.SessionToolSerials | internal/translator/antigravity/claude/antigravity_claude_response.go:137-455 | The tool-use ids of a session carry consecutive, hence distinct, serials that start right after the counter value it began with. |
| StreamProps.ThoughtStep | internal/translator/antigravity/claude/antigravity_claude_response.go:252-285 | A thought part with text and no signature writes no cache entry, draws no tool serial and leaves a thinking block open. Its text is appended to the accumulator, which restarts when the part opens a new thinking block. |
| StreamProps.ProcessPartsThinkingShape | internal/translator/antigravity/claude/antigravity_claude_response.go:227-285 | A run of such thought parts writes no cache entry, draws no tool serial and leaves a thinking block open. |
| StreamProps.ProcessPartsThinking | internal/translator/antigravity/claude/antigravity_claude_response.go:227-285 | After a run of such thought parts, the accumulator holds the thinking text that was open before the run, followed by the texts of the parts in order. |
| StreamProps.ConvertChunkThinking | internal/translator/antigravity/claude/antigravity_claude_response.go:161-401 | A chunk of such thought parts, with no finish reason in a turn that has none, writes no cache entry, leaves a thinking block open and appends its thinking text to the accumulator. |
| StreamProps.ConvertChunkSignature | internal/translator/antigravity/claude/antigravity_claude_response.go:239-251 | A chunk holding one signed thought part caches the accumulated thinking under that signature exactly when there is a session id and some accumulated text, and then the accumulator restarts. Without a session id, nothing is cached and the accumulator is kept. |
| StreamProps.ThoughtChunkRun | internal/translator/antigravity/claude/antigravity_claude_response.go:137-285 | In a session, an input that is a chunk of plain thinking caches nothing, leaves the turn open, and extends the open thinking text with the chunk's text. |
| StreamProps.SignedLastCached | internal/translator/antigravity/claude/antigravity_claude_response.go:239-251 | A signed chunk as the last input caches the accumulated thinking text once, under the chunk's signature. |
| StreamProps.ThinkingThenSignedCached | internal/translator/antigravity/claude/antigravity_claude_response.go:137-285 | A chunk of plain thinking followed by a signed chunk caches the open thinking text with the chunk's text appended, once, under the signature. |
| StreamProps.SplitThinkingCached | internal/translator/antigravity/claude/antigravity_claude_response.go:137-285 | Consider thinking split over two chunks and then signed in a third. From the initial state, that session writes exactly one cache entry: the session id, the two chunks' thinking texts joined, and the signature. |
| NonStream.OneShotSignature | internal/translator/antigravity/claude/antigravity_claude_response.go:560-563 | The signature is `thoughtSignature` when present, even if empty. Otherwise it is `thought_signature`. |
| NonStream.ToolInput | internal/translator/antigravity/claude/antigravity_claude_response.go:591-593 | A tool's `input` is the raw arguments iff the raw argument text is non-empty and parses as an object (so `{}` counts). Otherwise the default `{}` is kept. |
| NonStream.FlushText | internal/translator/antigravity/claude/antigravity_claude_response.go:530-539 | The text flush empties the answer buffer and leaves the reasoning buffer, signature and tool counter alone. |
| NonStream.FlushThinking | internal/translator/antigravity/claude/antigravity_claude_response.go:541-554 | The thinking flush empties the reasoning buffer and signature and leaves the answer buffer alone. |
| NonStream.TakeSignature | internal/translator/antigravity/claude/antigravity_claude_response.go:558-567 | A thought part's non-empty signature replaces the pending one, and nothing else changes. |
| NonStream.Absorb | internal/translator/antigravity/claude/antigravity_claude_response.go:557-599 | Reading one part adds a tool call iff the part is read as a call (no non-empty text, a function call present), and only appends blocks. |
| NonStream.AbsorbAll | internal/translator/antigravity/claude/antigravity_claude_response.go:556-600 | Reading the parts only appends blocks. |
| NonStreamProps.CitedTextsCitations | internal/translator/antigravity/claude/antigravity_claude_response.go:639-649 | The cited-text blocks give back exactly the usable citations they were built from, in support order. |
| NonStreamProps.CitedTextsMatchStream | internal/translator/antigravity/claude/antigravity_claude_response.go:639-649 | For the same results and supports, the one-shot cited-text blocks carry the same citations in the same order as the streaming `citations_delta` events. |
| NonStream.OneShotUsage | internal/translator/antigravity/claude/antigravity_claude_response.go:487-512 | `usage` is deleted iff the response has no usage metadata. Otherwise it holds the raw prompt count, the shared output-token rule and the cache read. |
| NonStream.ConvertNonStream | internal/translator/antigravity/claude/antigravity_claude_response.go:678-682 | The document carries the response id and model, and drops `usage` exactly when there is no usage metadata. |
| NonStreamProps.AbsorbAnswer | internal/translator/antigravity/claude/antigravity_claude_response.go:575-577 | An answer part extends the answer by its text and changes neither reasoning nor tool calls. |
| NonStreamProps.AbsorbReasoning | internal/translator/antigravity/claude/antigravity_claude_response.go:570-573 | A reasoning part extends the reasoning by its text and changes neither answer nor tool calls. |
| NonStreamProps.AbsorbCall | internal/translator/antigravity/claude/antigravity_claude_response.go:580-597 | A function call adds exactly one tool call numbered after the earlier ones, and loses no buffered text. |
| NonStreamProps.AbsorbSays | internal/translator/antigravity/claude/antigravity_claude_response.go:569-578 | Reading one part adds exactly its answer text. |
| NonStreamProps.AbsorbThinks | internal/translator/antigravity/claude/antigravity_claude_response.go:569-578 | Reading one part adds exactly its reasoning text. |
| NonStreamProps.AbsorbCalls | internal/translator/antigravity/claude/antigravity_claude_response.go:580-597 | Reading one part adds exactly its tool call, if any. |
| NonStreamProps.AbsorbAllSays | internal/translator/antigravity/claude/antigravity_claude_response.go:556-600 | After all parts, the flushed plus buffered answer text is all the answer text of the parts, in order. |
| NonStreamProps.AbsorbAllThinks | internal/translator/antigravity/claude/antigravity_claude_response.go:556-600 | After all parts, the flushed plus buffered reasoning is all the reasoning of the parts, in order. |
| NonStreamProps.AbsorbAllCounts | internal/translator/antigravity/claude/antigravity_claude_response.go:583-586 | The tool counter counts the function-call parts, and the tool flag is set iff there was one. |
| NonStreamProps.AbsorbAllCalls | internal/translator/antigravity/claude/antigravity_claude_response.go:580-597 | The tool-use blocks are the parts' function calls, in order, numbered on from the counter. |
| NonStreamProps.AbsorbAllHolds | internal/translator/antigravity/claude/antigravity_claude_response.go:569-582 | The answer buffer left after the parts is the answer text after the last reasoning part or function call. |
| NonStreamProps.AbsorbTidy | internal/translator/antigravity/claude/antigravity_claude_response.go:530-599 | Reading a part keeps the invariant: no empty block, no two adjacent text blocks, at most one buffer filled. |
| NonStreamProps.AbsorbAllTidy | internal/translator/antigravity/claude/antigravity_claude_response.go:556-600 | The reading invariant holds after any parts. |
| NonStreamProps.AbsorbAllUnquiet | internal/translator/antigravity/claude/antigravity_claude_response.go:556-600 | Reading the parts yields only text, thinking and tool-use blocks. |
| NonStreamProps.GroundingObserved | internal/translator/antigravity/claude/antigravity_claude_response.go:624-656 | The grounding blocks add exactly the held-back answer text, and no reasoning or tool call. |
| NonStreamProps.GroundingTidy | internal/translator/antigravity/claude/antigravity_claude_response.go:624-656 | The grounding blocks are tidy and open with a non-text block. |
| NonStreamProps.ConvertNonStreamText | internal/translator/antigravity/claude/antigravity_claude_response.go:556-659 | The document's plain text is all answer text of the parts, in order, with or without grounding. |
| NonStreamProps.ConvertNonStreamThinking | internal/translator/antigravity/claude/antigravity_claude_response.go:556-602 | The document's thinking is all reasoning text of the parts, in order. |
| NonStreamProps.ConvertNonStreamTools | internal/translator/antigravity/claude/antigravity_claude_response.go:580-597 | The document's tool-use blocks are the function calls in order, numbered `tool_1`, `tool_2`, and so on. |
| NonStreamProps.ConvertNonStreamStop | internal/translator/antigravity/claude/antigravity_claude_response.go:661-676 | The stop reason is `tool_use` iff some part is read as a function call. Otherwise the finish reason decides. |
| NonStreamProps.ConvertNonStreamTidy | internal/translator/antigravity/claude/antigravity_claude_response.go:530-659 | No block of the document is empty, and no two plain text blocks are adjacent. |
| NonStreamProps.ConvertNonStreamLayout | internal/translator/antigravity/claude/antigravity_claude_response.go:604-659 | With grounding data, the document ends with the grounding blocks, which hold exactly the trailing answer text. The earlier blocks carry the rest of the answer. Without grounding data, no grounding block appears. |
| NonStreamProps.GroundingMatchesStream | internal/translator/antigravity/claude/antigravity_claude_response.go:624-656 | Let the one-shot path hold exactly the text the streaming path buffered, with the same results and supports. The streaming grounding blocks then have the one-shot kinds in the same order, plus one trailing text block exactly when the buffer is non-empty but all its texts are empty. |
| NonStreamProps.GroundingSameKinds | internal/translator/antigravity/claude/antigravity_claude_response.go:624-656 | Under the same pairing, the two paths give the same block kinds iff the buffer is empty or holds some text. |
| NonStreamProps.EmptyBufferedTextDiverges | internal/translator/antigravity/claude/antigravity_claude_response.go:885-903 | A buffer holding only the empty string: streaming ends with an (empty) text block, and the one-shot document has none (:652). |
| NonStreamProps.SignatureOvertakesText | internal/translator/antigravity/claude/antigravity_claude_response.go:558-578 | Consider a signature-only thought part between two answer parts. Its thinking block is flushed ahead of the earlier answer text, and the two answer parts merge into one text block. |
| NonStreamProps.UsageDiverges | internal/translator/antigravity/claude/antigravity_claude_response.go:487-499 | For the same usage record, the one-shot path reports prompt 100 and output 10, while the streaming path reports prompt 80 and output 70. |

## Left out

- SSE framing and JSON text. Events and documents are typed values. The
  `event:`/`data:` layout, the string templates, and the `[]` versus `[""]`
  distinction for an empty result are not modelled.
- Logging. The debug and warning logs have no effect on the output.
- The clock, randomness and the tool counter (`time.Now`,
  `makeServerToolUseID`, the atomic counter) are inputs of the model. So is
  the session id, because `deriveSessionID` reads the original request,
  which is not part of this model.
- `stableEncryptedContent` (base64 of a JSON object) is modelled as the
  datatype of its three inputs. Base64 and the JSON marshalling of the map
  are both injective, so the datatype keeps exactly the distinctions the
  source's tokens make. The encoding itself is not modelled.
- The tool-id counter (`toolUseIDCounter`) is shared by every session of
  the process and bumped atomically. The model threads it through one
  session, and one clock reading `now` serves every tool id of a step,
  where the source reads `time.Now()` per call. Its 64-bit wrap-around is
  not modelled either. The three serial properties below rest on these
  assumptions.
- ProcessPartsStats: "consecutive serials" holds only when no other session draws from the shared counter while the chunk is handled; with concurrent sessions the source promises only distinct, increasing serials.
- ConvertChunkSerials: the same single-session assumption on the shared counter; concurrently, a chunk's serials are only increasing, not consecutive.
- SessionToolSerials: the same assumption over a whole session; concurrently, its serials are distinct and increasing but may have gaps.
- StreamProps.ConvertChunkReplay: holds only for safe chunks. A safe chunk carries no parts once the turn is finalised, and none of its parts is unsafe in the sense of `StreamProps.PartStepReplay`: a signature with no thinking block open, or an empty text that closes a thinking or tool block. The turn is finalised once usage and a finish reason have both been seen with content sent or web-search mode on (`StreamProps.FinishChunkStats`), or by `[DONE]`. In normal mode, and for thought parts in either mode, the source still translates parts after finalisation: it reopens a block at the index it has just closed (`StreamProps.TextAfterFinalReusesIndex`), and that block is never closed. In web-search mode, plain-text and function-call parts after finalisation send nothing, so the exclusion also rules out these harmless cases.
- StreamProps.SessionWellFormed: holds only for safe sessions, in which every chunk is safe as for `StreamProps.ConvertChunkReplay`. So no chunk carries parts once the turn is finalised, meaning usage and a finish reason have been seen with content or web-search mode on, or `[DONE]` has arrived. And no part is unsafe in the sense of `StreamProps.PartStepReplay`. A chunk that carries a finish reason and usage but finalises nothing (normal mode, no content yet) does not make later parts unsafe. The excluded sessions are malformed in the source when an unsafe part occurs, or a normal-mode or thought part arrives after finalisation. The exclusion also covers web-search plain-text and function-call parts after finalisation, which send nothing.
- The signature cache is not modelled. Its writes are reported as `puts`.
- Integer width. Token counts are unbounded integers, and 64-bit overflow of
  the source's `int64` arithmetic is not modelled.
- JSON shape details. A non-array `parts` is read as no parts, and a
  non-string `text` is not distinguished from a string.
- `ClaudeTokenCount` is a one-line formatter outside the translation.
- Content `null`. The document's `content` is `null` when no block was
  written. The model represents that as an empty block list.

=== FILE: claude.dfy ===
/**
 The Claude-side vocabulary the translator produces: streaming events with
 typed payloads in place of SSE text, plus a client-side tracker (`Replay`)
 that says whether an event sequence is well formed. Well formed means a
 block is started only when none is open and at the next index, every delta
 and stop names the open block, deltas suit the open block's kind, and
 `message_delta` / `message_stop` arrive with no block open.
 */
module Claude {
  import opened Wrappers

  /** The `encrypted_content` / `encrypted_index` token. The source builds it
      by base64-encoding the JSON object {url, title[, cited_text]}
      (`cited_text` only when non-empty). The model keeps the encoded payload,
      so two tokens are equal exactly when their payloads are. */
  datatype EncryptedToken = EncryptedToken(url: string, title: string, citedText: string)

  /** One `web_search_result` (its `type` is fixed and `page_age` is always null). */
  datatype SearchResult = SearchResult(title: string, url: string, encryptedContent: EncryptedToken)

  /** A `web_search_result_location` citation. */
  datatype Citation = Citation(citedText: string, url: string, title: string, encryptedIndex: EncryptedToken)

  datatype StopReason = EndTurn | MaxTokens | ToolUse

  /** A streaming tool-use id `<name>-<unix nanos>-<process counter>`. */
  datatype ToolUseId = ToolUseId(name: string, stamp: int, serial: nat)

  /** The `content_block` of a `content_block_start`. */
  datatype ContentBlock =
    | TextStart
    | CitedTextStart
    | ThinkingStart
    | ToolUseStart(id: ToolUseId, name: string)
    | ServerToolUseStart(serverId: string)
    | WebSearchToolResultStart(toolUseId: string, content: seq<SearchResult>)

  /** The `delta` of a `content_block_delta`. `QueryInputDelta(q)` is the
      `input_json_delta` whose `partial_json` is the object {"query": q}. */
  datatype Delta =
    | TextDelta(text: string)
    | ThinkingDelta(thinking: string)
    | SignatureDelta(signature: string)
    | InputJsonDelta(partialJson: string)
    | QueryInputDelta(query: string)
    | CitationsDelta(citation: Citation)

  datatype Event =
    | MessageStart(id: string, model: string, inputTokens: int, outputTokens: int)
    | BlockStart(index: nat, block: ContentBlock)
    | BlockDelta(index: nat, delta: Delta)
    | BlockStop(index: nat)
    | MessageDelta(stopReason: StopReason, inputTokens: int, outputTokens: int, cacheReadInputTokens: Option<int>)
    | MessageStop

  datatype BlockKind = TextKind | CitedTextKind | ThinkingKind | ToolUseKind | ServerToolUseKind | WebSearchResultKind

  function KindOf(b: ContentBlock): BlockKind {
    match b
    case TextStart => TextKind
    case CitedTextStart => CitedTextKind
    case ThinkingStart => ThinkingKind
    case ToolUseStart(_, _) => ToolUseKind
    case ServerToolUseStart(_) => ServerToolUseKind
    case WebSearchToolResultStart(_, _) => WebSearchResultKind
  }

  /** Which deltas a block of kind `k` can carry. */
  predicate Accepts(k: BlockKind, d: Delta) {
    match d
    case TextDelta(_) => k == TextKind || k == CitedTextKind
    case CitationsDelta(_) => k == CitedTextKind
    case ThinkingDelta(_) => k == ThinkingKind
    case SignatureDelta(_) => k == ThinkingKind
    case InputJsonDelta(_) => k == ToolUseKind
    case QueryInputDelta(_) => k == ServerToolUseKind
  }

  /** What a client knows between events: the index the next block must use
      (or the open block's index) and the kind of the open block, if any. */
  datatype Cursor = Cursor(index: nat, open: Option<BlockKind>)

  function Next(c: Cursor, e: Event): Option<Cursor> {
    match e
    case MessageStart(_, _, _, _) => Some(c)
    case BlockStart(i, b) =>
      if c.open.None? && i == c.index then Some(Cursor(i, Some(KindOf(b)))) else None
    case BlockDelta(i, d) =>
      if c.open.Some? && i == c.index && Accepts(c.open.value, d) then Some(c) else None
    case BlockStop(i) =>
      if c.open.Some? && i == c.index then Some(Cursor(i + 1, None)) else None
    case MessageDelta(_, _, _, _) =>
      if c.open.None? then Some(c) else None
    case MessageStop =>
      if c.open.None? then Some(c) else None
  }

  /** The cursor after `evs`, or None when some event is out of place. */
  function Replay(c: Cursor, evs: seq<Event>): Option<Cursor>
    decreases |evs|
  {
    if |evs| == 0 then Some(c)
    else match Next(c, evs[0])
      case None => None
      case Some(c') => Replay(c', evs[1..])
  }

  function ReplayFrom(oc: Option<Cursor>, evs: seq<Event>): Option<Cursor> {
    match oc
    case None => None
    case Some(c) => Replay(c, evs)
  }

  lemma {:induction false} ReplayAppend(c: Cursor, a: seq<Event>, b: seq<Event>)
    ensures Replay(c, a + b) == ReplayFrom(Replay(c, a), b)
    decreases |a|
  {
    if |a| == 0 {
      assert a + b == b;
    } else {
      assert (a + b)[0] == a[0];
      assert (a + b)[1..] == a[1..] + b;
      match Next(c, a[0])
      case None =>
      case Some(c') =>
        ReplayAppend(c', a[1..], b);
    }
  }

  /** The kinds of the blocks `evs` starts, in order. */
  function StartKinds(evs: seq<Event>): seq<BlockKind>
    decreases |evs|
  {
    if |evs| == 0 then []
    else (if evs[0].BlockStart? then [KindOf(evs[0].block)] else []) + StartKinds(evs[1..])
  }

  lemma {:induction false} StartKindsAppend(a: seq<Event>, b: seq<Event>)
    ensures StartKinds(a + b) == StartKinds(a) + StartKinds(b)
    decreases |a|
  {
    if |a| == 0 {
      assert a + b == b;
    } else {
      assert (a + b)[0] == a[0];
      assert (a + b)[1..] == a[1..] + b;
      StartKindsAppend(a[1..], b);
    }
  }

  /** Number of events satisfying `f`. */
  function Count(evs: seq<Event>, f: Event -> bool): nat
    decreases |evs|
  {
    if |evs| == 0 then 0 else (if f(evs[0]) then 1 else 0) + Count(evs[1..], f)
  }

  lemma {:induction false} CountAppend(a: seq<Event>, b: seq<Event>, f: Event -> bool)
    ensures Count(a + b, f) == Count(a, f) + Count(b, f)
    decreases |a|
  {
    if |a| == 0 {
      assert a + b == b;
    } else {
      assert (a + b)[0] == a[0];
      assert (a + b)[1..] == a[1..] + b;
      CountAppend(a[1..], b, f);
    }
  }

  predicate IsMessageStart(e: Event) { e.MessageStart? }
  predicate IsMessageDelta(e: Event) { e.MessageDelta? }
  predicate IsMessageStop(e: Event) { e.MessageStop? }
  predicate IsBlockStop(e: Event) { e.BlockStop? }

  /** The serial numbers of the tool-use ids `evs` allocates, in order. */
  function ToolSerials(evs: seq<Event>): seq<nat>
    decreases |evs|
  {
    if |evs| == 0 then []
    else
      (if evs[0].BlockStart? && evs[0].block.ToolUseStart? then [evs[0].block.id.serial] else [])
      + ToolSerials(evs[1..])
  }

  /** The tool-use ids in `evs` carry the serials `from + 1` up to `to`,
      consecutively and in order. */
  predicate Numbered(evs: seq<Event>, from: nat, to: nat)
    decreases |evs|
  {
    if |evs| == 0 then from == to
    else if IsToolUseStart(evs[0]) then evs[0].block.id.serial == from + 1 && Numbered(evs[1..], from + 1, to)
    else Numbered(evs[1..], from, to)
  }

  lemma {:induction false} NumberedNone(evs: seq<Event>, counter: nat)
    requires forall e <- evs :: !IsToolUseStart(e)
    ensures Numbered(evs, counter, counter)
    decreases |evs|
  {
    if |evs| > 0 {
      assert evs[0] in evs;
      assert forall e <- evs[1..] :: e in evs;
      NumberedNone(evs[1..], counter);
    }
  }

  lemma {:induction false} NumberedAppend(a: seq<Event>, b: seq<Event>, c0: nat, c1: nat, c2: nat)
    requires Numbered(a, c0, c1) && Numbered(b, c1, c2)
    ensures Numbered(a + b, c0, c2)
    decreases |a|
  {
    if |a| == 0 {
      assert a + b == b;
    } else {
      assert (a + b)[0] == a[0];
      assert (a + b)[1..] == a[1..] + b;
      if IsToolUseStart(a[0]) {
        NumberedAppend(a[1..], b, c0 + 1, c1, c2);
      } else {
        NumberedAppend(a[1..], b, c0, c1, c2);
      }
    }
  }

  /** `n` consecutive serials starting after `from`. */
  function SerialRange(from: nat, n: nat): (s: seq<nat>)
    ensures |s| == n
  {
    seq(n, k requires 0 <= k < n => from + 1 + k)
  }

  /** The serials of a range are consecutive, hence pairwise distinct. */
  lemma SerialRangeAt(from: nat, n: nat)
    ensures forall k :: 0 <= k < n ==> SerialRange(from, n)[k] == from + 1 + k
    ensures forall j, k :: 0 <= j < k < n ==> SerialRange(from, n)[j] < SerialRange(from, n)[k]
  {
  }

  lemma SerialRangeAppend(from: nat, n: nat, m: nat)
    ensures SerialRange(from, n) + SerialRange(from + n, m) == SerialRange(from, n + m)
  {
    var a := SerialRange(from, n) + SerialRange(from + n, m);
    assert forall k | 0 <= k < n + m :: a[k] == from + 1 + k;
  }

  /** `Numbered` says exactly that the serials form a consecutive range. */
  lemma {:induction false} NumberedFromSerials(evs: seq<Event>, from: nat, n: nat)
    requires ToolSerials(evs) == SerialRange(from, n)
    ensures Numbered(evs, from, from + n)
    decreases |evs|
  {
    if |evs| == 0 {
    } else if IsToolUseStart(evs[0]) {
      assert ToolSerials(evs) == [evs[0].block.id.serial] + ToolSerials(evs[1..]);
      assert n >= 1;
      SerialRangeAppend(from, 1, n - 1);
      assert SerialRange(from, 1) == [from + 1];
      assert ToolSerials(evs[1..]) == ToolSerials(evs)[1..];
      assert SerialRange(from + 1, n - 1) == SerialRange(from, n)[1..];
      NumberedFromSerials(evs[1..], from + 1, n - 1);
    } else {
      NumberedFromSerials(evs[1..], from, n);
    }
  }

  lemma {:induction false} SerialsFromNumbered(evs: seq<Event>, from: nat, to: nat)
    requires Numbered(evs, from, to)
    ensures from <= to && ToolSerials(evs) == SerialRange(from, to - from)
    decreases |evs|
  {
    if |evs| == 0 {
    } else if IsToolUseStart(evs[0]) {
      SerialsFromNumbered(evs[1..], from + 1, to);
      SerialRangeAppend(from, 1, to - from - 1);
      assert SerialRange(from, 1) == [from + 1];
    } else {
      SerialsFromNumbered(evs[1..], from, to);
    }
  }

  /** The citations carried by the `citations_delta` events of `evs`, in order. */
  function CitationPayloads(evs: seq<Event>): seq<Citation>
    decreases |evs|
  {
    if |evs| == 0 then []
    else
      (if evs[0].BlockDelta? && evs[0].delta.CitationsDelta? then [evs[0].delta.citation] else [])
      + CitationPayloads(evs[1..])
  }

  lemma {:induction false} CitationPayloadsAppend(a: seq<Event>, b: seq<Event>)
    ensures CitationPayloads(a + b) == CitationPayloads(a) + CitationPayloads(b)
    decreases |a|
  {
    if |a| == 0 {
      assert a + b == b;
    } else {
      var head := if a[0].BlockDelta? && a[0].delta.CitationsDelta? then [a[0].delta.citation] else [];
      assert (a + b)[0] == a[0];
      assert (a + b)[1..] == a[1..] + b;
      calc {
        CitationPayloads(a + b);
        head + CitationPayloads(a[1..] + b);
        { CitationPayloadsAppend(a[1..], b); }
        head + (CitationPayloads(a[1..]) + CitationPayloads(b));
        (head + CitationPayloads(a[1..])) + CitationPayloads(b);
        CitationPayloads(a) + CitationPayloads(b);
      }
    }
  }

  /** The text carried by the `text_delta` events of `evs`, concatenated. */
  function TextPayload(evs: seq<Event>): string
    decreases |evs|
  {
    if |evs| == 0 then ""
    else
      (if evs[0].BlockDelta? && evs[0].delta.TextDelta? then evs[0].delta.text else "")
      + TextPayload(evs[1..])
  }

  lemma {:induction false} TextPayloadAppend(a: seq<Event>, b: seq<Event>)
    ensures TextPayload(a + b) == TextPayload(a) + TextPayload(b)
    decreases |a|
  {
    if |a| == 0 {
      assert a + b == b;
    } else {
      assert (a + b)[0] == a[0];
      assert (a + b)[1..] == a[1..] + b;
      TextPayloadAppend(a[1..], b);
    }
  }

  function Repeat(k: BlockKind, n: nat): (s: seq<BlockKind>)
    ensures |s| == n
    ensures forall i :: 0 <= i < n ==> s[i] == k
  {
    if n == 0 then [] else [k] + Repeat(k, n - 1)
  }

  /** Concatenation of a list of strings. */
  function Concat(ss: seq<string>): string
    decreases |ss|
  {
    if |ss| == 0 then "" else ss[0] + Concat(ss[1..])
  }

  lemma {:induction false} ConcatAppend(a: seq<string>, b: seq<string>)
    ensures Concat(a + b) == Concat(a) + Concat(b)
    decreases |a|
  {
    if |a| == 0 {
      assert a + b == b;
    } else {
      assert (a + b)[0] == a[0];
      assert (a + b)[1..] == a[1..] + b;
      ConcatAppend(a[1..], b);
    }
  }

  /** The observations of an event sequence, unfolded over its first event. */
  lemma ReplayCons(c: Cursor, e: Event, rest: seq<Event>)
    ensures Replay(c, [e] + rest) == ReplayFrom(Next(c, e), rest)
  {
    assert ([e] + rest)[0] == e;
    assert ([e] + rest)[1..] == rest;
  }

  lemma StartKindsCons(e: Event, rest: seq<Event>)
    ensures StartKinds([e] + rest) == (if e.BlockStart? then [KindOf(e.block)] else []) + StartKinds(rest)
  {
    assert ([e] + rest)[0] == e;
    assert ([e] + rest)[1..] == rest;
  }

  lemma PayloadsCons(e: Event, rest: seq<Event>)
    ensures CitationPayloads([e] + rest) ==
      (if e.BlockDelta? && e.delta.CitationsDelta? then [e.delta.citation] else []) + CitationPayloads(rest)
    ensures TextPayload([e] + rest) ==
      (if e.BlockDelta? && e.delta.TextDelta? then e.delta.text else "") + TextPayload(rest)
  {
    assert ([e] + rest)[0] == e;
    assert ([e] + rest)[1..] == rest;
  }

  lemma CountCons(e: Event, rest: seq<Event>, f: Event -> bool)
    ensures Count([e] + rest, f) == (if f(e) then 1 else 0) + Count(rest, f)
  {
    assert ([e] + rest)[0] == e;
    assert ([e] + rest)[1..] == rest;
  }

  /** The observations of a single event. */
  lemma ReplayOne(c: Cursor, e: Event)
    ensures Replay(c, [e]) == Next(c, e)
  {
    ReplayCons(c, e, []);
    assert [e] + [] == [e];
  }

  lemma CountOne(e: Event, f: Event -> bool)
    ensures Count([e], f) == (if f(e) then 1 else 0)
  {
    CountCons(e, [], f);
    assert [e] + [] == [e];
  }

  /** Events inside the content blocks, as opposed to the message envelope. */
  predicate BlockEvent(e: Event) {
    e.BlockStart? || e.BlockDelta? || e.BlockStop?
  }

  predicate IsToolUseStart(e: Event) {
    e.BlockStart? && e.block.ToolUseStart?
  }

  lemma {:induction false} CountNone(evs: seq<Event>, f: Event -> bool)
    requires forall e <- evs :: !f(e)
    ensures Count(evs, f) == 0
    decreases |evs|
  {
    if |evs| > 0 {
      assert evs[0] in evs;
      assert forall e <- evs[1..] :: e in evs;
      CountNone(evs[1..], f);
    }
  }

  /** Block events never touch the message envelope. */
  lemma EnvelopeFree(evs: seq<Event>)
    requires forall e <- evs :: BlockEvent(e)
    ensures Count(evs, IsMessageStart) == 0
    ensures Count(evs, IsMessageDelta) == 0
    ensures Count(evs, IsMessageStop) == 0
  {
    CountNone(evs, IsMessageStart);
    CountNone(evs, IsMessageDelta);
    CountNone(evs, IsMessageStop);
  }
}

=== FILE: non_stream.dfy ===
/**
 The one-shot translator: a complete upstream response becomes one Claude
 message document.

 Parts are read in order into two buffers, one for answer text and one for
 reasoning (with the signature seen for it). A change of kind flushes the
 other buffer into a content block, a function call flushes both and becomes
 a `tool_use` block numbered `tool_1`, `tool_2`, ... in call order, and the
 reasoning buffer is flushed at the end. With grounding data present the
 remaining answer text is held back and placed after the web-search blocks;
 otherwise it is flushed last.
 */
module NonStream {
  import opened Wrappers
  import opened Upstream
  import opened Claude
  import opened Usage
  import opened WebSearch

  /** One element of the document's `content`. A thinking block carries a
      `signature` only when one was seen; `input` of a tool call is the raw
      argument object, or None for the default `{}`. */
  datatype DocBlock =
    | PlainText(text: string)
    | Reasoning(thinking: string, signature: Option<string>)
    | ToolCall(ordinal: nat, name: string, input: Option<string>)
    | ServerToolCall(id: string, query: string)
    | SearchResults(toolUseId: string, results: seq<SearchResult>)
    | CitedText(text: string, citation: Citation)

  datatype DocUsage = DocUsage(inputTokens: int, outputTokens: int, cacheReadInputTokens: Option<int>)

  /** The message document. An empty `content` is written as `null`, and
      `usage` is None when the field is deleted. */
  datatype Document = Document(
    id: string,
    model: string,
    content: seq<DocBlock>,
    stopReason: StopReason,
    usage: Option<DocUsage>)

  /** The translator's working state while it reads the parts: the blocks so
      far, the two buffers, the pending signature and the tool counter. */
  datatype Acc = Acc(
    content: seq<DocBlock>,
    text: string,
    thinking: string,
    signature: string,
    tools: nat,
    hasToolCall: bool)

  const EmptyAcc := Acc([], "", "", "", 0, false)

  /** Whether a part carries non-empty text; such a part is read as text
      even when it also holds a function call. */
  predicate HasText(part: Part) {
    part.text.Some? && part.text.value != ""
  }

  /** Whether a part is read as a function call. */
  predicate IsCall(part: Part) {
    !HasText(part) && part.functionCall.Some?
  }

  /** The signature the one-shot path reads from a thought part:
      `thoughtSignature` when present (even if empty), else the snake-case
      `thought_signature`; "" when neither is there. */
  function OneShotSignature(part: Part): (s: string)
    ensures part.thoughtSignature.Some? ==> s == part.thoughtSignature.value
    ensures part.thoughtSignature.None? ==> s == part.legacyThoughtSignature.GetOr("")
  {
    match part.thoughtSignature
    case Some(sig) => sig
    case None => part.legacyThoughtSignature.GetOr("")
  }

  /** The `input` of a tool-use block: the raw arguments when their text is
      non-empty and parses as an object (`{}` included), else the default `{}`. */
  function ToolInput(args: Option<Args>): (r: Option<string>)
    ensures r.Some? <==> args.Some? && args.value.raw != "" && args.value.isObject
    ensures r.Some? ==> r.value == args.value.raw
  {
    if args.Some? && args.value.raw != "" && args.value.isObject then Some(args.value.raw) else None
  }

  /** Flush the answer buffer into a text block; nothing when it is empty. */
  function FlushText(a: Acc): (r: Acc)
    ensures r.text == ""
    ensures r.thinking == a.thinking && r.signature == a.signature
    ensures r.tools == a.tools && r.hasToolCall == a.hasToolCall
  {
    if a.text == "" then a
    else a.(content := a.content + [PlainText(a.text)], text := "")
  }

  /** Flush the reasoning buffer into a thinking block; nothing when both the
      buffer and the pending signature are empty. */
  function FlushThinking(a: Acc): (r: Acc)
    ensures r.thinking == "" && r.signature == ""
    ensures r.text == a.text
    ensures r.tools == a.tools && r.hasToolCall == a.hasToolCall
  {
    if a.thinking == "" && a.signature == "" then a
    else
      var sig := if a.signature != "" then Some(a.signature) else None;
      a.(content := a.content + [Reasoning(a.thinking, sig)], thinking := "", signature := "")
  }

  /** A thought part's non-empty signature becomes the pending one,
      replacing any earlier one; nothing else changes. */
  function TakeSignature(a: Acc, part: Part): (r: Acc)
    ensures r.content == a.content && r.text == a.text && r.thinking == a.thinking
    ensures r.tools == a.tools && r.hasToolCall == a.hasToolCall
    ensures r.signature == (if part.thought && OneShotSignature(part) != "" then OneShotSignature(part) else a.signature)
  {
    if part.thought && OneShotSignature(part) != "" then a.(signature := OneShotSignature(part)) else a
  }

  /** Read one part. A thought part's non-empty signature becomes the
      pending one. Then non-empty text goes to its buffer, flushing the
      other kind first; otherwise a function call flushes reasoning, then
      text, and is appended as the next numbered tool call. Anything else
      is skipped. */
  function Absorb(a: Acc, part: Part): (r: Acc)
    ensures r.tools == a.tools + (if IsCall(part) then 1 else 0)
    ensures r.hasToolCall == (a.hasToolCall || IsCall(part))
    ensures |a.content| <= |r.content| && r.content[..|a.content|] == a.content
  {
    var a1 := TakeSignature(a, part);
    if HasText(part) then
      if part.thought then
        var f := FlushText(a1);
        f.(thinking := f.thinking + part.text.value)
      else
        var f := FlushThinking(a1);
        f.(text := f.text + part.text.value)
    else if part.functionCall.Some? then
      var f := FlushText(FlushThinking(a1));
      var call := part.functionCall.value;
      f.(content := f.content + [ToolCall(f.tools + 1, call.name, ToolInput(call.args))],
         tools := f.tools + 1, hasToolCall := true)
    else a1
  }

  /** Read the parts in order. */
  function AbsorbAll(a: Acc, parts: seq<Part>): (r: Acc)
    ensures |a.content| <= |r.content| && r.content[..|a.content|] == a.content
    decreases |parts|
  {
    if |parts| == 0 then a
    else Absorb(AbsorbAll(a, parts[..|parts| - 1]), parts[|parts| - 1])
  }

  /** The search query of a one-shot response: the rendered search entry
      point, else the first search query, else "". */
  function OneShotQuery(c: Chunk): string {
    match c.groundingMetadata
    case None => ""
    case Some(gm) =>
      if gm.renderedContent != "" then gm.renderedContent
      else if |gm.webSearchQueries| > 0 then gm.webSearchQueries[0]
      else ""
  }

  /** The grounding chunks and supports of a one-shot response: only those
      inside `groundingMetadata`, a lone value read as a one-element list. */
  function OneShotChunks(c: Chunk): seq<GroundingChunk> {
    if c.groundingMetadata.Some? then c.groundingMetadata.value.groundingChunks.Elements() else []
  }

  function OneShotSupports(c: Chunk): seq<Support> {
    if c.groundingMetadata.Some? then c.groundingMetadata.value.groundingSupports.Elements() else []
  }

  /** One text block per usable citation, holding the cited text. The
      ensures only unfold the body for callers' proofs;
      `NonStreamProps.CitedTextsCitations` states that the blocks give back
      exactly their citations. */
  function CitedTexts(cs: seq<Citation>): (bs: seq<DocBlock>)
    ensures |bs| == |cs|
    ensures forall i :: 0 <= i < |cs| ==> bs[i] == CitedText(cs[i].citedText, cs[i])
  {
    seq(|cs|, i requires 0 <= i < |cs| => CitedText(cs[i].citedText, cs[i]))
  }

  /** The blocks of a grounded response after the flushed ones: the server
      tool call, its results, the cited texts, and the held-back answer text
      when there is any. */
  function GroundingBlocks(c: Chunk, serverToolUseId: string, held: string): seq<DocBlock> {
    var results := ToWebSearchResults(OneShotChunks(c));
    [ServerToolCall(serverToolUseId, OneShotQuery(c)), SearchResults(serverToolUseId, results)]
      + CitedTexts(Citations(results, OneShotSupports(c)))
      + (if held != "" then [PlainText(held)] else [])
  }

  /** `usage`: raw prompt tokens (cached ones not subtracted), the shared
      output-token rule and the cache read; deleted when both counts are 0
      and the response has no usage metadata. */
  function OneShotUsage(c: Chunk): (u: Option<DocUsage>)
    ensures u.None? <==> c.usageMetadata.None?
    ensures c.usageMetadata.Some? ==>
      var m := c.usageMetadata.value;
      u == Some(DocUsage(m.promptTokenCount,
        OutputTokens(m.candidatesTokenCount, m.thoughtsTokenCount, m.totalTokenCount, m.promptTokenCount),
        CacheRead(m.cachedContentTokenCount)))
  {
    var m := c.usageMetadata.GetOr(UsageMetadata(0, 0, 0, 0, 0));
    var prompt := m.promptTokenCount;
    var output := OutputTokens(m.candidatesTokenCount, m.thoughtsTokenCount, m.totalTokenCount, prompt);
    if prompt == 0 && output == 0 && c.usageMetadata.None? then None
    else Some(DocUsage(prompt, output, CacheRead(m.cachedContentTokenCount)))
  }

  /** The whole one-shot translation; `serverToolUseId` is the random id the
      translator draws for the `server_tool_use` block. */
  function ConvertNonStream(c: Chunk, serverToolUseId: string): (d: Document)
    ensures d.id == c.responseId.GetOr("") && d.model == c.modelVersion.GetOr("")
    ensures d.usage.None? <==> c.usageMetadata.None?
  {
    var read := FlushThinking(AbsorbAll(EmptyAcc, c.parts));
    var content :=
      if HasGroundingData(c) then read.content + GroundingBlocks(c, serverToolUseId, read.text)
      else FlushText(read).content;
    Document(c.responseId.GetOr(""), c.modelVersion.GetOr(""), content,
      StopReasonFor(read.hasToolCall, c.finishReason.GetOr("")), OneShotUsage(c))
  }
}

=== FILE: non_stream_props.dfy ===
/**
 What the one-shot translator promises, stated against reference definitions
 computed directly from the parts: all answer text and all reasoning text
 survive in order, tool calls are numbered 1..n in call order, no block is
 empty and no two text blocks touch, only the trailing answer text is held
 back behind the grounding blocks, which come in the same order as in the
 streaming translator, and usage is deleted exactly when the response has
 none.
 */
module NonStreamProps {
  import opened Wrappers
  import opened Upstream
  import opened Claude
  import opened Usage
  import opened WebSearch
  import opened NonStream

  // Reference definitions over the parts.

  /** The answer text a part contributes. */
  function AnswerOf(part: Part): string {
    if HasText(part) && !part.thought then part.text.value else ""
  }

  /** The reasoning text a part contributes. */
  function ThoughtOf(part: Part): string {
    if HasText(part) && part.thought then part.text.value else ""
  }

  /** All answer text of `parts`, in order. */
  function AnswerText(parts: seq<Part>): string
    decreases |parts|
  {
    if |parts| == 0 then "" else AnswerText(parts[..|parts| - 1]) + AnswerOf(parts[|parts| - 1])
  }

  /** All reasoning text of `parts`, in order. */
  function ThoughtText(parts: seq<Part>): string
    decreases |parts|
  {
    if |parts| == 0 then "" else ThoughtText(parts[..|parts| - 1]) + ThoughtOf(parts[|parts| - 1])
  }

  /** The function calls of `parts`, in order. */
  function Calls(parts: seq<Part>): seq<FunctionCall>
    decreases |parts|
  {
    if |parts| == 0 then []
    else Calls(parts[..|parts| - 1]) + (if IsCall(parts[|parts| - 1]) then [parts[|parts| - 1].functionCall.value] else [])
  }

  /** Tool-use blocks for `calls`, numbered on from `base`. */
  function NumberedCalls(calls: seq<FunctionCall>, base: nat): (bs: seq<DocBlock>)
    ensures |bs| == |calls|
  {
    seq(|calls|, k requires 0 <= k < |calls| => ToolCall(base + 1 + k, calls[k].name, ToolInput(calls[k].args)))
  }

  /** The answer text after the last reasoning text or function call. */
  function TrailingAnswer(parts: seq<Part>): string
    decreases |parts|
  {
    if |parts| == 0 then ""
    else
      var p := parts[|parts| - 1];
      if HasText(p) && !p.thought then TrailingAnswer(parts[..|parts| - 1]) + p.text.value
      else if HasText(p) || IsCall(p) then ""
      else TrailingAnswer(parts[..|parts| - 1])
  }

  // Observations of a block list.

  function TextOfBlock(b: DocBlock): string {
    if b.PlainText? then b.text else ""
  }

  function ThinkingOfBlock(b: DocBlock): string {
    if b.Reasoning? then b.thinking else ""
  }

  /** The text of the plain text blocks, in order (cited texts excluded). */
  function TextOf(bs: seq<DocBlock>): string
    decreases |bs|
  {
    if |bs| == 0 then "" else TextOf(bs[..|bs| - 1]) + TextOfBlock(bs[|bs| - 1])
  }

  /** The text of the thinking blocks, in order. */
  function ThinkingOf(bs: seq<DocBlock>): string
    decreases |bs|
  {
    if |bs| == 0 then "" else ThinkingOf(bs[..|bs| - 1]) + ThinkingOfBlock(bs[|bs| - 1])
  }

  /** The tool-use blocks, in order. */
  function ToolBlocks(bs: seq<DocBlock>): seq<DocBlock>
    decreases |bs|
  {
    if |bs| == 0 then [] else ToolBlocks(bs[..|bs| - 1]) + (if bs[|bs| - 1].ToolCall? then [bs[|bs| - 1]] else [])
  }

  /** Everything said so far: flushed answer text, then the buffer. */
  function Said(a: Acc): string {
    TextOf(a.content) + a.text
  }

  /** Everything thought so far: flushed reasoning, then the buffer. */
  function Thought(a: Acc): string {
    ThinkingOf(a.content) + a.thinking
  }

  lemma ObserveSnoc(bs: seq<DocBlock>, b: DocBlock)
    ensures TextOf(bs + [b]) == TextOf(bs) + TextOfBlock(b)
    ensures ThinkingOf(bs + [b]) == ThinkingOf(bs) + ThinkingOfBlock(b)
    ensures ToolBlocks(bs + [b]) == ToolBlocks(bs) + (if b.ToolCall? then [b] else [])
  {
    assert (bs + [b])[..|bs|] == bs;
  }

  lemma {:induction false} TextOfAppend(a: seq<DocBlock>, b: seq<DocBlock>)
    ensures TextOf(a + b) == TextOf(a) + TextOf(b)
    decreases |b|
  {
    if |b| == 0 {
      assert a + b == a;
    } else {
      var init, last := b[..|b| - 1], b[|b| - 1];
      var ab := a + b;
      assert ab[..|ab| - 1] == a + init;
      calc {
        TextOf(ab);
        TextOf(a + init) + TextOfBlock(last);
        { TextOfAppend(a, init); }
        (TextOf(a) + TextOf(init)) + TextOfBlock(last);
        TextOf(a) + (TextOf(init) + TextOfBlock(last));
        TextOf(a) + TextOf(b);
      }
    }
  }

  lemma {:induction false} ThinkingOfAppend(a: seq<DocBlock>, b: seq<DocBlock>)
    ensures ThinkingOf(a + b) == ThinkingOf(a) + ThinkingOf(b)
    decreases |b|
  {
    if |b| == 0 {
      assert a + b == a;
    } else {
      var init, last := b[..|b| - 1], b[|b| - 1];
      var ab := a + b;
      assert ab[..|ab| - 1] == a + init;
      calc {
        ThinkingOf(ab);
        ThinkingOf(a + init) + ThinkingOfBlock(last);
        { ThinkingOfAppend(a, init); }
        (ThinkingOf(a) + ThinkingOf(init)) + ThinkingOfBlock(last);
        ThinkingOf(a) + (ThinkingOf(init) + ThinkingOfBlock(last));
        ThinkingOf(a) + ThinkingOf(b);
      }
    }
  }

  lemma {:induction false} ToolBlocksAppend(a: seq<DocBlock>, b: seq<DocBlock>)
    ensures ToolBlocks(a + b) == ToolBlocks(a) + ToolBlocks(b)
    decreases |b|
  {
    if |b| == 0 {
      assert a + b == a;
    } else {
      var init := b[..|b| - 1];
      var last := b[|b| - 1];
      var ab := a + b;
      assert ab[..|ab| - 1] == a + init;
      assert ab[|ab| - 1] == last;
      ToolBlocksAppend(a, init);
      var tail := if last.ToolCall? then [last] else [];
      assert ToolBlocks(ab) == (ToolBlocks(a) + ToolBlocks(init)) + tail;
    }
  }

  // Flushing moves text between buffer and blocks and loses nothing.

  lemma FlushTextKeeps(a: Acc)
    ensures Said(FlushText(a)) == Said(a)
    ensures Thought(FlushText(a)) == Thought(a)
    ensures ToolBlocks(FlushText(a).content) == ToolBlocks(a.content)
  {
    if a.text != "" {
      ObserveSnoc(a.content, PlainText(a.text));
    }
  }

  lemma FlushThinkingKeeps(a: Acc)
    ensures Said(FlushThinking(a)) == Said(a)
    ensures Thought(FlushThinking(a)) == Thought(a)
    ensures ToolBlocks(FlushThinking(a).content) == ToolBlocks(a.content)
  {
    if a.thinking != "" || a.signature != "" {
      ObserveSnoc(a.content, Reasoning(a.thinking, if a.signature != "" then Some(a.signature) else None));
    }
  }

  // Reading one part, case by case.

  /** An answer part flushes the reasoning buffer and extends the answer. */
  lemma AbsorbAnswer(a: Acc, part: Part)
    requires HasText(part) && !part.thought
    ensures Said(Absorb(a, part)) == Said(a) + part.text.value
    ensures Thought(Absorb(a, part)) == Thought(a)
    ensures ToolBlocks(Absorb(a, part).content) == ToolBlocks(a.content)
  {
    var f := FlushThinking(a);
    assert Absorb(a, part) == f.(text := f.text + part.text.value);
    FlushThinkingKeeps(a);
    assert Said(f.(text := f.text + part.text.value)) == TextOf(f.content) + (f.text + part.text.value);
  }

  /** A reasoning part flushes the answer buffer and extends the reasoning. */
  lemma AbsorbReasoning(a: Acc, part: Part)
    requires HasText(part) && part.thought
    ensures Said(Absorb(a, part)) == Said(a)
    ensures Thought(Absorb(a, part)) == Thought(a) + part.text.value
    ensures ToolBlocks(Absorb(a, part).content) == ToolBlocks(a.content)
  {
    var a1 := TakeSignature(a, part);
    var f := FlushText(a1);
    assert Absorb(a, part) == f.(thinking := f.thinking + part.text.value);
    FlushTextKeeps(a1);
    assert Thought(f.(thinking := f.thinking + part.text.value)) == ThinkingOf(f.content) + (f.thinking + part.text.value);
  }

  /** A function call flushes both buffers and adds the next tool call. */
  lemma AbsorbCall(a: Acc, part: Part)
    requires IsCall(part)
    ensures Said(Absorb(a, part)) == Said(a)
    ensures Thought(Absorb(a, part)) == Thought(a)
    ensures ToolBlocks(Absorb(a, part).content) == ToolBlocks(a.content)
      + [ToolCall(a.tools + 1, part.functionCall.value.name, ToolInput(part.functionCall.value.args))]
  {
    var a1 := TakeSignature(a, part);
    var f0 := FlushThinking(a1);
    var f := FlushText(f0);
    var call := part.functionCall.value;
    var b := ToolCall(f.tools + 1, call.name, ToolInput(call.args));
    assert Absorb(a, part) == f.(content := f.content + [b], tools := f.tools + 1, hasToolCall := true);
    FlushThinkingKeeps(a1);
    FlushTextKeeps(f0);
    ObserveSnoc(f.content, b);
    assert TextOf(f.content) + "" == TextOf(f.content);
    assert ThinkingOf(f.content) + "" == ThinkingOf(f.content);
  }

  /** Any other part at most replaces the pending signature. */
  lemma AbsorbOther(a: Acc, part: Part)
    requires !HasText(part) && part.functionCall.None?
    ensures Absorb(a, part).content == a.content
    ensures Absorb(a, part).text == a.text && Absorb(a, part).thinking == a.thinking
  {
  }

  /** Reading one part adds exactly its answer text. */
  lemma AbsorbSays(a: Acc, part: Part)
    ensures Said(Absorb(a, part)) == Said(a) + AnswerOf(part)
  {
    if HasText(part) && !part.thought {
      AbsorbAnswer(a, part);
    } else {
      assert Said(a) + "" == Said(a);
      if HasText(part) {
        AbsorbReasoning(a, part);
      } else if part.functionCall.Some? {
        AbsorbCall(a, part);
      } else {
        AbsorbOther(a, part);
      }
    }
  }

  /** Reading one part adds exactly its reasoning text. */
  lemma AbsorbThinks(a: Acc, part: Part)
    ensures Thought(Absorb(a, part)) == Thought(a) + ThoughtOf(part)
  {
    if HasText(part) && part.thought {
      AbsorbReasoning(a, part);
    } else {
      assert Thought(a) + "" == Thought(a);
      if HasText(part) {
        AbsorbAnswer(a, part);
      } else if part.functionCall.Some? {
        AbsorbCall(a, part);
      } else {
        AbsorbOther(a, part);
      }
    }
  }

  /** Reading one part adds exactly its tool call, numbered after the
      earlier ones. */
  lemma AbsorbCalls(a: Acc, part: Part)
    ensures ToolBlocks(Absorb(a, part).content) == ToolBlocks(a.content)
      + (if IsCall(part) then [ToolCall(a.tools + 1, part.functionCall.value.name, ToolInput(part.functionCall.value.args))] else [])
  {
    if HasText(part) && part.thought {
      AbsorbReasoning(a, part);
    } else if HasText(part) {
      AbsorbAnswer(a, part);
    } else if part.functionCall.Some? {
      AbsorbCall(a, part);
    } else {
      AbsorbOther(a, part);
    }
  }

  lemma NumberedCallsSnoc(calls: seq<FunctionCall>, c: FunctionCall, base: nat)
    ensures NumberedCalls(calls + [c], base)
      == NumberedCalls(calls, base) + [ToolCall(base + |calls| + 1, c.name, ToolInput(c.args))]
  {
    var l := NumberedCalls(calls + [c], base);
    var r := NumberedCalls(calls, base) + [ToolCall(base + |calls| + 1, c.name, ToolInput(c.args))];
    assert forall k | 0 <= k < |l| :: l[k] == r[k];
  }

  /** Reading the parts adds exactly their answer text, in order. */
  lemma {:induction false} AbsorbAllSays(a: Acc, parts: seq<Part>)
    ensures Said(AbsorbAll(a, parts)) == Said(a) + AnswerText(parts)
    decreases |parts|
  {
    if |parts| > 0 {
      var init := parts[..|parts| - 1];
      AbsorbAllSays(a, init);
      AbsorbSays(AbsorbAll(a, init), parts[|parts| - 1]);
    }
  }

  /** Reading the parts adds exactly their reasoning text, in order. */
  lemma {:induction false} AbsorbAllThinks(a: Acc, parts: seq<Part>)
    ensures Thought(AbsorbAll(a, parts)) == Thought(a) + ThoughtText(parts)
    decreases |parts|
  {
    if |parts| > 0 {
      var init := parts[..|parts| - 1];
      AbsorbAllThinks(a, init);
      AbsorbThinks(AbsorbAll(a, init), parts[|parts| - 1]);
    }
  }

  /** Reading the parts counts their tool calls and records whether there
      was any. */
  lemma {:induction false} AbsorbAllCounts(a: Acc, parts: seq<Part>)
    ensures AbsorbAll(a, parts).tools == a.tools + |Calls(parts)|
    ensures AbsorbAll(a, parts).hasToolCall == (a.hasToolCall || |Calls(parts)| > 0)
    decreases |parts|
  {
    if |parts| > 0 {
      AbsorbAllCounts(a, parts[..|parts| - 1]);
    }
  }

  /** Reading the parts adds exactly their tool calls, numbered on from the
      counter. */
  lemma {:induction false} AbsorbAllCalls(a: Acc, parts: seq<Part>)
    ensures ToolBlocks(AbsorbAll(a, parts).content) == ToolBlocks(a.content) + NumberedCalls(Calls(parts), a.tools)
    decreases |parts|
  {
    if |parts| == 0 {
      assert NumberedCalls([], a.tools) == [];
      assert ToolBlocks(a.content) + [] == ToolBlocks(a.content);
    } else {
      var init := parts[..|parts| - 1];
      var p := parts[|parts| - 1];
      var mid := AbsorbAll(a, init);
      AbsorbAllCalls(a, init);
      AbsorbAllCounts(a, init);
      AbsorbCalls(mid, p);
      CallsStep(a, mid, Absorb(mid, p), parts);
    }
  }

  /** The inductive step of `AbsorbAllCalls`, for any accumulators `mid`
      (after all parts but the last) and `r` (after the last). */
  lemma CallsStep(a: Acc, mid: Acc, r: Acc, parts: seq<Part>)
    requires |parts| > 0
    requires ToolBlocks(mid.content) == ToolBlocks(a.content) + NumberedCalls(Calls(parts[..|parts| - 1]), a.tools)
    requires mid.tools == a.tools + |Calls(parts[..|parts| - 1])|
    requires ToolBlocks(r.content) == ToolBlocks(mid.content)
      + (if IsCall(parts[|parts| - 1])
         then [ToolCall(mid.tools + 1, parts[|parts| - 1].functionCall.value.name, ToolInput(parts[|parts| - 1].functionCall.value.args))]
         else [])
    ensures ToolBlocks(r.content) == ToolBlocks(a.content) + NumberedCalls(Calls(parts), a.tools)
  {
    var init := parts[..|parts| - 1];
    var p := parts[|parts| - 1];
    if IsCall(p) {
      NumberedCallsSnoc(Calls(init), p.functionCall.value, a.tools);
    } else {
      assert Calls(parts) == Calls(init);
    }
  }

  /** The answer buffer after reading the parts is the trailing answer text. */
  lemma {:induction false} AbsorbAllHolds(parts: seq<Part>)
    ensures AbsorbAll(EmptyAcc, parts).text == TrailingAnswer(parts)
    decreases |parts|
  {
    if |parts| > 0 {
      AbsorbAllHolds(parts[..|parts| - 1]);
    }
  }

  // Tidiness: no empty block, no two text blocks side by side.

  predicate NonEmptyBlock(b: DocBlock) {
    && (b.PlainText? ==> b.text != "")
    && (b.Reasoning? ==> (b.thinking != "" || b.signature.Some?) && (b.signature.Some? ==> b.signature.value != ""))
  }

  predicate TidyBlocks(bs: seq<DocBlock>) {
    && (forall i :: 0 <= i < |bs| ==> NonEmptyBlock(bs[i]))
    && (forall i :: 0 <= i < |bs| - 1 ==> !(bs[i].PlainText? && bs[i + 1].PlainText?))
  }

  predicate LastIsText(bs: seq<DocBlock>) {
    |bs| > 0 && bs[|bs| - 1].PlainText?
  }

  /** The reading invariant: tidy blocks, at most one buffer filled, and a
      text block last only while reasoning is buffered (so the next text
      flush is preceded by a thinking block). */
  predicate Tidy(a: Acc) {
    && TidyBlocks(a.content)
    && (a.thinking != "" ==> a.text == "")
    && (LastIsText(a.content) ==> a.thinking != "")
  }

  lemma PushTidy(bs: seq<DocBlock>, b: DocBlock)
    requires TidyBlocks(bs) && NonEmptyBlock(b)
    requires b.PlainText? ==> !LastIsText(bs)
    ensures TidyBlocks(bs + [b])
  {
    var r := bs + [b];
    forall i | 0 <= i < |r| - 1
      ensures !(r[i].PlainText? && r[i + 1].PlainText?)
    {
      if i < |bs| - 1 {
        assert r[i] == bs[i] && r[i + 1] == bs[i + 1];
      }
    }
  }

  lemma FlushThinkingTidy(a: Acc)
    requires Tidy(a)
    ensures TidyBlocks(FlushThinking(a).content)
    ensures !LastIsText(FlushThinking(a).content)
  {
    if a.thinking != "" || a.signature != "" {
      PushTidy(a.content, Reasoning(a.thinking, if a.signature != "" then Some(a.signature) else None));
    }
  }

  lemma FlushTextTidy(a: Acc)
    requires TidyBlocks(a.content) && !LastIsText(a.content)
    ensures TidyBlocks(FlushText(a).content)
  {
    if a.text != "" {
      PushTidy(a.content, PlainText(a.text));
    }
  }

  lemma AbsorbTidy(a: Acc, part: Part)
    requires Tidy(a)
    ensures Tidy(Absorb(a, part))
  {
    var a1 := TakeSignature(a, part);
    assert Tidy(a1);
    if HasText(part) {
      if part.thought {
        if a1.text != "" {
          PushTidy(a1.content, PlainText(a1.text));
        }
      } else {
        FlushThinkingTidy(a1);
      }
    } else if part.functionCall.Some? {
      var f1 := FlushThinking(a1);
      FlushThinkingTidy(a1);
      FlushTextTidy(f1);
      var f := FlushText(f1);
      var call := part.functionCall.value;
      PushTidy(f.content, ToolCall(f.tools + 1, call.name, ToolInput(call.args)));
    }
  }

  lemma {:induction false} AbsorbAllTidy(parts: seq<Part>)
    ensures Tidy(AbsorbAll(EmptyAcc, parts))
    decreases |parts|
  {
    if |parts| > 0 {
      AbsorbAllTidy(parts[..|parts| - 1]);
      AbsorbTidy(AbsorbAll(EmptyAcc, parts[..|parts| - 1]), parts[|parts| - 1]);
    }
  }

  // Blocks that carry no reading: the grounding head and the cited texts.

  predicate Quiet(b: DocBlock) {
    b.ServerToolCall? || b.SearchResults? || b.CitedText?
  }

  predicate AllQuiet(bs: seq<DocBlock>) {
    forall i :: 0 <= i < |bs| ==> Quiet(bs[i])
  }

  predicate NoneQuiet(bs: seq<DocBlock>) {
    forall i :: 0 <= i < |bs| ==> !Quiet(bs[i])
  }

  lemma {:induction false} QuietObserved(bs: seq<DocBlock>)
    requires AllQuiet(bs)
    ensures TextOf(bs) == "" && ThinkingOf(bs) == "" && ToolBlocks(bs) == []
    decreases |bs|
  {
    if |bs| > 0 {
      var init := bs[..|bs| - 1];
      assert forall i :: 0 <= i < |init| ==> init[i] == bs[i];
      QuietObserved(init);
    }
  }

  /** Quiet blocks followed by an optional text block add exactly that text. */
  lemma QuietThenText(q: seq<DocBlock>, held: string)
    requires AllQuiet(q)
    ensures var bs := q + (if held != "" then [PlainText(held)] else []);
      TextOf(bs) == held && ThinkingOf(bs) == "" && ToolBlocks(bs) == []
  {
    QuietObserved(q);
    if held != "" {
      ObserveSnoc(q, PlainText(held));
    } else {
      assert q + [] == q;
    }
  }

  /** The grounding blocks add exactly the held-back answer text, and no
      reasoning or tool call. */
  lemma GroundingObserved(c: Chunk, id: string, held: string)
    ensures TextOf(GroundingBlocks(c, id, held)) == held
    ensures ThinkingOf(GroundingBlocks(c, id, held)) == ""
    ensures ToolBlocks(GroundingBlocks(c, id, held)) == []
  {
    var results := ToWebSearchResults(OneShotChunks(c));
    var q := [ServerToolCall(id, OneShotQuery(c)), SearchResults(id, results)]
      + CitedTexts(Citations(results, OneShotSupports(c)));
    assert AllQuiet(q);
    assert GroundingBlocks(c, id, held) == q + (if held != "" then [PlainText(held)] else []);
    QuietThenText(q, held);
  }

  /** The grounding blocks are tidy and open with a non-text block. */
  lemma GroundingTidy(c: Chunk, id: string, held: string)
    ensures TidyBlocks(GroundingBlocks(c, id, held))
    ensures !GroundingBlocks(c, id, held)[0].PlainText?
  {
    var results := ToWebSearchResults(OneShotChunks(c));
    var q := [ServerToolCall(id, OneShotQuery(c)), SearchResults(id, results)]
      + CitedTexts(Citations(results, OneShotSupports(c)));
    assert AllQuiet(q);
    assert TidyBlocks(q);
    if held != "" {
      assert GroundingBlocks(c, id, held) == q + [PlainText(held)];
      PushTidy(q, PlainText(held));
    } else {
      assert GroundingBlocks(c, id, held) == q;
    }
  }

  lemma TidyAppend(x: seq<DocBlock>, y: seq<DocBlock>)
    requires TidyBlocks(x) && TidyBlocks(y)
    requires |y| > 0 && y[0].PlainText? ==> !LastIsText(x)
    ensures TidyBlocks(x + y)
  {
    var r := x + y;
    forall i | 0 <= i < |r|
      ensures NonEmptyBlock(r[i])
    {
      if i < |x| { assert r[i] == x[i]; } else { assert r[i] == y[i - |x|]; }
    }
    forall i | 0 <= i < |r| - 1
      ensures !(r[i].PlainText? && r[i + 1].PlainText?)
    {
      if i < |x| - 1 {
        assert r[i] == x[i] && r[i + 1] == x[i + 1];
      } else if i == |x| - 1 {
        assert r[i] == x[i] && r[i + 1] == y[0];
      } else {
        assert r[i] == y[i - |x|] && r[i + 1] == y[i - |x| + 1];
      }
    }
  }

  lemma UnquietSnoc(bs: seq<DocBlock>, b: DocBlock)
    requires NoneQuiet(bs) && !Quiet(b)
    ensures NoneQuiet(bs + [b])
  {
    var r := bs + [b];
    forall i | 0 <= i < |r|
      ensures !Quiet(r[i])
    {
      if i < |bs| { assert r[i] == bs[i]; }
    }
  }

  lemma FlushUnquiet(a: Acc)
    requires NoneQuiet(a.content)
    ensures NoneQuiet(FlushThinking(a).content) && NoneQuiet(FlushText(a).content)
  {
    if a.thinking != "" || a.signature != "" {
      UnquietSnoc(a.content, Reasoning(a.thinking, if a.signature != "" then Some(a.signature) else None));
    }
    if a.text != "" {
      UnquietSnoc(a.content, PlainText(a.text));
    }
  }

  lemma AbsorbUnquiet(a: Acc, part: Part)
    requires NoneQuiet(a.content)
    ensures NoneQuiet(Absorb(a, part).content)
  {
    var a1 := TakeSignature(a, part);
    FlushUnquiet(a1);
    if !HasText(part) && part.functionCall.Some? {
      var f1 := FlushThinking(a1);
      FlushUnquiet(f1);
      var f := FlushText(f1);
      var call := part.functionCall.value;
      UnquietSnoc(f.content, ToolCall(f.tools + 1, call.name, ToolInput(call.args)));
    }
  }

  /** Reading the parts yields only text, thinking and tool-use blocks. */
  lemma {:induction false} AbsorbAllUnquiet(parts: seq<Part>)
    ensures NoneQuiet(AbsorbAll(EmptyAcc, parts).content)
    decreases |parts|
  {
    if |parts| > 0 {
      AbsorbAllUnquiet(parts[..|parts| - 1]);
      AbsorbUnquiet(AbsorbAll(EmptyAcc, parts[..|parts| - 1]), parts[|parts| - 1]);
    }
  }

  // The whole translation.

  /** The document's plain text is all answer text of the parts, in order,
      with or without grounding. */
  lemma ConvertNonStreamText(c: Chunk, id: string)
    ensures TextOf(ConvertNonStream(c, id).content) == AnswerText(c.parts)
  {
    var all := AbsorbAll(EmptyAcc, c.parts);
    var read := FlushThinking(all);
    AbsorbAllSays(EmptyAcc, c.parts);
    FlushThinkingKeeps(all);
    assert Said(EmptyAcc) == "";
    assert Said(read) == AnswerText(c.parts);
    if HasGroundingData(c) {
      TextOfAppend(read.content, GroundingBlocks(c, id, read.text));
      GroundingObserved(c, id, read.text);
    } else {
      FlushTextKeeps(read);
    }
  }

  /** The document's reasoning is all reasoning text of the parts, in order. */
  lemma ConvertNonStreamThinking(c: Chunk, id: string)
    ensures ThinkingOf(ConvertNonStream(c, id).content) == ThoughtText(c.parts)
  {
    var all := AbsorbAll(EmptyAcc, c.parts);
    var read := FlushThinking(all);
    AbsorbAllThinks(EmptyAcc, c.parts);
    FlushThinkingKeeps(all);
    assert Thought(EmptyAcc) == "";
    assert Thought(read) == ThoughtText(c.parts);
    assert ThinkingOf(read.content) + "" == ThinkingOf(read.content);
    if HasGroundingData(c) {
      ThinkingOfAppend(read.content, GroundingBlocks(c, id, read.text));
      GroundingObserved(c, id, read.text);
    } else {
      FlushTextKeeps(read);
    }
  }

  /** The document's tool-use blocks are the parts' function calls in order,
      numbered `tool_1`, `tool_2`, ... */
  lemma ConvertNonStreamTools(c: Chunk, id: string)
    ensures ToolBlocks(ConvertNonStream(c, id).content) == NumberedCalls(Calls(c.parts), 0)
  {
    var all := AbsorbAll(EmptyAcc, c.parts);
    var read := FlushThinking(all);
    AbsorbAllCalls(EmptyAcc, c.parts);
    FlushThinkingKeeps(all);
    assert ToolBlocks(read.content) == NumberedCalls(Calls(c.parts), 0);
    if HasGroundingData(c) {
      ToolBlocksAppend(read.content, GroundingBlocks(c, id, read.text));
      GroundingObserved(c, id, read.text);
    } else {
      FlushTextKeeps(read);
    }
  }

  /** `tool_use` exactly when some part is read as a function call, else
      the finish reason decides. */
  lemma ConvertNonStreamStop(c: Chunk, id: string)
    ensures ConvertNonStream(c, id).stopReason == StopReasonFor(|Calls(c.parts)| > 0, c.finishReason.GetOr(""))
  {
    AbsorbAllCounts(EmptyAcc, c.parts);
  }

  /** No block of the document is empty and no two plain text blocks touch. */
  lemma ConvertNonStreamTidy(c: Chunk, id: string)
    ensures TidyBlocks(ConvertNonStream(c, id).content)
  {
    var all := AbsorbAll(EmptyAcc, c.parts);
    var read := FlushThinking(all);
    AbsorbAllTidy(c.parts);
    FlushThinkingTidy(all);
    if HasGroundingData(c) {
      GroundingTidy(c, id, read.text);
      TidyAppend(read.content, GroundingBlocks(c, id, read.text));
    } else {
      FlushTextTidy(read);
    }
  }

  /** With grounding data the document ends with the grounding blocks, which
      hold back exactly the trailing answer text; the blocks before them
      carry the rest of the answer. Without it no grounding block appears. */
  lemma ConvertNonStreamLayout(c: Chunk, id: string)
    ensures var d := ConvertNonStream(c, id);
      HasGroundingData(c) ==>
        var g := GroundingBlocks(c, id, TrailingAnswer(c.parts));
        && |g| <= |d.content|
        && d.content[|d.content| - |g|..] == g
        && TextOf(d.content[..|d.content| - |g|]) + TrailingAnswer(c.parts) == AnswerText(c.parts)
    ensures !HasGroundingData(c) ==> NoneQuiet(ConvertNonStream(c, id).content)
  {
    var all := AbsorbAll(EmptyAcc, c.parts);
    var read := FlushThinking(all);
    AbsorbAllHolds(c.parts);
    var d := ConvertNonStream(c, id);
    if HasGroundingData(c) {
      var g := GroundingBlocks(c, id, read.text);
      assert d.content == read.content + g;
      assert d.content[..|d.content| - |g|] == read.content;
      assert d.content[|d.content| - |g|..] == g;
      ConvertNonStreamText(c, id);
      TextOfAppend(read.content, g);
      GroundingObserved(c, id, read.text);
    } else {
      AbsorbAllUnquiet(c.parts);
      FlushUnquiet(all);
      FlushUnquiet(read);
    }
  }

  // Agreement with the streaming translator.

  /** The kind of block a document block is, in the streaming vocabulary. */
  function DocKind(b: DocBlock): BlockKind {
    match b
    case PlainText(_) => TextKind
    case Reasoning(_, _) => ThinkingKind
    case ToolCall(_, _, _) => ToolUseKind
    case ServerToolCall(_, _) => ServerToolUseKind
    case SearchResults(_, _) => WebSearchResultKind
    case CitedText(_, _) => CitedTextKind
  }

  function DocKinds(bs: seq<DocBlock>): (ks: seq<BlockKind>)
    ensures |ks| == |bs|
  {
    seq(|bs|, i requires 0 <= i < |bs| => DocKind(bs[i]))
  }

  lemma DocKindsAppend(x: seq<DocBlock>, y: seq<DocBlock>)
    ensures DocKinds(x + y) == DocKinds(x) + DocKinds(y)
  {
    var l := DocKinds(x + y);
    var r := DocKinds(x) + DocKinds(y);
    forall k | 0 <= k < |l|
      ensures l[k] == r[k]
    {
      if k < |x| { assert (x + y)[k] == x[k]; } else { assert (x + y)[k] == y[k - |x|]; }
    }
  }

  lemma CitedTextsKinds(cs: seq<Citation>)
    ensures DocKinds(CitedTexts(cs)) == Repeat(CitedTextKind, |cs|)
  {
  }

  /** Given the same results and supports, and the one-shot path holding
      exactly the text the streaming path buffered, the one-shot grounding
      blocks come in the order of the blocks the streaming translator emits
      at the end of a grounded turn, except in one case. When every buffered
      text is empty, streaming still sends an empty text block, and the
      one-shot path sends none. */
  lemma GroundingMatchesStream(c: Chunk, id: string, ws: WebSearchState, index: nat)
    requires ws.results == ToWebSearchResults(OneShotChunks(c))
    requires ws.supports == OneShotSupports(c)
    ensures var held := Concat(ws.bufferedTextParts);
      StartKinds(WebSearchBlocks(ws, index).events)
        == DocKinds(GroundingBlocks(c, id, held)) + (if |ws.bufferedTextParts| > 0 && held == "" then [TextKind] else [])
  {
    var held := Concat(ws.bufferedTextParts);
    WebSearchBlocksOrder(ws, index);
    var cs := Citations(ws.results, ws.supports);
    var head := [ServerToolCall(id, OneShotQuery(c)), SearchResults(id, ws.results)];
    var tail := if held != "" then [PlainText(held)] else [];
    var extra: seq<BlockKind> := if |ws.bufferedTextParts| > 0 && held == "" then [TextKind] else [];
    assert GroundingBlocks(c, id, held) == head + (CitedTexts(cs) + tail);
    DocKindsAppend(head, CitedTexts(cs) + tail);
    DocKindsAppend(CitedTexts(cs), tail);
    CitedTextsKinds(cs);
    assert DocKinds(head) == [ServerToolUseKind, WebSearchResultKind];
    assert DocKinds(tail) + extra == (if |ws.bufferedTextParts| > 0 then [TextKind] else []);
    AppendAssoc3([ServerToolUseKind, WebSearchResultKind], Repeat(CitedTextKind, |cs|), DocKinds(tail), extra);
  }

  lemma AppendAssoc3<T>(a: seq<T>, b: seq<T>, c: seq<T>, d: seq<T>)
    ensures (a + (b + c)) + d == a + (b + (c + d))
  {
  }

  /** The two paths give the same kinds of grounding blocks exactly when the
      streaming buffer is empty or carries some text. */
  lemma GroundingSameKinds(c: Chunk, id: string, ws: WebSearchState, index: nat)
    requires ws.results == ToWebSearchResults(OneShotChunks(c))
    requires ws.supports == OneShotSupports(c)
    ensures var held := Concat(ws.bufferedTextParts);
      (DocKinds(GroundingBlocks(c, id, held)) == StartKinds(WebSearchBlocks(ws, index).events))
      <==> (|ws.bufferedTextParts| == 0 || held != "")
  {
    GroundingMatchesStream(c, id, ws, index);
  }

  /** A grounded turn whose only buffered text is the empty string, as when
      the backend ends with an empty text part: streaming ends with an empty
      text block and the one-shot path has no text block. */
  lemma EmptyBufferedTextDiverges(c: Chunk, id: string, ws: WebSearchState, index: nat)
    requires ws.results == ToWebSearchResults(OneShotChunks(c))
    requires ws.supports == OneShotSupports(c)
    requires ws.bufferedTextParts == [""]
    ensures StartKinds(WebSearchBlocks(ws, index).events) == DocKinds(GroundingBlocks(c, id, "")) + [TextKind]
  {
    assert Concat(ws.bufferedTextParts) == "" by {
      assert ws.bufferedTextParts[1..] == [];
    }
    GroundingMatchesStream(c, id, ws, index);
  }

  /** The citations the cited-text blocks of a document carry, in order. */
  function DocCitations(bs: seq<DocBlock>): seq<Citation>
    decreases |bs|
  {
    if |bs| == 0 then []
    else (if bs[0].CitedText? then [bs[0].citation] else []) + DocCitations(bs[1..])
  }

  /** The cited-text blocks give back exactly the citations they were made
      from, in order. */
  lemma {:induction false} CitedTextsCitations(cs: seq<Citation>)
    ensures DocCitations(CitedTexts(cs)) == cs
    decreases |cs|
  {
    if |cs| > 0 {
      assert CitedTexts(cs)[1..] == CitedTexts(cs[1..]);
      CitedTextsCitations(cs[1..]);
    }
  }

  /** For the same results and supports, the one-shot cited-text blocks carry
      the same citations, in the same order, as the streaming translator's
      `citations_delta` events. */
  lemma CitedTextsMatchStream(results: seq<SearchResult>, supports: seq<Support>, index: nat)
    ensures DocCitations(CitedTexts(Citations(results, supports)))
         == CitationPayloads(CitationBlocks(index, results, supports).events)
  {
    CitedTextsCitations(Citations(results, supports));
    CitationBlocksContent(index, results, supports);
  }

  // Examples.

  /** A signature-only thought part between two answer parts: the thinking
      block it produces is flushed ahead of the answer text that arrived
      before it, and both answer parts end up in one text block. */
  lemma SignatureOvertakesText()
    ensures
      var a := Part(Some("A"), false, None, None, None);
      var sig := Part(None, true, Some("S"), None, None);
      var b := Part(Some("B"), false, None, None, None);
      var c := Chunk(None, None, None, None, [a, sig, b], None, None, Missing, Missing, None);
      ConvertNonStream(c, "id").content == [Reasoning("", Some("S")), PlainText("AB")]
  {
    var a := Part(Some("A"), false, None, None, None);
    var sig := Part(None, true, Some("S"), None, None);
    var b := Part(Some("B"), false, None, None, None);
    var parts := [a, sig, b];
    var c := Chunk(None, None, None, None, parts, None, None, Missing, Missing, None);
    var r1 := Acc([], "A", "", "", 0, false);
    var r2 := Acc([], "A", "", "S", 0, false);
    var r3 := Acc([Reasoning("", Some("S"))], "AB", "", "", 0, false);
    assert Absorb(EmptyAcc, a) == r1;
    assert Absorb(r1, sig) == r2;
    assert Absorb(r2, b) == r3;
    assert AbsorbAll(EmptyAcc, [a]) == r1 by {
      assert [a][..0] == [];
    }
    assert AbsorbAll(EmptyAcc, [a, sig]) == r2 by {
      assert [a, sig][..1] == [a];
    }
    assert AbsorbAll(EmptyAcc, parts) == r3 by {
      assert parts[..2] == [a, sig];
    }
    assert !HasGroundingData(c);
    assert FlushText(FlushThinking(r3)).content == [Reasoning("", Some("S")), PlainText("AB")];
  }

  /** The same usage metadata is reported differently by the two
      translators: the one-shot path neither subtracts cached tokens from the
      prompt nor rebuilds the candidate count before summing. */
  lemma UsageDiverges()
    ensures
      var m := UsageMetadata(100, 0, 10, 150, 20);
      var c := Chunk(None, None, None, None, [], None, None, Missing, Missing, Some(m));
      && ConvertNonStream(c, "id").usage == Some(DocUsage(100, 10, Some(20)))
      && RecordUsage(m).prompt == 80
      && FinalOutputTokens(RecordUsage(m)) == 70
  {
    var m := UsageMetadata(100, 0, 10, 150, 20);
    assert RecordUsage(m) == TokenCounts(80, 60, 10, 150, 20);
  }
}

=== FILE: stream.dfy ===
/**
 The streaming translator: a per-turn state machine that turns each upstream
 chunk (or the `[DONE]` sentinel) into Claude streaming events.

 A step is a pure function from the session state and one input to the new
 state and the events to send. Its effects are explicit: the signature-cache
 writes it makes come back as `puts`, and the fresh identifiers it needs are
 parameters. A tool-use id is `ToolUseId(name, now, counter + 1)`, where
 `now` stands for the clock and `counter` for the process-wide counter the
 step increments once per tool call. `serverToolUseId` stands for the random
 id of the web-search tool block.
 */
module Stream {
  import opened Wrappers
  import opened Upstream
  import opened Claude
  import opened Usage
  import opened WebSearch

  /** The kind of the block the session believes is open (0, 1, 2 and 3 in the source). */
  datatype BlockType = NoBlock | TextBlock | ThinkingBlock | FunctionBlock

  /** Session state, carried from one chunk to the next. */
  datatype Params = Params(
    hasFirstResponse: bool,
    responseType: BlockType,
    responseIndex: nat,
    hasFinishReason: bool,
    finishReason: string,
    hasUsageMetadata: bool,
    usage: TokenCounts,
    hasSentFinalEvents: bool,
    hasToolUse: bool,
    hasContent: bool,
    sessionId: string,
    currentThinkingText: string,
    webSearchMode: bool,
    webSearch: WebSearchState)

  /** The state a turn starts in; `sessionId` is derived from the original
      request, which this model takes as given. */
  function InitialParams(sessionId: string): Params {
    Params(false, NoBlock, 0, false, "", false, NoTokens, false, false, false, sessionId, "", false, NoWebSearch)
  }

  /** One write to the process-wide signature cache. */
  datatype CachePut = CachePut(sessionId: string, text: string, signature: string)

  /** The outcome of a step: new state, events, cache writes, and the
      process-wide tool counter after the step. */
  datatype StepOut = StepOut(params: Params, events: seq<Event>, puts: seq<CachePut>, counter: nat)

  /** New state and events of a step with no other effect. */
  datatype Out = Out(params: Params, events: seq<Event>)

  const DefaultMessageId := "msg_1nZdL29xx5MUA1yADyHTEsnR8uuvGzszyY"
  const DefaultModel := "claude-3-5-sonnet-20241022"

  function OpenKind(t: BlockType): Option<BlockKind> {
    match t
    case NoBlock => None
    case TextBlock => Some(TextKind)
    case ThinkingBlock => Some(ThinkingKind)
    case FunctionBlock => Some(ToolUseKind)
  }

  /** What a client that trusted the session state would believe: the block
      at `responseIndex` is open, of the state's kind, unless the state says
      no block is open. */
  function ViewOf(p: Params): Cursor {
    Cursor(p.responseIndex, OpenKind(p.responseType))
  }

  /** The state the part loop leaves alone: everything but the block
      bookkeeping, the content and tool flags, the thinking accumulator and
      the buffered web-search text. */
  predicate PartFrame(p: Params, q: Params) {
    && q.hasFirstResponse == p.hasFirstResponse
    && q.hasFinishReason == p.hasFinishReason && q.finishReason == p.finishReason
    && q.hasUsageMetadata == p.hasUsageMetadata && q.usage == p.usage
    && q.hasSentFinalEvents == p.hasSentFinalEvents
    && q.sessionId == p.sessionId
    && q.webSearchMode == p.webSearchMode
    && q.webSearch.toolUseId == p.webSearch.toolUseId
    && q.webSearch.query == p.webSearch.query
    && q.webSearch.results == p.webSearch.results
    && q.webSearch.supports == p.webSearch.supports
  }

  /** The state finalisation leaves alone. */
  predicate SessionFrame(p: Params, q: Params) {
    && q.hasFirstResponse == p.hasFirstResponse
    && q.hasToolUse == p.hasToolUse
    && q.hasFinishReason == p.hasFinishReason && q.finishReason == p.finishReason
    && q.hasUsageMetadata == p.hasUsageMetadata && q.usage == p.usage
    && q.sessionId == p.sessionId
    && q.webSearchMode == p.webSearchMode
  }

  /** The index of the next block to open: past the open one, if any. */
  function NextIndex(p: Params): nat {
    p.responseIndex + (if p.responseType == NoBlock then 0 else 1)
  }

  /** `content_block_stop` for the open block, if the state says one is open;
      the index moves past it. The block type is left for the caller to set.
      The ensures only unfold the body for callers' proofs; what the close
      means is stated by `StreamProps.CloseOpenBlockReplay` and
      `StreamProps.CloseOpenBlockStats`. */
  function CloseOpenBlock(p: Params): (r: Out)
    ensures p.responseType == NoBlock ==> r == Out(p, [])
    ensures p.responseType != NoBlock ==>
      r == Out(p.(responseIndex := p.responseIndex + 1), [BlockStop(p.responseIndex)])
  {
    if p.responseType != NoBlock then
      Out(p.(responseIndex := p.responseIndex + 1), [BlockStop(p.responseIndex)])
    else Out(p, [])
  }

  /** The signature of a thought part: the accumulated thinking text is
      cached under it (only with a session id and a non-empty accumulator,
      and then the accumulator restarts), and a `signature_delta` goes to the
      current index without touching the block state. */
  function SignaturePart(p: Params, signature: string, counter: nat): (r: StepOut)
    ensures r.counter == counter && PartFrame(p, r.params)
    ensures r.params.hasContent && r.params.hasToolUse == p.hasToolUse
    ensures r.params.webSearch.bufferedTextParts == p.webSearch.bufferedTextParts
    ensures r.events == [BlockDelta(p.responseIndex, SignatureDelta(signature))]
    ensures r.params.responseType == p.responseType && r.params.responseIndex == p.responseIndex
    ensures p.sessionId != "" && p.currentThinkingText != "" ==>
      r.puts == [CachePut(p.sessionId, p.currentThinkingText, signature)] && r.params.currentThinkingText == ""
    ensures p.sessionId == "" || p.currentThinkingText == "" ==>
      r.puts == [] && r.params.currentThinkingText == p.currentThinkingText
  {
    var cache := p.sessionId != "" && p.currentThinkingText != "";
    var puts := if cache then [CachePut(p.sessionId, p.currentThinkingText, signature)] else [];
    var acc := if cache then "" else p.currentThinkingText;
    StepOut(p.(currentThinkingText := acc, hasContent := true),
            [BlockDelta(p.responseIndex, SignatureDelta(signature))], puts, counter)
  }

  /** Thinking text: it continues the open thinking block and is appended to
      the accumulator, or else closes whatever is open, opens a new thinking
      block and restarts the accumulator from this text. */
  function ThinkingTextPart(p: Params, text: string, counter: nat): (r: StepOut)
    ensures r.counter == counter && r.puts == [] && PartFrame(p, r.params)
    ensures r.params.hasContent && r.params.hasToolUse == p.hasToolUse
    ensures r.params.webSearch.bufferedTextParts == p.webSearch.bufferedTextParts
    ensures r.params.responseType == ThinkingBlock
    ensures p.responseType == ThinkingBlock ==>
      && r.params.currentThinkingText == p.currentThinkingText + text
      && r.params.responseIndex == p.responseIndex
      && r.events == [BlockDelta(p.responseIndex, ThinkingDelta(text))]
    ensures p.responseType != ThinkingBlock ==>
      && r.params.currentThinkingText == text
      && r.params.responseIndex == p.responseIndex + (if p.responseType == NoBlock then 0 else 1)
      && r.events == CloseOpenBlock(p).events
           + [BlockStart(r.params.responseIndex, ThinkingStart), BlockDelta(r.params.responseIndex, ThinkingDelta(text))]
  {
    if p.responseType == ThinkingBlock then
      StepOut(p.(currentThinkingText := p.currentThinkingText + text, hasContent := true),
              [BlockDelta(p.responseIndex, ThinkingDelta(text))], [], counter)
    else
      var i := NextIndex(p);
      StepOut(p.(responseIndex := i, responseType := ThinkingBlock, hasContent := true, currentThinkingText := text),
              CloseOpenBlock(p).events + [BlockStart(i, ThinkingStart), BlockDelta(i, ThinkingDelta(text))], [], counter)
  }

  /** A thought part, in either mode: its signature if it carries a
      non-empty one (the part's own text is then not emitted), its text
      otherwise. */
  function ThinkingPart(p: Params, text: string, signature: string, counter: nat): StepOut {
    if signature != "" then SignaturePart(p, signature, counter) else ThinkingTextPart(p, text, counter)
  }

  /** A plain text part outside web-search mode. An empty text in a chunk
      that carries a finish reason is skipped. Otherwise the text continues
      an open text block, or else closes whatever is open and, only if the
      text is non-empty, opens a text block with it. An empty text therefore
      closes a thinking or tool block without opening anything and without
      resetting the block type. The thinking accumulator is never touched. */
  function TextPart(p: Params, text: string, finishPresent: bool, counter: nat): (r: StepOut)
    ensures r.counter == counter && r.puts == [] && PartFrame(p, r.params)
    ensures r.params.currentThinkingText == p.currentThinkingText
    ensures r.params.hasToolUse == p.hasToolUse
    ensures r.params.webSearch.bufferedTextParts == p.webSearch.bufferedTextParts
    ensures p.hasContent ==> r.params.hasContent
    ensures text == "" && finishPresent ==> r.params == p && r.events == []
    ensures text != "" ==> r.params.responseType == TextBlock && r.params.hasContent
    ensures text == "" ==> r.params.responseType == p.responseType
    ensures r.params.responseIndex == p.responseIndex +
      (if (text != "" || !finishPresent) && p.responseType != TextBlock && p.responseType != NoBlock then 1 else 0)
  {
    if text != "" || !finishPresent then
      if p.responseType == TextBlock then
        StepOut(p.(hasContent := true), [BlockDelta(p.responseIndex, TextDelta(text))], [], counter)
      else
        var i := NextIndex(p);
        if text != "" then
          StepOut(p.(responseIndex := i, responseType := TextBlock, hasContent := true),
                  CloseOpenBlock(p).events + [BlockStart(i, TextStart), BlockDelta(i, TextDelta(text))], [], counter)
        else StepOut(p.(responseIndex := i), CloseOpenBlock(p).events, [], counter)
    else StepOut(p, [], [], counter)
  }

  /** A function-call part outside web-search mode: marks tool use, closes
      whatever block is open (exactly once, whatever its kind), opens a
      `tool_use` block under a fresh id and sends the arguments, when
      present, as one `input_json_delta`. */
  function FunctionCallPart(p: Params, call: FunctionCall, now: int, counter: nat): (r: StepOut)
    ensures r.counter == counter + 1 && r.puts == [] && PartFrame(p, r.params)
    ensures r.params.hasToolUse && r.params.hasContent && r.params.responseType == FunctionBlock
    ensures r.params.currentThinkingText == p.currentThinkingText
    ensures r.params.webSearch.bufferedTextParts == p.webSearch.bufferedTextParts
    ensures r.params.responseIndex == p.responseIndex + (if p.responseType == NoBlock then 0 else 1)
    ensures r.events == CloseOpenBlock(p).events
      + [BlockStart(r.params.responseIndex, ToolUseStart(ToolUseId(call.name, now, counter + 1), call.name))]
      + (if call.args.Some? then [BlockDelta(r.params.responseIndex, InputJsonDelta(call.args.value.raw))] else [])
  {
    // Lines 332-353 close an open tool block first (resetting the type),
    // then any other open block; either way the open block closes once.
    var i := NextIndex(p);
    var id := ToolUseId(call.name, now, counter + 1);
    var args := match call.args
      case Some(a) => [BlockDelta(i, InputJsonDelta(a.raw))]
      case None => [];
    StepOut(p.(responseIndex := i, hasToolUse := true, responseType := FunctionBlock, hasContent := true),
            CloseOpenBlock(p).events + [BlockStart(i, ToolUseStart(id, call.name))] + args, [], counter + 1)
  }

  /** One part. In web-search mode thought parts are handled as usual,
      plain text is buffered for the end of the turn without setting the
      content flag, and function calls are ignored. A part with text is
      never treated as a function call. */
  function PartStep(p: Params, part: Part, finishPresent: bool, now: int, counter: nat): (r: StepOut)
    ensures PartFrame(p, r.params)
    ensures r.params.responseIndex >= p.responseIndex
    ensures p.hasContent ==> r.params.hasContent
    ensures r.params.webSearch.bufferedTextParts == p.webSearch.bufferedTextParts
      + (if p.webSearchMode && part.text.Some? && !part.thought then [part.text.value] else [])
    ensures p.webSearchMode ==> r.params.hasToolUse == p.hasToolUse && r.counter == counter
    ensures !p.webSearchMode && part.text.None? && part.functionCall.Some? ==>
      r.counter == counter + 1 && r.params.hasToolUse
    ensures !p.webSearchMode && !(part.text.None? && part.functionCall.Some?) ==>
      r.counter == counter && r.params.hasToolUse == p.hasToolUse
    ensures p.webSearchMode && !(part.text.Some? && part.thought) ==>
      && r.events == [] && r.puts == [] && r.params.hasContent == p.hasContent
      && r.params.responseType == p.responseType && r.params.responseIndex == p.responseIndex
  {
    match part.text
    case Some(text) =>
      if part.thought then ThinkingPart(p, text, StreamSignature(part), counter)
      else if p.webSearchMode then
        StepOut(p.(webSearch := p.webSearch.(bufferedTextParts := p.webSearch.bufferedTextParts + [text])), [], [], counter)
      else TextPart(p, text, finishPresent, counter)
    case None =>
      if part.functionCall.Some? && !p.webSearchMode then FunctionCallPart(p, part.functionCall.value, now, counter)
      else StepOut(p, [], [], counter)
  }

  /** The plain (non-thought) texts among `parts`, in order. */
  function PlainTexts(parts: seq<Part>): seq<string>
    decreases |parts|
  {
    if |parts| == 0 then []
    else (if parts[0].text.Some? && !parts[0].thought then [parts[0].text.value] else []) + PlainTexts(parts[1..])
  }

  /** How many of `parts` the normal mode treats as function calls. */
  function CallCount(parts: seq<Part>): nat
    decreases |parts|
  {
    if |parts| == 0 then 0
    else (if parts[0].text.None? && parts[0].functionCall.Some? then 1 else 0) + CallCount(parts[1..])
  }

  /** All parts of a chunk, in order. The block index never moves back; in
      web-search mode the plain texts are appended to the buffer in arrival
      order and no tool id is drawn, and otherwise one tool id is drawn per
      function call. */
  function ProcessParts(p: Params, parts: seq<Part>, finishPresent: bool, now: int, counter: nat): (r: StepOut)
    ensures PartFrame(p, r.params)
    ensures r.params.responseIndex >= p.responseIndex
    ensures p.hasContent ==> r.params.hasContent
    ensures p.webSearchMode ==> r.params.hasToolUse == p.hasToolUse && r.counter == counter
    ensures !p.webSearchMode ==>
      r.counter == counter + CallCount(parts) && (r.params.hasToolUse <==> p.hasToolUse || CallCount(parts) > 0)
    decreases |parts|
  {
    if |parts| == 0 then StepOut(p, [], [], counter)
    else
      var first := PartStep(p, parts[0], finishPresent, now, counter);
      var rest := ProcessParts(first.params, parts[1..], finishPresent, now, first.counter);
      StepOut(rest.params, first.events + rest.events, first.puts + rest.puts, rest.counter)
  }

  /** `message_start`, filled from whatever the first chunk carries. */
  function MessageStartFor(c: Chunk): Event {
    MessageStart(
      c.responseId.GetOr(DefaultMessageId),
      c.modelVersion.GetOr(DefaultModel),
      c.cpaPromptTokenCount.GetOr(0),
      c.cpaCandidatesTokenCount.GetOr(0))
  }

  /** What happens before the parts: `message_start` on the first chunk,
      web-search mode switched on by the first grounding data, and the
      chunk's grounding merged while the mode is on. */
  function Prelude(p: Params, c: Chunk, serverToolUseId: string): (r: Out)
    ensures r.params.responseType == p.responseType && r.params.responseIndex == p.responseIndex
    ensures r.params.hasFirstResponse
    ensures r.events == (if p.hasFirstResponse then [] else [MessageStartFor(c)])
    ensures r.params.webSearchMode == (p.webSearchMode || HasGroundingData(c))
    ensures !p.webSearchMode && HasGroundingData(c) ==> r.params.webSearch.toolUseId == serverToolUseId
    ensures r.params.webSearch.bufferedTextParts == p.webSearch.bufferedTextParts
    ensures r.params.(hasFirstResponse := p.hasFirstResponse, webSearchMode := p.webSearchMode, webSearch := p.webSearch) == p
    ensures !r.params.webSearchMode ==> r.params.webSearch == p.webSearch
    ensures r.params.webSearchMode ==>
      r.params.webSearch == UpdateWebSearchState(
        if p.webSearchMode then p.webSearch else p.webSearch.(toolUseId := serverToolUseId), c)
  {
    var started := if !p.hasFirstResponse then Out(p.(hasFirstResponse := true), [MessageStartFor(c)]) else Out(p, []);
    var q := started.params;
    var activated :=
      if !q.webSearchMode && HasGroundingData(c) then
        q.(webSearchMode := true, webSearch := q.webSearch.(toolUseId := serverToolUseId))
      else q;
    var merged :=
      if activated.webSearchMode then activated.(webSearch := UpdateWebSearchState(activated.webSearch, c))
      else activated;
    Out(merged, started.events)
  }

  /** Record the chunk's finish reason and usage, each only when present.
      Usage overwrites the stored counts. */
  function RecordMetadata(p: Params, c: Chunk): (q: Params)
    ensures c.finishReason.Some? ==> q.hasFinishReason && q.finishReason == c.finishReason.value
    ensures c.finishReason.None? ==> q.hasFinishReason == p.hasFinishReason && q.finishReason == p.finishReason
    ensures c.usageMetadata.Some? ==> q.hasUsageMetadata && q.usage == RecordUsage(c.usageMetadata.value)
    ensures c.usageMetadata.None? ==> q.hasUsageMetadata == p.hasUsageMetadata && q.usage == p.usage
    ensures q.(hasFinishReason := p.hasFinishReason, finishReason := p.finishReason,
               hasUsageMetadata := p.hasUsageMetadata, usage := p.usage) == p
  {
    var q := match c.finishReason
      case Some(f) => p.(hasFinishReason := true, finishReason := f)
      case None => p;
    match c.usageMetadata
    case Some(u) => q.(hasUsageMetadata := true, usage := RecordUsage(u))
    case None => q
  }

  /** The web-search tool-use id, falling back to `fallbackId` when none was
      stored (finalisation without any grounding chunk). */
  function EnsureToolUseId(ws: WebSearchState, fallbackId: string): (w: WebSearchState)
    ensures w.toolUseId == (if ws.toolUseId == "" then fallbackId else ws.toolUseId)
    ensures w.query == ws.query && w.results == ws.results && w.supports == ws.supports
    ensures w.bufferedTextParts == ws.bufferedTextParts
  {
    if ws.toolUseId == "" then ws.(toolUseId := fallbackId) else ws
  }

  /** The web-search blocks of a finished turn: close whatever is open
      (moving the index past it), make sure a tool-use id exists, then emit
      the grounding blocks; no block is open afterwards. */
  function EmitWebSearchBlocks(p: Params, fallbackId: string): (r: Out)
    ensures r.params.responseType == NoBlock
    ensures r.params.responseIndex == p.responseIndex + (if p.responseType == NoBlock then 0 else 1)
      + WebSearchBlockCount(p.webSearch)
    ensures r.params.webSearch == EnsureToolUseId(p.webSearch, fallbackId)
    ensures SessionFrame(p, r.params) && r.params.hasContent == p.hasContent
    ensures r.params.hasSentFinalEvents == p.hasSentFinalEvents
  {
    var start := NextIndex(p);
    var ws := EnsureToolUseId(p.webSearch, fallbackId);
    assert WebSearchBlockCount(ws) == WebSearchBlockCount(p.webSearch);
    var blocks := WebSearchBlocks(ws, start);
    Out(p.(webSearch := ws, responseIndex := blocks.next, responseType := NoBlock), CloseOpenBlock(p).events + blocks.events)
  }

  /** Whether finalisation has anything to do: not already done, usage seen
      or finalisation forced, and some content emitted or web-search mode on. */
  predicate FinalizeApplies(p: Params, force: bool) {
    !p.hasSentFinalEvents && (p.hasUsageMetadata || force) && (p.hasContent || p.webSearchMode)
  }

  /** The `message_delta` a session ends with. */
  function FinalDelta(p: Params): Event {
    MessageDelta(StopReasonFor(p.hasToolUse, p.finishReason), p.usage.prompt, FinalOutputTokens(p.usage), CacheRead(p.usage.cached))
  }

  /** The block events of finalisation: the web-search blocks in web-search
      mode (which also counts as content), otherwise the close of the open
      block without moving the index. No block is open afterwards. */
  function FinalBlocks(p: Params, fallbackId: string): (r: Out)
    ensures r.params.responseType == NoBlock
    ensures r.params.responseIndex >= p.responseIndex
    ensures SessionFrame(p, r.params) && r.params.hasSentFinalEvents == p.hasSentFinalEvents
    ensures p.hasContent || p.webSearchMode ==> r.params.hasContent
    ensures !p.webSearchMode ==>
      && r.params.responseIndex == p.responseIndex
      && r.events == (if p.responseType != NoBlock then [BlockStop(p.responseIndex)] else [])
  {
    if p.webSearchMode then
      var e := EmitWebSearchBlocks(p, fallbackId);
      Out(e.params.(hasContent := true), e.events)
    else if p.responseType != NoBlock then
      Out(p.(responseType := NoBlock), [BlockStop(p.responseIndex)])
    else Out(p, [])
  }

  /** Finalisation. It does nothing once it has run, nothing without usage
      unless forced, and nothing when no content was emitted outside
      web-search mode. Otherwise it emits the final blocks, then one
      `message_delta` with the stop reason and the token counts. */
  function AppendFinalEvents(p: Params, force: bool, fallbackId: string): (r: Out)
    ensures !FinalizeApplies(p, force) ==> r == Out(p, [])
    ensures FinalizeApplies(p, force) ==>
      && r.params.hasSentFinalEvents
      && r.params.responseType == NoBlock
      && |r.events| > 0
      && r.events[|r.events| - 1] == FinalDelta(p)
    ensures FinalizeApplies(p, force) && !p.webSearchMode ==>
      && r.params.responseIndex == p.responseIndex
      && r.events == (if p.responseType != NoBlock then [BlockStop(p.responseIndex)] else []) + [FinalDelta(p)]
    ensures r.params.responseIndex >= p.responseIndex
    ensures r.params.hasSentFinalEvents == (p.hasSentFinalEvents || FinalizeApplies(p, force))
    ensures p.hasContent ==> r.params.hasContent
  {
    if p.hasSentFinalEvents then Out(p, [])
    else if !p.hasUsageMetadata && !force then Out(p, [])
    else if !p.hasContent && !p.webSearchMode then Out(p, [])
    else
      var body := FinalBlocks(p, fallbackId);
      var delta := FinalDelta(body.params);
      assert delta == FinalDelta(p);
      var evs := body.events + [delta];
      assert evs[|evs| - 1] == delta;
      Out(body.params.(hasSentFinalEvents := true), evs)
  }

  /** Finalisation leaves the session's flags, usage and finish reason alone. */
  lemma AppendFinalEventsFrame(p: Params, force: bool, fallbackId: string)
    ensures SessionFrame(p, AppendFinalEvents(p, force, fallbackId).params)
  {
    if FinalizeApplies(p, force) {
      var body := FinalBlocks(p, fallbackId);
      assert AppendFinalEvents(p, force, fallbackId).params == body.params.(hasSentFinalEvents := true);
    }
  }

  /** The end of a chunk: finalise once both a finish reason and usage
      have been seen. The ensures only unfold the body for callers' proofs;
      `StreamProps.FinishChunkStats` states when the turn is finalised. */
  function FinishChunk(q: Params, serverToolUseId: string): (r: Out)
    ensures !(q.hasUsageMetadata && q.hasFinishReason) ==> r == Out(q, [])
    ensures q.hasUsageMetadata && q.hasFinishReason ==> r == AppendFinalEvents(q, false, serverToolUseId)
  {
    if q.hasUsageMetadata && q.hasFinishReason then AppendFinalEvents(q, false, serverToolUseId) else Out(q, [])
  }

  /** One upstream chunk. */
  function ConvertChunk(p: Params, c: Chunk, now: int, counter: nat, serverToolUseId: string): (r: StepOut)
    ensures r.params.responseIndex >= p.responseIndex
    ensures r.params.sessionId == p.sessionId
    ensures r.params.hasFirstResponse
    ensures r.params.webSearchMode == (p.webSearchMode || HasGroundingData(c))
    ensures p.hasSentFinalEvents ==> r.params.hasSentFinalEvents
    ensures p.hasContent ==> r.params.hasContent
    ensures r.counter >= counter
    ensures c.usageMetadata.Some? ==> r.params.hasUsageMetadata && r.params.usage == RecordUsage(c.usageMetadata.value)
    ensures c.usageMetadata.None? ==> r.params.hasUsageMetadata == p.hasUsageMetadata && r.params.usage == p.usage
    ensures c.finishReason.Some? ==> r.params.hasFinishReason && r.params.finishReason == c.finishReason.value
  {
    var pre := Prelude(p, c, serverToolUseId);
    var body := ProcessParts(pre.params, c.parts, c.finishReason.Some?, now, counter);
    var q := RecordMetadata(body.params, c);
    var fin := FinishChunk(q, serverToolUseId);
    AppendFinalEventsFrame(q, false, serverToolUseId);
    StepOut(fin.params, pre.events + body.events + fin.events, body.puts, body.counter)
  }

  /** One input of the stream. `[DONE]` emits nothing when no content was
      ever emitted; otherwise it runs finalisation forced and ends with
      `message_stop`. */
  function Convert(p: Params, m: Message, now: int, counter: nat, serverToolUseId: string): (r: StepOut)
    ensures r.params.responseIndex >= p.responseIndex
    ensures r.params.sessionId == p.sessionId
    ensures r.params.hasFirstResponse == (p.hasFirstResponse || m.Data?)
    ensures p.webSearchMode ==> r.params.webSearchMode
    ensures p.hasSentFinalEvents ==> r.params.hasSentFinalEvents
    ensures r.counter >= counter
    ensures m.Done? && !p.hasContent ==> r.params == p && r.events == [] && r.puts == []
    ensures m.Done? && p.hasContent ==>
      |r.events| > 0 && r.events[|r.events| - 1] == MessageStop && r.params.hasSentFinalEvents
  {
    match m
    case Done =>
      if p.hasContent then
        var fin := AppendFinalEvents(p, true, serverToolUseId);
        StepOut(fin.params, fin.events + [MessageStop], [], counter)
      else StepOut(p, [], [], counter)
    case Data(c) => ConvertChunk(p, c, now, counter, serverToolUseId)
  }

  /** One input of a session, with the clock reading and the random
      server tool-use id the translator would draw while handling it. */
  datatype Input = Input(message: Message, now: int, serverToolUseId: string)

  /** A session: every input translated in turn, the state, the tool counter
      and the events threaded through. */
  function Run(p: Params, inputs: seq<Input>, counter: nat): (r: StepOut)
    ensures r.params.responseIndex >= p.responseIndex
    ensures r.params.sessionId == p.sessionId
    ensures r.counter >= counter
    ensures p.hasSentFinalEvents ==> r.params.hasSentFinalEvents
    decreases |inputs|
  {
    if |inputs| == 0 then StepOut(p, [], [], counter)
    else
      var step := Convert(p, inputs[0].message, inputs[0].now, counter, inputs[0].serverToolUseId);
      var rest := Run(step.params, inputs[1..], step.counter);
      StepOut(rest.params, step.events + rest.events, step.puts + rest.puts, rest.counter)
  }
}

=== FILE: stream_props.dfy ===
/**
 Properties of the streaming translator: the events it sends form a
 well-formed Claude stream as long as the upstream parts avoid two
 situations the state machine mis-tracks, the block index only moves
 forward and counts every block it closes, tool-use ids are drawn
 consecutively, and the message envelope is sent exactly once.
 */
module StreamProps {
  import opened Wrappers
  import opened Upstream
  import opened Claude
  import opened Usage
  import opened WebSearch
  import opened Stream

  /** Closing the open block leaves the client with no open block at the
      index the state moves to. */
  lemma CloseOpenBlockReplay(p: Params)
    ensures Replay(ViewOf(p), CloseOpenBlock(p).events) == Some(Cursor(CloseOpenBlock(p).params.responseIndex, None))
  {
    if p.responseType != NoBlock {
      ReplayOne(ViewOf(p), BlockStop(p.responseIndex));
    }
  }

  /** Opening a block and sending one delta into it. */
  lemma StartDeltaReplay(i: nat, b: ContentBlock, d: Delta)
    requires Accepts(KindOf(b), d)
    ensures Replay(Cursor(i, None), [BlockStart(i, b), BlockDelta(i, d)]) == Some(Cursor(i, Some(KindOf(b))))
  {
    ReplayCons(Cursor(i, None), BlockStart(i, b), [BlockDelta(i, d)]);
    ReplayOne(Cursor(i, Some(KindOf(b))), BlockDelta(i, d));
  }

  /** A part the state machine keeps track of: a signature needs an open
      thinking block to land in, and an empty text outside web-search mode,
      in a chunk without a finish reason, must not meet an open thinking or
      tool block (it would close that block yet leave the state believing it
      open). */
  predicate SafePart(p: Params, part: Part, finishPresent: bool) {
    match part.text
    case Some(text) =>
      if part.thought then StreamSignature(part) != "" ==> p.responseType == ThinkingBlock
      else p.webSearchMode || text != "" || finishPresent
           || p.responseType == NoBlock || p.responseType == TextBlock
    case None => true
  }

  lemma SignaturePartReplay(p: Params, signature: string, counter: nat)
    ensures var r := SignaturePart(p, signature, counter);
      Replay(ViewOf(p), r.events) == Some(ViewOf(r.params)) <==> p.responseType == ThinkingBlock
  {
    var r := SignaturePart(p, signature, counter);
    ReplayOne(ViewOf(p), BlockDelta(p.responseIndex, SignatureDelta(signature)));
  }

  lemma ThinkingTextPartReplay(p: Params, text: string, counter: nat)
    ensures var r := ThinkingTextPart(p, text, counter);
      Replay(ViewOf(p), r.events) == Some(ViewOf(r.params))
  {
    var r := ThinkingTextPart(p, text, counter);
    if p.responseType == ThinkingBlock {
      ReplayOne(ViewOf(p), BlockDelta(p.responseIndex, ThinkingDelta(text)));
    } else {
      var closed := CloseOpenBlock(p);
      var i := closed.params.responseIndex;
      CloseOpenBlockReplay(p);
      ReplayAppend(ViewOf(p), closed.events, [BlockStart(i, ThinkingStart), BlockDelta(i, ThinkingDelta(text))]);
      StartDeltaReplay(i, ThinkingStart, ThinkingDelta(text));
    }
  }

  lemma TextPartReplay(p: Params, text: string, finishPresent: bool, counter: nat)
    ensures var r := TextPart(p, text, finishPresent, counter);
      Replay(ViewOf(p), r.events) == Some(ViewOf(r.params)) <==>
        (text != "" || finishPresent || p.responseType == NoBlock || p.responseType == TextBlock)
  {
    var r := TextPart(p, text, finishPresent, counter);
    if text != "" || !finishPresent {
      if p.responseType == TextBlock {
        ReplayOne(ViewOf(p), BlockDelta(p.responseIndex, TextDelta(text)));
      } else {
        var closed := CloseOpenBlock(p);
        var i := closed.params.responseIndex;
        CloseOpenBlockReplay(p);
        if text != "" {
          ReplayAppend(ViewOf(p), closed.events, [BlockStart(i, TextStart), BlockDelta(i, TextDelta(text))]);
          StartDeltaReplay(i, TextStart, TextDelta(text));
        }
      }
    }
  }

  lemma FunctionCallPartReplay(p: Params, call: FunctionCall, now: int, counter: nat)
    ensures var r := FunctionCallPart(p, call, now, counter);
      Replay(ViewOf(p), r.events) == Some(ViewOf(r.params))
  {
    var r := FunctionCallPart(p, call, now, counter);
    var closed := CloseOpenBlock(p);
    var i := closed.params.responseIndex;
    var start := BlockStart(i, ToolUseStart(ToolUseId(call.name, now, counter + 1), call.name));
    var args := if call.args.Some? then [BlockDelta(i, InputJsonDelta(call.args.value.raw))] else [];
    assert r.events == closed.events + ([start] + args);
    CloseOpenBlockReplay(p);
    ReplayAppend(ViewOf(p), closed.events, [start] + args);
    ReplayCons(Cursor(i, None), start, args);
    if call.args.Some? {
      ReplayOne(Cursor(i, Some(ToolUseKind)), args[0]);
    }
  }

  /** One part keeps the client's view and the state in step exactly when
      it is safe. */
  lemma PartStepReplay(p: Params, part: Part, finishPresent: bool, now: int, counter: nat)
    ensures var r := PartStep(p, part, finishPresent, now, counter);
      Replay(ViewOf(p), r.events) == Some(ViewOf(r.params)) <==> SafePart(p, part, finishPresent)
  {
    match part.text
    case Some(text) =>
      if part.thought {
        if StreamSignature(part) != "" {
          SignaturePartReplay(p, StreamSignature(part), counter);
        } else {
          ThinkingTextPartReplay(p, text, counter);
        }
      } else if !p.webSearchMode {
        TextPartReplay(p, text, finishPresent, counter);
      }
    case None =>
      if part.functionCall.Some? && !p.webSearchMode {
        FunctionCallPartReplay(p, part.functionCall.value, now, counter);
      }
  }

  /** Neither a stop nor a tool-use start among `evs`. */
  lemma QuietEvents(evs: seq<Event>, counter: nat)
    requires forall e <- evs :: !e.BlockStop? && !IsToolUseStart(e)
    ensures Count(evs, IsBlockStop) == 0 && Numbered(evs, counter, counter)
  {
    CountNone(evs, IsBlockStop);
    NumberedNone(evs, counter);
  }

  lemma CloseOpenBlockStats(p: Params)
    ensures Count(CloseOpenBlock(p).events, IsBlockStop) == CloseOpenBlock(p).params.responseIndex - p.responseIndex
    ensures forall e <- CloseOpenBlock(p).events :: !IsToolUseStart(e)
  {
    if p.responseType != NoBlock {
      CountOne(BlockStop(p.responseIndex), IsBlockStop);
    }
  }

  /** A part's events are block events only; it closes exactly as many
      blocks as it moves the index on; and it draws the tool serials after
      `counter`, in order. */
  predicate PartStats(p: Params, r: StepOut, counter: nat) {
    && (forall e <- r.events :: BlockEvent(e))
    && r.params.responseIndex >= p.responseIndex
    && Count(r.events, IsBlockStop) == r.params.responseIndex - p.responseIndex
    && r.counter >= counter
    && Numbered(r.events, counter, r.counter)
  }

  /** An open-then-delta pair after the optional close. */
  lemma OpenAfterCloseStats(p: Params, start: Event, delta: Event)
    requires start.BlockStart? && !start.block.ToolUseStart? && delta.BlockDelta?
    ensures var evs := CloseOpenBlock(p).events + [start, delta];
      && Count(evs, IsBlockStop) == CloseOpenBlock(p).params.responseIndex - p.responseIndex
      && forall e <- evs :: !IsToolUseStart(e)
  {
    CloseOpenBlockStats(p);
    QuietEvents([start, delta], 0);
    CountAppend(CloseOpenBlock(p).events, [start, delta], IsBlockStop);
  }

  lemma SignaturePartStats(p: Params, signature: string, counter: nat)
    ensures PartStats(p, SignaturePart(p, signature, counter), counter)
  {
    QuietEvents(SignaturePart(p, signature, counter).events, counter);
  }

  lemma ThinkingTextPartStats(p: Params, text: string, counter: nat)
    ensures PartStats(p, ThinkingTextPart(p, text, counter), counter)
  {
    var r := ThinkingTextPart(p, text, counter);
    if p.responseType == ThinkingBlock {
      QuietEvents(r.events, counter);
    } else {
      var i := CloseOpenBlock(p).params.responseIndex;
      OpenAfterCloseStats(p, BlockStart(i, ThinkingStart), BlockDelta(i, ThinkingDelta(text)));
      NumberedNone(r.events, counter);
    }
  }

  lemma TextPartStats(p: Params, text: string, finishPresent: bool, counter: nat)
    ensures PartStats(p, TextPart(p, text, finishPresent, counter), counter)
  {
    var r := TextPart(p, text, finishPresent, counter);
    if (text != "" || !finishPresent) && p.responseType != TextBlock {
      var i := CloseOpenBlock(p).params.responseIndex;
      if text != "" {
        OpenAfterCloseStats(p, BlockStart(i, TextStart), BlockDelta(i, TextDelta(text)));
      } else {
        CloseOpenBlockStats(p);
      }
      NumberedNone(r.events, counter);
    } else {
      QuietEvents(r.events, counter);
    }
  }

  lemma FunctionCallPartStats(p: Params, call: FunctionCall, now: int, counter: nat)
    ensures PartStats(p, FunctionCallPart(p, call, now, counter), counter)
  {
    var r := FunctionCallPart(p, call, now, counter);
    var closed := CloseOpenBlock(p);
    var i := closed.params.responseIndex;
    var start := BlockStart(i, ToolUseStart(ToolUseId(call.name, now, counter + 1), call.name));
    var args := if call.args.Some? then [BlockDelta(i, InputJsonDelta(call.args.value.raw))] else [];
    assert r.events == closed.events + ([start] + args);
    CloseOpenBlockStats(p);
    QuietEvents(args, counter + 1);
    CountAppend(closed.events, [start] + args, IsBlockStop);
    CountCons(start, args, IsBlockStop);
    NumberedNone(closed.events, counter);
    assert ([start] + args)[1..] == args;
    assert Numbered([start] + args, counter, counter + 1);
    NumberedAppend(closed.events, [start] + args, counter, counter, counter + 1);
  }

  lemma PartStepStats(p: Params, part: Part, finishPresent: bool, now: int, counter: nat)
    ensures PartStats(p, PartStep(p, part, finishPresent, now, counter), counter)
  {
    var r := PartStep(p, part, finishPresent, now, counter);
    match part.text
    case Some(text) =>
      if part.thought {
        if StreamSignature(part) != "" {
          SignaturePartStats(p, StreamSignature(part), counter);
        } else {
          ThinkingTextPartStats(p, text, counter);
        }
      } else if p.webSearchMode {
        QuietEvents(r.events, counter);
      } else {
        TextPartStats(p, text, finishPresent, counter);
      }
    case None =>
      if part.functionCall.Some? && !p.webSearchMode {
        FunctionCallPartStats(p, part.functionCall.value, now, counter);
      } else {
        QuietEvents(r.events, counter);
      }
  }

  /** In web-search mode the plain texts of a chunk are buffered in
      arrival order; otherwise the buffer is left alone. */
  lemma {:induction false} ProcessPartsBuffer(p: Params, parts: seq<Part>, finishPresent: bool, now: int, counter: nat)
    ensures ProcessParts(p, parts, finishPresent, now, counter).params.webSearch.bufferedTextParts ==
      p.webSearch.bufferedTextParts + (if p.webSearchMode then PlainTexts(parts) else [])
    decreases |parts|
  {
    if |parts| > 0 {
      var first := PartStep(p, parts[0], finishPresent, now, counter);
      var rest := ProcessParts(first.params, parts[1..], finishPresent, now, first.counter);
      ProcessPartsBuffer(first.params, parts[1..], finishPresent, now, first.counter);
      var before := p.webSearch.bufferedTextParts;
      var head := if p.webSearchMode && parts[0].text.Some? && !parts[0].thought then [parts[0].text.value] else [];
      var tail := if p.webSearchMode then PlainTexts(parts[1..]) else [];
      assert first.params.webSearch.bufferedTextParts == before + head;
      assert rest.params.webSearch.bufferedTextParts == before + head + tail;
      assert (if p.webSearchMode then PlainTexts(parts) else []) == head + tail;
    }
  }

  /** No part of `parts` is a thought with text. */
  predicate ThoughtFree(parts: seq<Part>)
    decreases |parts|
  {
    |parts| == 0 || (!(parts[0].text.Some? && parts[0].thought) && ThoughtFree(parts[1..]))
  }

  /** In web-search mode a chunk without thinking sends nothing: its texts
      are only buffered and its function calls ignored, so the content flag,
      the open block and the index are left as they were. */
  lemma {:induction false} ProcessPartsBufferedQuiet(p: Params, parts: seq<Part>, finishPresent: bool, now: int, counter: nat)
    requires p.webSearchMode && ThoughtFree(parts)
    ensures var r := ProcessParts(p, parts, finishPresent, now, counter);
      && r.events == [] && r.puts == [] && r.params.hasContent == p.hasContent
      && r.params.responseType == p.responseType && r.params.responseIndex == p.responseIndex
    decreases |parts|
  {
    if |parts| > 0 {
      var first := PartStep(p, parts[0], finishPresent, now, counter);
      ProcessPartsBufferedQuiet(first.params, parts[1..], finishPresent, now, first.counter);
    }
  }

  /** A grounded chunk of plain text, before any content and without a
      finish reason, sends at most `message_start`, and the text stays in
      the buffer. If `[DONE]` comes next, nothing is sent: the buffered
      text and the grounding blocks are dropped. */
  lemma BufferedTextLostAtDone(p: Params, c: Chunk, now: int, counter: nat, serverToolUseId: string,
                               doneNow: int, doneId: string)
    requires !p.hasContent && !p.hasFinishReason
    requires (p.webSearchMode || HasGroundingData(c)) && ThoughtFree(c.parts) && c.finishReason.None?
    ensures var s := ConvertChunk(p, c, now, counter, serverToolUseId);
      && s.events == (if p.hasFirstResponse then [] else [MessageStartFor(c)])
      && !s.params.hasContent
      && s.params.webSearch.bufferedTextParts == p.webSearch.bufferedTextParts + PlainTexts(c.parts)
      && Convert(s.params, Done, doneNow, s.counter, doneId) == StepOut(s.params, [], [], s.counter)
  {
    var pre := Prelude(p, c, serverToolUseId);
    var body := ProcessParts(pre.params, c.parts, false, now, counter);
    ProcessPartsBufferedQuiet(pre.params, c.parts, false, now, counter);
    ProcessPartsBuffer(pre.params, c.parts, false, now, counter);
    assert pre.events + body.events + [] == pre.events;
  }

  /** The part statistics carry over to a whole chunk. */
  lemma {:induction false} ProcessPartsStats(p: Params, parts: seq<Part>, finishPresent: bool, now: int, counter: nat)
    ensures PartStats(p, ProcessParts(p, parts, finishPresent, now, counter), counter)
    decreases |parts|
  {
    if |parts| > 0 {
      var first := PartStep(p, parts[0], finishPresent, now, counter);
      var rest := ProcessParts(first.params, parts[1..], finishPresent, now, first.counter);
      PartStepStats(p, parts[0], finishPresent, now, counter);
      ProcessPartsStats(first.params, parts[1..], finishPresent, now, first.counter);
      CountAppend(first.events, rest.events, IsBlockStop);
      NumberedAppend(first.events, rest.events, counter, first.counter, rest.counter);
    }
  }

  /** Every part of the chunk is safe in the state it meets. */
  predicate SafeParts(p: Params, parts: seq<Part>, finishPresent: bool, now: int, counter: nat)
    decreases |parts|
  {
    |parts| == 0 ||
      (SafePart(p, parts[0], finishPresent) &&
       var first := PartStep(p, parts[0], finishPresent, now, counter);
       SafeParts(first.params, parts[1..], finishPresent, now, first.counter))
  }

  /** Safe parts keep the client's view and the state in step over a whole chunk. */
  lemma {:induction false} ProcessPartsReplay(p: Params, parts: seq<Part>, finishPresent: bool, now: int, counter: nat)
    requires SafeParts(p, parts, finishPresent, now, counter)
    ensures var r := ProcessParts(p, parts, finishPresent, now, counter);
      Replay(ViewOf(p), r.events) == Some(ViewOf(r.params))
    decreases |parts|
  {
    var r := ProcessParts(p, parts, finishPresent, now, counter);
    if |parts| > 0 {
      var first := PartStep(p, parts[0], finishPresent, now, counter);
      var rest := ProcessParts(first.params, parts[1..], finishPresent, now, first.counter);
      PartStepReplay(p, parts[0], finishPresent, now, counter);
      ProcessPartsReplay(first.params, parts[1..], finishPresent, now, first.counter);
      ReplayAppend(ViewOf(p), first.events, rest.events);
    }
  }

  /** The client's cursor agrees with the state: before finalisation it is
      exactly the state's view; afterwards no block is open on either side
      (finalisation closes the last block without moving the index). */
  predicate Tracks(p: Params, c: Cursor) {
    if p.hasSentFinalEvents then c.open.None? && p.responseType == NoBlock else c == ViewOf(p)
  }

  lemma EmitWebSearchBlocksReplay(p: Params, fallbackId: string)
    ensures var e := EmitWebSearchBlocks(p, fallbackId);
      Replay(ViewOf(p), e.events) == Some(Cursor(e.params.responseIndex, None))
  {
    var e := EmitWebSearchBlocks(p, fallbackId);
    var closed := CloseOpenBlock(p);
    var ws := EnsureToolUseId(p.webSearch, fallbackId);
    var blocks := WebSearchBlocks(ws, closed.params.responseIndex);
    assert e.events == closed.events + blocks.events && e.params.responseIndex == blocks.next;
    CloseOpenBlockReplay(p);
    WebSearchBlocksReplay(ws, closed.params.responseIndex);
    ReplayAppend(ViewOf(p), closed.events, blocks.events);
  }

  /** Finalisation closes every open block before its `message_delta`. */
  lemma AppendFinalEventsReplay(p: Params, force: bool, fallbackId: string)
    requires !p.hasSentFinalEvents
    ensures var r := AppendFinalEvents(p, force, fallbackId);
      Replay(ViewOf(p), r.events).Some? && Tracks(r.params, Replay(ViewOf(p), r.events).value)
  {
    var r := AppendFinalEvents(p, force, fallbackId);
    if FinalizeApplies(p, force) {
      var body := r.events[..|r.events| - 1];
      assert r.events == body + [FinalDelta(p)];
      if p.webSearchMode {
        EmitWebSearchBlocksReplay(p, fallbackId);
        var e := EmitWebSearchBlocks(p, fallbackId);
        assert body == e.events;
        ReplayAppend(ViewOf(p), body, [FinalDelta(p)]);
        ReplayOne(Cursor(e.params.responseIndex, None), FinalDelta(p));
      } else if p.responseType != NoBlock {
        assert r.events == [BlockStop(p.responseIndex), FinalDelta(p)];
        ReplayCons(ViewOf(p), BlockStop(p.responseIndex), [FinalDelta(p)]);
        ReplayOne(Cursor(p.responseIndex + 1, None), FinalDelta(p));
      } else {
        ReplayOne(ViewOf(p), FinalDelta(p));
      }
    }
  }

  /** Block events followed by one `message_delta`. */
  lemma DeltaAfterBlocksStats(body: seq<Event>, d: Event)
    requires forall e <- body :: BlockEvent(e) && !IsToolUseStart(e)
    requires d.MessageDelta?
    ensures Count(body + [d], IsMessageDelta) == 1
    ensures Count(body + [d], IsMessageStart) == 0 && Count(body + [d], IsMessageStop) == 0
    ensures forall e <- body + [d] :: !IsToolUseStart(e)
  {
    EnvelopeFree(body);
    CountAppend(body, [d], IsMessageDelta);
    CountAppend(body, [d], IsMessageStart);
    CountAppend(body, [d], IsMessageStop);
    CountOne(d, IsMessageDelta);
    CountOne(d, IsMessageStart);
    CountOne(d, IsMessageStop);
  }

  /** The final blocks are block events and start no tool use. */
  lemma FinalBlocksQuiet(p: Params, fallbackId: string)
    ensures forall e <- FinalBlocks(p, fallbackId).events :: BlockEvent(e) && !IsToolUseStart(e)
  {
    if p.webSearchMode {
      var closing := CloseOpenBlock(p).events;
      var ws := EnsureToolUseId(p.webSearch, fallbackId);
      var blocks := WebSearchBlocks(ws, NextIndex(p)).events;
      WebSearchBlocksQuiet(ws, NextIndex(p));
      var evs := FinalBlocks(p, fallbackId).events;
      assert evs == closing + blocks;
      forall e | e in evs
        ensures BlockEvent(e) && !IsToolUseStart(e)
      {
        if e !in closing {
          assert e in blocks;
        }
      }
    }
  }

  /** Finalisation sends one `message_delta` when it applies and none
      otherwise; it never sends `message_start` or `message_stop` and never
      draws a tool serial. */
  lemma AppendFinalEventsStats(p: Params, force: bool, fallbackId: string)
    ensures var r := AppendFinalEvents(p, force, fallbackId);
      && Count(r.events, IsMessageDelta) == (if FinalizeApplies(p, force) then 1 else 0)
      && Count(r.events, IsMessageStart) == 0
      && Count(r.events, IsMessageStop) == 0
      && forall e <- r.events :: !IsToolUseStart(e)
  {
    if FinalizeApplies(p, force) {
      var body := FinalBlocks(p, fallbackId);
      assert AppendFinalEvents(p, force, fallbackId).events == body.events + [FinalDelta(p)];
      FinalBlocksQuiet(p, fallbackId);
      DeltaAfterBlocksStats(body.events, FinalDelta(p));
    }
  }

  /** A chunk the translator handles cleanly: its parts are safe, and once
      the turn is finalised it carries no further parts. */
  predicate SafeChunk(p: Params, c: Chunk, now: int, counter: nat, serverToolUseId: string) {
    && (p.hasSentFinalEvents ==> |c.parts| == 0)
    && SafeParts(Prelude(p, c, serverToolUseId).params, c.parts, c.finishReason.Some?, now, counter)
  }

  lemma PreludeReplay(p: Params, c: Chunk, serverToolUseId: string, cur: Cursor)
    ensures Replay(cur, Prelude(p, c, serverToolUseId).events) == Some(cur)
    ensures ViewOf(Prelude(p, c, serverToolUseId).params) == ViewOf(p)
  {
    if !p.hasFirstResponse {
      ReplayOne(cur, MessageStartFor(c));
    }
  }

  /** The prelude sends `message_start` exactly on the first chunk and nothing else. */
  lemma PreludeStats(p: Params, c: Chunk, serverToolUseId: string)
    ensures var evs := Prelude(p, c, serverToolUseId).events;
      && Count(evs, IsMessageStart) == (if p.hasFirstResponse then 0 else 1)
      && Count(evs, IsMessageDelta) == 0 && Count(evs, IsMessageStop) == 0
      && forall e <- evs :: !IsToolUseStart(e)
  {
    if !p.hasFirstResponse {
      CountOne(MessageStartFor(c), IsMessageStart);
      CountOne(MessageStartFor(c), IsMessageDelta);
      CountOne(MessageStartFor(c), IsMessageStop);
    }
  }

  /** The end of a chunk sends `message_delta` exactly when it finalises. */
  lemma FinishChunkStats(q: Params, serverToolUseId: string)
    ensures FinishChunk(q, serverToolUseId).params.hasSentFinalEvents
      == (q.hasSentFinalEvents || (q.hasUsageMetadata && q.hasFinishReason && (q.hasContent || q.webSearchMode)))
    ensures var r := FinishChunk(q, serverToolUseId);
      && Count(r.events, IsMessageDelta) == (if r.params.hasSentFinalEvents && !q.hasSentFinalEvents then 1 else 0)
      && Count(r.events, IsMessageStart) == 0 && Count(r.events, IsMessageStop) == 0
      && forall e <- r.events :: !IsToolUseStart(e)
  {
    if q.hasUsageMetadata && q.hasFinishReason {
      AppendFinalEventsStats(q, false, serverToolUseId);
    }
  }

  lemma FinishChunkReplay(q: Params, serverToolUseId: string)
    requires !q.hasSentFinalEvents
    ensures var fin := FinishChunk(q, serverToolUseId);
      Replay(ViewOf(q), fin.events).Some? && Tracks(fin.params, Replay(ViewOf(q), fin.events).value)
  {
    if q.hasUsageMetadata && q.hasFinishReason {
      AppendFinalEventsReplay(q, false, serverToolUseId);
    }
  }

  /** A safe chunk keeps the client and the state in step. */
  lemma ConvertChunkReplay(p: Params, c: Chunk, now: int, counter: nat, serverToolUseId: string, cur: Cursor)
    requires Tracks(p, cur) && SafeChunk(p, c, now, counter, serverToolUseId)
    ensures var r := ConvertChunk(p, c, now, counter, serverToolUseId);
      Replay(cur, r.events).Some? && Tracks(r.params, Replay(cur, r.events).value)
  {
    var pre := Prelude(p, c, serverToolUseId);
    var body := ProcessParts(pre.params, c.parts, c.finishReason.Some?, now, counter);
    var q := RecordMetadata(body.params, c);
    var fin := FinishChunk(q, serverToolUseId);
    assert ConvertChunk(p, c, now, counter, serverToolUseId) == StepOut(fin.params, pre.events + body.events + fin.events, body.puts, body.counter);
    assert pre.events + body.events + fin.events == pre.events + (body.events + fin.events);
    PreludeReplay(p, c, serverToolUseId, cur);
    ReplayAppend(cur, pre.events, body.events + fin.events);
    if p.hasSentFinalEvents {
      assert body == StepOut(pre.params, [], [], counter);
      assert fin == Out(q, []);
    } else {
      ProcessPartsReplay(pre.params, c.parts, c.finishReason.Some?, now, counter);
      ReplayAppend(cur, body.events, fin.events);
      assert ViewOf(q) == ViewOf(body.params);
      FinishChunkReplay(q, serverToolUseId);
    }
  }

  lemma CountAppend3(a: seq<Event>, b: seq<Event>, c: seq<Event>, f: Event -> bool)
    ensures Count(a + b + c, f) == Count(a, f) + Count(b, f) + Count(c, f)
  {
    CountAppend(a + b, c, f);
    CountAppend(a, b, f);
  }

  /** The message envelope of one chunk: `message_start` exactly on the
      first chunk, `message_delta` exactly when this chunk finalises the
      turn, and never `message_stop`. */
  lemma ConvertChunkEnvelope(p: Params, c: Chunk, now: int, counter: nat, serverToolUseId: string)
    ensures var r := ConvertChunk(p, c, now, counter, serverToolUseId);
      && Count(r.events, IsMessageStart) == (if p.hasFirstResponse then 0 else 1)
      && Count(r.events, IsMessageDelta) == (if r.params.hasSentFinalEvents && !p.hasSentFinalEvents then 1 else 0)
      && Count(r.events, IsMessageStop) == 0
  {
    var pre := Prelude(p, c, serverToolUseId);
    var body := ProcessParts(pre.params, c.parts, c.finishReason.Some?, now, counter);
    var q := RecordMetadata(body.params, c);
    var fin := FinishChunk(q, serverToolUseId);
    assert ConvertChunk(p, c, now, counter, serverToolUseId) == StepOut(fin.params, pre.events + body.events + fin.events, body.puts, body.counter);
    assert q.hasSentFinalEvents == p.hasSentFinalEvents;
    PreludeStats(p, c, serverToolUseId);
    ProcessPartsStats(pre.params, c.parts, c.finishReason.Some?, now, counter);
    EnvelopeFree(body.events);
    FinishChunkStats(q, serverToolUseId);
    CountAppend3(pre.events, body.events, fin.events, IsMessageStart);
    CountAppend3(pre.events, body.events, fin.events, IsMessageDelta);
    CountAppend3(pre.events, body.events, fin.events, IsMessageStop);
  }

  /** The tool serials one chunk draws come right after `counter`, in order. */
  lemma ConvertChunkSerials(p: Params, c: Chunk, now: int, counter: nat, serverToolUseId: string)
    ensures var r := ConvertChunk(p, c, now, counter, serverToolUseId);
      counter <= r.counter && Numbered(r.events, counter, r.counter)
  {
    var pre := Prelude(p, c, serverToolUseId);
    var body := ProcessParts(pre.params, c.parts, c.finishReason.Some?, now, counter);
    var q := RecordMetadata(body.params, c);
    var fin := FinishChunk(q, serverToolUseId);
    assert ConvertChunk(p, c, now, counter, serverToolUseId) == StepOut(fin.params, pre.events + body.events + fin.events, body.puts, body.counter);
    PreludeStats(p, c, serverToolUseId);
    ProcessPartsStats(pre.params, c.parts, c.finishReason.Some?, now, counter);
    FinishChunkStats(q, serverToolUseId);
    NumberedNone(pre.events, counter);
    NumberedNone(fin.events, body.counter);
    NumberedAppend(pre.events, body.events, counter, counter, body.counter);
    NumberedAppend(pre.events + body.events, fin.events, counter, body.counter, body.counter);
  }

  /** An input the translator handles cleanly. */
  predicate SafeInput(p: Params, input: Input, counter: nat) {
    input.message.Data? ==> SafeChunk(p, input.message.chunk, input.now, counter, input.serverToolUseId)
  }

  /** `[DONE]` after content closes the turn: finalisation (forced), then
      `message_stop` with no block open. */
  lemma DoneReplay(p: Params, serverToolUseId: string, cur: Cursor)
    requires Tracks(p, cur) && p.hasContent
    ensures var fin := AppendFinalEvents(p, true, serverToolUseId);
      Replay(cur, fin.events + [MessageStop]).Some? && Tracks(fin.params, Replay(cur, fin.events + [MessageStop]).value)
  {
    var fin := AppendFinalEvents(p, true, serverToolUseId);
    if !p.hasSentFinalEvents {
      AppendFinalEventsReplay(p, true, serverToolUseId);
    }
    var c1 := Replay(cur, fin.events).value;
    ReplayAppend(cur, fin.events, [MessageStop]);
    ReplayOne(c1, MessageStop);
  }

  lemma DoneStats(p: Params, serverToolUseId: string)
    requires p.hasContent
    ensures var fin := AppendFinalEvents(p, true, serverToolUseId);
      var evs := fin.events + [MessageStop];
      && Count(evs, IsMessageStart) == 0
      && Count(evs, IsMessageDelta) == (if fin.params.hasSentFinalEvents && !p.hasSentFinalEvents then 1 else 0)
      && Count(evs, IsMessageStop) == 1
      && forall e <- evs :: !IsToolUseStart(e)
  {
    var fin := AppendFinalEvents(p, true, serverToolUseId);
    AppendFinalEventsStats(p, true, serverToolUseId);
    CountAppend(fin.events, [MessageStop], IsMessageStart);
    CountAppend(fin.events, [MessageStop], IsMessageDelta);
    CountAppend(fin.events, [MessageStop], IsMessageStop);
    CountOne(MessageStop, IsMessageStart);
    CountOne(MessageStop, IsMessageDelta);
    CountOne(MessageStop, IsMessageStop);
  }

  lemma ConvertReplay(p: Params, input: Input, counter: nat, cur: Cursor)
    requires Tracks(p, cur) && SafeInput(p, input, counter)
    ensures var r := Convert(p, input.message, input.now, counter, input.serverToolUseId);
      Replay(cur, r.events).Some? && Tracks(r.params, Replay(cur, r.events).value)
  {
    match input.message
    case Data(c) => ConvertChunkReplay(p, c, input.now, counter, input.serverToolUseId, cur);
    case Done => if p.hasContent { DoneReplay(p, input.serverToolUseId, cur); }
  }

  /** The message envelope of one input: `message_start` only on the first
      chunk, `message_delta` only when this input finalises the turn, and
      `message_stop` exactly on a `[DONE]` after some content. */
  lemma ConvertEnvelope(p: Params, input: Input, counter: nat)
    ensures var r := Convert(p, input.message, input.now, counter, input.serverToolUseId);
      && Count(r.events, IsMessageStart) == (if input.message.Data? && !p.hasFirstResponse then 1 else 0)
      && Count(r.events, IsMessageDelta) == (if r.params.hasSentFinalEvents && !p.hasSentFinalEvents then 1 else 0)
      && Count(r.events, IsMessageStop) == (if input.message.Done? && p.hasContent then 1 else 0)
  {
    match input.message
    case Data(c) => ConvertChunkEnvelope(p, c, input.now, counter, input.serverToolUseId);
    case Done => if p.hasContent { DoneStats(p, input.serverToolUseId); }
  }

  lemma ConvertSerials(p: Params, input: Input, counter: nat)
    ensures var r := Convert(p, input.message, input.now, counter, input.serverToolUseId);
      counter <= r.counter && Numbered(r.events, counter, r.counter)
  {
    match input.message
    case Data(c) => ConvertChunkSerials(p, c, input.now, counter, input.serverToolUseId);
    case Done =>
      var r := Convert(p, input.message, input.now, counter, input.serverToolUseId);
      if p.hasContent { DoneStats(p, input.serverToolUseId); }
      NumberedNone(r.events, counter);
  }

  /** Every input of the session is handled cleanly in the state it meets. */
  predicate SafeRun(p: Params, inputs: seq<Input>, counter: nat)
    decreases |inputs|
  {
    |inputs| == 0 ||
      (SafeInput(p, inputs[0], counter) &&
       var step := Convert(p, inputs[0].message, inputs[0].now, counter, inputs[0].serverToolUseId);
       SafeRun(step.params, inputs[1..], step.counter))
  }

  function DataCount(inputs: seq<Input>): nat
    decreases |inputs|
  {
    if |inputs| == 0 then 0 else (if inputs[0].message.Data? then 1 else 0) + DataCount(inputs[1..])
  }

  lemma {:induction false} RunReplay(p: Params, inputs: seq<Input>, counter: nat, cur: Cursor)
    requires Tracks(p, cur) && SafeRun(p, inputs, counter)
    ensures var r := Run(p, inputs, counter);
      Replay(cur, r.events).Some? && Tracks(r.params, Replay(cur, r.events).value)
    decreases |inputs|
  {
    if |inputs| > 0 {
      var step := Convert(p, inputs[0].message, inputs[0].now, counter, inputs[0].serverToolUseId);
      var rest := Run(step.params, inputs[1..], step.counter);
      ConvertReplay(p, inputs[0], counter, cur);
      var c1 := Replay(cur, step.events).value;
      RunReplay(step.params, inputs[1..], step.counter, c1);
      ReplayAppend(cur, step.events, rest.events);
    }
  }

  lemma {:induction false} RunEnvelope(p: Params, inputs: seq<Input>, counter: nat)
    ensures var r := Run(p, inputs, counter);
      && Count(r.events, IsMessageStart) == (if !p.hasFirstResponse && DataCount(inputs) > 0 then 1 else 0)
      && Count(r.events, IsMessageDelta) == (if r.params.hasSentFinalEvents && !p.hasSentFinalEvents then 1 else 0)
    decreases |inputs|
  {
    if |inputs| > 0 {
      var step := Convert(p, inputs[0].message, inputs[0].now, counter, inputs[0].serverToolUseId);
      var rest := Run(step.params, inputs[1..], step.counter);
      ConvertEnvelope(p, inputs[0], counter);
      RunEnvelope(step.params, inputs[1..], step.counter);
      CountAppend(step.events, rest.events, IsMessageStart);
      CountAppend(step.events, rest.events, IsMessageDelta);
    }
  }

  lemma {:induction false} RunSerials(p: Params, inputs: seq<Input>, counter: nat)
    ensures var r := Run(p, inputs, counter);
      counter <= r.counter && Numbered(r.events, counter, r.counter)
    decreases |inputs|
  {
    if |inputs| > 0 {
      var step := Convert(p, inputs[0].message, inputs[0].now, counter, inputs[0].serverToolUseId);
      var rest := Run(step.params, inputs[1..], step.counter);
      ConvertSerials(p, inputs[0], counter);
      RunSerials(step.params, inputs[1..], step.counter);
      NumberedAppend(step.events, rest.events, counter, step.counter, rest.counter);
    }
  }

  /** A whole session from the initial state sends a well-formed Claude
      stream, and every block is closed once the turn is finalised. */
  lemma SessionWellFormed(sessionId: string, inputs: seq<Input>, counter: nat)
    requires SafeRun(InitialParams(sessionId), inputs, counter)
    ensures var r := Run(InitialParams(sessionId), inputs, counter);
      && Replay(Cursor(0, None), r.events).Some?
      && (r.params.hasSentFinalEvents ==> Replay(Cursor(0, None), r.events).value.open.None?)
  {
    var p0 := InitialParams(sessionId);
    assert Tracks(p0, Cursor(0, None));
    RunReplay(p0, inputs, counter, Cursor(0, None));
  }

  /** A whole session sends `message_start` exactly once if any chunk
      arrived, and `message_delta` at most once. */
  lemma SessionEnvelope(sessionId: string, inputs: seq<Input>, counter: nat)
    ensures var r := Run(InitialParams(sessionId), inputs, counter);
      && Count(r.events, IsMessageStart) == (if DataCount(inputs) > 0 then 1 else 0)
      && Count(r.events, IsMessageDelta) <= 1
  {
    RunEnvelope(InitialParams(sessionId), inputs, counter);
  }

  /** The tool-use ids of a whole session carry consecutive, hence
      distinct, serials, starting right after the counter's value. */
  lemma SessionToolSerials(sessionId: string, inputs: seq<Input>, counter: nat)
    ensures var r := Run(InitialParams(sessionId), inputs, counter);
      ToolSerials(r.events) == SerialRange(counter, r.counter - counter)
  {
    var r := Run(InitialParams(sessionId), inputs, counter);
    RunSerials(InitialParams(sessionId), inputs, counter);
    SerialsFromNumbered(r.events, counter, r.counter);
  }

  /** Normal-mode finalisation closes the open block without moving the
      index. A text part that still arrives after it opens its block at the
      index just closed, which a client must reject; `SafeChunk` excludes
      such parts. */
  lemma TextAfterFinalReusesIndex(p: Params, force: bool, fallbackId: string, text: string,
                                  finishPresent: bool, now: int, counter: nat)
    requires !p.webSearchMode && p.responseType != NoBlock && FinalizeApplies(p, force) && text != ""
    ensures var fin := AppendFinalEvents(p, force, fallbackId);
      var next := PartStep(fin.params, Part(Some(text), false, None, None, None), finishPresent, now, counter);
      && fin.params.hasSentFinalEvents
      && Replay(ViewOf(p), fin.events) == Some(Cursor(p.responseIndex + 1, None))
      && |next.events| > 0 && next.events[0] == BlockStart(p.responseIndex, TextStart)
      && Replay(ViewOf(p), fin.events + next.events) == None
  {
    var fin := AppendFinalEvents(p, force, fallbackId);
    AppendFinalEventsFrame(p, force, fallbackId);
    var i := p.responseIndex;
    var next := PartStep(fin.params, Part(Some(text), false, None, None, None), finishPresent, now, counter);
    assert next == TextPart(fin.params, text, finishPresent, counter);
    assert fin.events == [BlockStop(i), FinalDelta(p)];
    assert next.events == [BlockStart(i, TextStart), BlockDelta(i, TextDelta(text))];
    ReplayCons(ViewOf(p), BlockStop(i), [FinalDelta(p)]);
    ReplayOne(Cursor(i + 1, None), FinalDelta(p));
    ReplayAppend(ViewOf(p), fin.events, next.events);
    ReplayCons(Cursor(i + 1, None), BlockStart(i, TextStart), [BlockDelta(i, TextDelta(text))]);
  }

  // The signature cache across chunks.

  /** A thought part with text and no signature: its text is thinking. */
  predicate PlainThought(part: Part) {
    part.thought && part.text.Some? && StreamSignature(part) == ""
  }

  /** Every one of `parts` is a plain thought part. */
  predicate PlainThoughts(parts: seq<Part>)
    decreases |parts|
  {
    |parts| == 0 || (PlainThought(parts[0]) && PlainThoughts(parts[1..]))
  }

  /** The thinking text of plain thought parts, in order. */
  function ThinkingTexts(parts: seq<Part>): string
    decreases |parts|
  {
    if |parts| == 0 then ""
    else (if PlainThought(parts[0]) then parts[0].text.value else "") + ThinkingTexts(parts[1..])
  }

  /** The thinking text a step appends to: the accumulator when a thinking
      block is open, empty otherwise. */
  function OpenThinking(p: Params): string {
    if p.responseType == ThinkingBlock then p.currentThinkingText else ""
  }

  /** What a run of plain thinking leaves: no cache entry written, no tool
      serial drawn, a thinking block open, and `acc` accumulated. */
  predicate Thinking(r: StepOut, counter: nat, acc: string) {
    && r.puts == [] && r.counter == counter
    && r.params.responseType == ThinkingBlock && r.params.currentThinkingText == acc
  }

  /** A run of plain thought parts leaves a thinking block open, writes no
      cache entry and draws no tool serial. */
  lemma {:induction false} ProcessPartsThinkingShape(p: Params, parts: seq<Part>, finishPresent: bool, now: int, counter: nat)
    requires |parts| > 0 && PlainThoughts(parts)
    ensures var r := ProcessParts(p, parts, finishPresent, now, counter);
      r.puts == [] && r.counter == counter && r.params.responseType == ThinkingBlock
    decreases |parts|
  {
    ThoughtStep(p, parts[0], finishPresent, now, counter);
    if |parts| > 1 {
      var first := PartStep(p, parts[0], finishPresent, now, counter);
      ProcessPartsThinkingShape(first.params, parts[1..], finishPresent, now, first.counter);
    }
  }

  /** A run of plain thought parts appends its texts to the thinking
      accumulator, which restarts when the run opens a new thinking block. */
  lemma {:induction false} ProcessPartsThinking(p: Params, parts: seq<Part>, finishPresent: bool, now: int, counter: nat)
    requires |parts| > 0 && PlainThoughts(parts)
    ensures ProcessParts(p, parts, finishPresent, now, counter).params.currentThinkingText
      == OpenThinking(p) + ThinkingTexts(parts)
    decreases |parts|
  {
    var first := PartStep(p, parts[0], finishPresent, now, counter);
    ThoughtStep(p, parts[0], finishPresent, now, counter);
    if |parts| > 1 {
      ProcessPartsThinking(first.params, parts[1..], finishPresent, now, first.counter);
      ThinkingTextsCons(OpenThinking(p), parts);
    }
  }

  /** Appending a run's thinking text after its first part's text. */
  lemma ThinkingTextsCons(base: string, parts: seq<Part>)
    requires |parts| > 0 && PlainThoughts(parts)
    ensures (base + parts[0].text.value) + ThinkingTexts(parts[1..]) == base + ThinkingTexts(parts)
  {
  }

  /** One plain thought part: no cache entry, a thinking block open, and the
      part's text appended to the accumulator (restarted with a new block). */
  lemma ThoughtStep(p: Params, part: Part, finishPresent: bool, now: int, counter: nat)
    requires PlainThought(part)
    ensures Thinking(PartStep(p, part, finishPresent, now, counter), counter,
      OpenThinking(p) + part.text.value)
  {
    assert PartStep(p, part, finishPresent, now, counter) == ThinkingTextPart(p, part.text.value, counter);
  }

  /** A chunk of plain thought parts, without a finish reason in a turn that
      has none: it writes no cache entry, leaves a thinking block open and
      adds its thinking text to the accumulator. */
  lemma ConvertChunkThinking(p: Params, c: Chunk, now: int, counter: nat, serverToolUseId: string)
    requires |c.parts| > 0 && PlainThoughts(c.parts)
    requires c.finishReason.None? && !p.hasFinishReason
    ensures var r := ConvertChunk(p, c, now, counter, serverToolUseId);
      && r.puts == [] && !r.params.hasFinishReason
      && r.params.responseType == ThinkingBlock
      && r.params.currentThinkingText
         == OpenThinking(p) + ThinkingTexts(c.parts)
  {
    var pre := Prelude(p, c, serverToolUseId);
    ProcessPartsThinkingShape(pre.params, c.parts, false, now, counter);
    ProcessPartsThinking(pre.params, c.parts, false, now, counter);
  }

  /** A chunk holding only a signed thought part, without a finish reason
      in a turn that has none: with a session id and accumulated thinking,
      exactly one cache entry maps that thinking to the signature and the
      accumulator restarts; otherwise nothing is cached. */
  lemma ConvertChunkSignature(p: Params, c: Chunk, now: int, counter: nat, serverToolUseId: string)
    requires |c.parts| == 1 && c.parts[0].thought && c.parts[0].text.Some? && StreamSignature(c.parts[0]) != ""
    requires c.finishReason.None? && !p.hasFinishReason
    ensures var r := ConvertChunk(p, c, now, counter, serverToolUseId);
      && !r.params.hasFinishReason
      && r.puts == (if p.sessionId != "" && p.currentThinkingText != ""
                    then [CachePut(p.sessionId, p.currentThinkingText, StreamSignature(c.parts[0]))] else [])
      && r.params.currentThinkingText == (if p.sessionId != "" then "" else p.currentThinkingText)
  {
    var pre := Prelude(p, c, serverToolUseId);
    var first := PartStep(pre.params, c.parts[0], false, now, counter);
    assert first == SignaturePart(pre.params, StreamSignature(c.parts[0]), counter);
    assert c.parts[1..] == [];
    assert ProcessParts(pre.params, c.parts, false, now, counter).puts == first.puts;
  }

  /** A chunk of plain thought parts, without a finish reason. */
  predicate ThoughtChunk(c: Chunk) {
    |c.parts| > 0 && PlainThoughts(c.parts) && c.finishReason.None?
  }

  /** A chunk holding only a signed thought part, without a finish reason. */
  predicate SignedChunk(c: Chunk) {
    |c.parts| == 1 && c.parts[0].thought && c.parts[0].text.Some? && StreamSignature(c.parts[0]) != ""
    && c.finishReason.None?
  }

  /** Thinking split over two chunks and then signed in a third: the session
      caches the whole thinking text, both chunks' parts joined, once, under
      that signature. */
  lemma SplitThinkingCached(sessionId: string, c1: Chunk, c2: Chunk, c3: Chunk, ins: seq<Input>, counter: nat)
    requires sessionId != ""
    requires ThoughtChunk(c1) && ThoughtChunk(c2) && SignedChunk(c3)
    requires ThinkingTexts(c1.parts) + ThinkingTexts(c2.parts) != ""
    requires |ins| == 3 && ins[0].message == Data(c1) && ins[1].message == Data(c2) && ins[2].message == Data(c3)
    ensures Run(InitialParams(sessionId), ins, counter).puts
      == [CachePut(sessionId, ThinkingTexts(c1.parts) + ThinkingTexts(c2.parts), StreamSignature(c3.parts[0]))]
  {
    var p0 := InitialParams(sessionId);
    var s1 := Convert(p0, ins[0].message, ins[0].now, counter, ins[0].serverToolUseId);
    ThoughtChunkRun(p0, c1, ins, counter);
    EmptyPrefix(ThinkingTexts(c1.parts));
    ThinkingThenSignedCached(s1.params, c2, c3, ins[1..], s1.counter);
  }

  lemma EmptyPrefix(t: string)
    ensures "" + t == t
  {
  }

  /** A chunk of plain thinking and then a signed chunk: the session caches
      the thinking accumulated so far, the chunk's text appended, once. */
  lemma ThinkingThenSignedCached(p: Params, c2: Chunk, c3: Chunk, ins: seq<Input>, counter: nat)
    requires p.sessionId != "" && !p.hasFinishReason
    requires ThoughtChunk(c2) && SignedChunk(c3)
    requires OpenThinking(p) + ThinkingTexts(c2.parts) != ""
    requires |ins| == 2 && ins[0].message == Data(c2) && ins[1].message == Data(c3)
    ensures Run(p, ins, counter).puts
      == [CachePut(p.sessionId, OpenThinking(p) + ThinkingTexts(c2.parts), StreamSignature(c3.parts[0]))]
  {
    var s2 := Convert(p, ins[0].message, ins[0].now, counter, ins[0].serverToolUseId);
    ThoughtChunkRun(p, c2, ins, counter);
    SignedLastCached(s2.params, c3, ins[1..], s2.counter);
  }

  /** A session whose next input is a chunk of plain thinking: that input
      caches nothing, keeps the turn open and extends the open thinking. */
  lemma ThoughtChunkRun(p: Params, c: Chunk, ins: seq<Input>, counter: nat)
    requires !p.hasFinishReason && ThoughtChunk(c)
    requires |ins| > 0 && ins[0].message == Data(c)
    ensures var s := Convert(p, ins[0].message, ins[0].now, counter, ins[0].serverToolUseId);
      && Run(p, ins, counter).puts == Run(s.params, ins[1..], s.counter).puts
      && s.params.sessionId == p.sessionId && !s.params.hasFinishReason
      && s.params.responseType == ThinkingBlock
      && s.params.currentThinkingText == OpenThinking(p) + ThinkingTexts(c.parts)
  {
    ConvertChunkThinking(p, c, ins[0].now, counter, ins[0].serverToolUseId);
    RunPuts(p, ins, counter);
  }

  /** A session whose only remaining input is a signed chunk caches the open
      thinking under its signature. */
  lemma SignedLastCached(p: Params, c3: Chunk, ins: seq<Input>, counter: nat)
    requires p.sessionId != "" && !p.hasFinishReason && p.currentThinkingText != ""
    requires SignedChunk(c3)
    requires |ins| == 1 && ins[0].message == Data(c3)
    ensures Run(p, ins, counter).puts == [CachePut(p.sessionId, p.currentThinkingText, StreamSignature(c3.parts[0]))]
  {
    ConvertChunkSignature(p, c3, ins[0].now, counter, ins[0].serverToolUseId);
    RunPuts(p, ins, counter);
    assert ins[1..] == [];
  }

  /** The cache writes of a session are those of its first input followed by
      those of the rest. */
  lemma RunPuts(p: Params, ins: seq<Input>, counter: nat)
    requires |ins| > 0
    ensures var step := Convert(p, ins[0].message, ins[0].now, counter, ins[0].serverToolUseId);
      Run(p, ins, counter).puts == step.puts + Run(step.params, ins[1..], step.counter).puts
  {
  }
}

=== FILE: upstream.dfy ===
/**
 A typed view of one upstream (Gemini-style) response chunk, as the Claude
 response translator reads it.

 The translator probes its JSON input path by path and treats a missing path
 as the zero value of the accessor (empty string, 0, false, no elements).
 Every path it probes is a field here, and a field the upstream leaves out
 holds exactly that zero value. Fields whose presence matters on their own
 are `Option`s.
 */
module Upstream {
  import opened Wrappers

  /** A JSON field the translator expects to hold an array. Its three shapes
      are read differently: presence alone switches web-search mode on, the
      streaming merge only accepts a real array, and the one-shot path reads
      a lone non-array value as a one-element list. */
  datatype JsonList<T> = Missing | Lone(item: T) | Items(items: seq<T>)
  {
    predicate Present() {
      !Missing?
    }

    /** The elements as gjson's `Array()` yields them. */
    function Elements(): (xs: seq<T>)
      ensures Missing? ==> xs == []
      ensures Items? ==> xs == items
      ensures Lone? ==> |xs| == 1
    {
      match this
      case Missing => []
      case Lone(x) => [x]
      case Items(xs) => xs
    }
  }

  /** Parsed `functionCall.args`: its raw JSON text and whether it is an object. */
  datatype Args = Args(raw: string, isObject: bool)

  datatype FunctionCall = FunctionCall(name: string, args: Option<Args>)

  /** One element of `candidates[0].content.parts`. `legacyThoughtSignature`
      is the snake-case `thought_signature` spelling, which only the one-shot
      translator consults. */
  datatype Part = Part(
    text: Option<string>,
    thought: bool,
    thoughtSignature: Option<string>,
    legacyThoughtSignature: Option<string>,
    functionCall: Option<FunctionCall>)

  /** `web` of a grounding chunk; an absent sub-field is "". */
  datatype Web = Web(uri: string, title: string, domain: string)

  datatype GroundingChunk = GroundingChunk(web: Option<Web>)

  /** A grounding support: `segment.text` and the leading elements of
      `groundingChunkIndices` (empty when absent or not an array). */
  datatype Support = Support(segmentText: string, groundingChunkIndices: seq<int>)

  /** `candidates[0].groundingMetadata`. `webSearchQueries` is empty unless
      the field is an array; `renderedContent` is
      `searchEntryPoint.renderedContent`. */
  datatype GroundingMetadata = GroundingMetadata(
    webSearchQueries: seq<string>,
    renderedContent: string,
    groundingChunks: JsonList<GroundingChunk>,
    groundingSupports: JsonList<Support>)

  /** `response.usageMetadata`; an absent count is 0. */
  datatype UsageMetadata = UsageMetadata(
    promptTokenCount: int,
    candidatesTokenCount: int,
    thoughtsTokenCount: int,
    totalTokenCount: int,
    cachedContentTokenCount: int)

  /** One upstream chunk. `cpaPromptTokenCount` and `cpaCandidatesTokenCount`
      are `response.cpaUsageMetadata.*`, read only for `message_start`. The
      candidate-level `groundingChunks` and `groundingSupports` sit beside
      `groundingMetadata` in `candidates[0]`. */
  datatype Chunk = Chunk(
    responseId: Option<string>,
    modelVersion: Option<string>,
    cpaPromptTokenCount: Option<int>,
    cpaCandidatesTokenCount: Option<int>,
    parts: seq<Part>,
    finishReason: Option<string>,
    groundingMetadata: Option<GroundingMetadata>,
    groundingChunks: JsonList<GroundingChunk>,
    groundingSupports: JsonList<Support>,
    usageMetadata: Option<UsageMetadata>)

  /** What the streaming translator is fed: a chunk, or the `[DONE]` sentinel. */
  datatype Message = Done | Data(chunk: Chunk)

  /** The signature the streaming path sees on a part: `thoughtSignature`
      when present and non-empty, otherwise "" (no signature). */
  function StreamSignature(part: Part): (s: string)
    ensures s != "" <==> part.thoughtSignature.Some? && part.thoughtSignature.value != ""
  {
    part.thoughtSignature.GetOr("")
  }
}

=== FILE: usage.dfy ===
/**
 Token accounting and the stop-reason mapping shared by the streaming and
 one-shot translators.
 */
module Usage {
  import opened Wrappers
  import opened Upstream
  import opened Claude

  /** The counts the streaming session keeps from the latest usage record. */
  datatype TokenCounts = TokenCounts(prompt: int, candidates: int, thoughts: int, total: int, cached: int)

  const NoTokens := TokenCounts(0, 0, 0, 0, 0)

  /** The counts a streaming session keeps after seeing usage record `u`.
      They depend on `u` alone: an earlier record is overwritten, never added
      to. The prompt count excludes cached tokens and is not clamped; a zero
      candidate count with a positive total is rebuilt from the total,
      clamped at zero. */
  function RecordUsage(u: UsageMetadata): (c: TokenCounts)
    ensures c.cached == u.cachedContentTokenCount
    ensures c.prompt + c.cached == u.promptTokenCount
    ensures c.thoughts == u.thoughtsTokenCount && c.total == u.totalTokenCount
    ensures u.candidatesTokenCount != 0 || u.totalTokenCount <= 0 ==> c.candidates == u.candidatesTokenCount
    ensures u.candidatesTokenCount == 0 && u.totalTokenCount > 0 ==>
      && c.candidates >= 0
      && c.candidates >= c.total - c.prompt - c.thoughts
      && (c.candidates == 0 || c.candidates == c.total - c.prompt - c.thoughts)
  {
    var cached := u.cachedContentTokenCount;
    var prompt := u.promptTokenCount - cached;
    var candidates :=
      if u.candidatesTokenCount == 0 && u.totalTokenCount > 0 then
        var rebuilt := u.totalTokenCount - prompt - u.thoughtsTokenCount;
        if rebuilt < 0 then 0 else rebuilt
      else u.candidatesTokenCount;
    TokenCounts(prompt, candidates, u.thoughtsTokenCount, u.totalTokenCount, cached)
  }

  /** The `output_tokens` both translators report: candidates plus thoughts,
      or, when that sum is zero and a total is known, the total minus the
      prompt, clamped at zero. */
  function OutputTokens(candidates: int, thoughts: int, total: int, prompt: int): (n: int)
    ensures candidates + thoughts != 0 ==> n == candidates + thoughts
    ensures candidates + thoughts == 0 && total <= 0 ==> n == 0
    ensures candidates + thoughts == 0 && total > 0 ==>
      n >= 0 && n >= total - prompt && (n == 0 || n == total - prompt)
  {
    var sum := candidates + thoughts;
    if sum == 0 && total > 0 then
      var rest := total - prompt;
      if rest < 0 then 0 else rest
    else sum
  }

  /** `output_tokens` of a streaming session's `message_delta`. */
  function FinalOutputTokens(c: TokenCounts): int {
    OutputTokens(c.candidates, c.thoughts, c.total, c.prompt)
  }

  /** `cache_read_input_tokens`: present exactly when some tokens were cached. */
  function CacheRead(cached: int): (r: Option<int>)
    ensures r.Some? <==> cached > 0
    ensures r.Some? ==> r.value == cached
  {
    if cached > 0 then Some(cached) else None
  }

  /** The stop reason: `tool_use` whenever a tool call was seen, otherwise
      `max_tokens` for the finish reason MAX_TOKENS and `end_turn` for every
      other finish reason, known or not. */
  function StopReasonFor(hasToolUse: bool, finishReason: string): (s: StopReason)
    ensures s == ToolUse <==> hasToolUse
    ensures s == MaxTokens <==> !hasToolUse && finishReason == "MAX_TOKENS"
    ensures s == EndTurn <==> !hasToolUse && finishReason != "MAX_TOKENS"
  {
    if hasToolUse then ToolUse
    else match finishReason
      case "MAX_TOKENS" => MaxTokens
      case "STOP" => EndTurn
      case "FINISH_REASON_UNSPECIFIED" => EndTurn
      case "UNKNOWN" => EndTurn
      case _ => EndTurn
  }

  /** A worked usage example: 100 prompt tokens of which 20 cached,
      no candidate count, 10 thought tokens and a total of 150 give a prompt
      of 80 and a rebuilt candidate count of 60; the final output count is
      then 60 + 10. */
  lemma UsageExample()
    ensures RecordUsage(UsageMetadata(100, 0, 10, 150, 20)) == TokenCounts(80, 60, 10, 150, 20)
    ensures FinalOutputTokens(TokenCounts(80, 60, 10, 150, 20)) == 70
    ensures CacheRead(20) == Some(20)
  {
  }
}

=== FILE: web_search.dfy ===
/**
 The web-search (grounding) sub-machine: turning grounding chunks into search
 results and supports into citations, merging grounding state across
 streaming chunks, and the block sequence emitted for it at the end of a
 turn: `server_tool_use`, then `web_search_tool_result`, then one block per
 usable citation, then one text block holding the buffered answer text.
 */
module WebSearch {
  import opened Wrappers
  import opened Upstream
  import opened Claude

  /** Grounding state accumulated by a streaming session. */
  datatype WebSearchState = WebSearchState(
    toolUseId: string,
    query: string,
    results: seq<SearchResult>,
    supports: seq<Support>,
    bufferedTextParts: seq<string>)

  const NoWebSearch := WebSearchState("", "", [], [], [])

  /** The search result a grounding chunk yields: none without `web`, the
      domain standing in for a missing title, and none when both url and
      title are empty. */
  function ResultOf(chunk: GroundingChunk): (r: Option<SearchResult>)
    ensures r.Some? <==> chunk.web.Some? && (chunk.web.value.uri != "" || chunk.web.value.title != "" || chunk.web.value.domain != "")
    ensures r.Some? ==> r.value.url == chunk.web.value.uri
    ensures r.Some? ==> r.value.title == (if chunk.web.value.title != "" then chunk.web.value.title else chunk.web.value.domain)
  {
    match chunk.web
    case None => None
    case Some(web) =>
      var title := if web.title != "" then web.title else web.domain;
      if web.uri == "" && title == "" then None
      else Some(SearchResult(title, web.uri, EncryptedToken(web.uri, title, "")))
  }

  /** The search results of a list of grounding chunks, in chunk order. */
  function ToWebSearchResults(chunks: seq<GroundingChunk>): (rs: seq<SearchResult>)
    ensures |rs| <= |chunks|
    decreases |chunks|
  {
    if |chunks| == 0 then []
    else
      (match ResultOf(chunks[0]) case Some(r) => [r] case None => [])
      + ToWebSearchResults(chunks[1..])
  }

  /** Every derived result has a url or a title, and its encrypted content
      encodes exactly those two with no cited text. */
  lemma {:induction false} ToWebSearchResultsUsable(chunks: seq<GroundingChunk>)
    ensures forall r <- ToWebSearchResults(chunks) ::
      (r.url != "" || r.title != "") && r.encryptedContent == EncryptedToken(r.url, r.title, "")
    decreases |chunks|
  {
    if |chunks| > 0 {
      ToWebSearchResultsUsable(chunks[1..]);
    }
  }

  /** Deriving results is order preserving: the results of two lists of
      chunks are the results of the first followed by those of the second. */
  lemma {:induction false} ToWebSearchResultsAppend(a: seq<GroundingChunk>, b: seq<GroundingChunk>)
    ensures ToWebSearchResults(a + b) == ToWebSearchResults(a) + ToWebSearchResults(b)
    decreases |a|
  {
    if |a| == 0 {
      assert a + b == b;
    } else {
      assert (a + b)[0] == a[0];
      assert (a + b)[1..] == a[1..] + b;
      ToWebSearchResultsAppend(a[1..], b);
    }
  }

  /** Every usable chunk contributes exactly its own result. */
  lemma ToWebSearchResultsSingle(c: GroundingChunk)
    ensures ResultOf(c).Some? ==> ToWebSearchResults([c]) == [ResultOf(c).value]
    ensures ResultOf(c).None? ==> ToWebSearchResults([c]) == []
  {
    assert [c][1..] == [];
  }

  /** Whether a chunk carries grounding data at all: presence of the
      metadata, or of candidate-level chunks or supports, in any shape. */
  predicate HasGroundingData(c: Chunk) {
    c.groundingMetadata.Some? || c.groundingChunks.Present() || c.groundingSupports.Present()
  }

  /** The grounding-chunk array a streaming chunk carries: the candidate-level
      one when it is an array, else the one inside the metadata when that is
      an array. */
  function ChunkArray(c: Chunk): Option<seq<GroundingChunk>> {
    if c.groundingChunks.Items? then Some(c.groundingChunks.items)
    else if c.groundingMetadata.Some? && c.groundingMetadata.value.groundingChunks.Items? then
      Some(c.groundingMetadata.value.groundingChunks.items)
    else None
  }

  /** The grounding-support array a streaming chunk carries, chosen like `ChunkArray`. */
  function SupportArray(c: Chunk): Option<seq<Support>> {
    if c.groundingSupports.Items? then Some(c.groundingSupports.items)
    else if c.groundingMetadata.Some? && c.groundingMetadata.value.groundingSupports.Items? then
      Some(c.groundingMetadata.value.groundingSupports.items)
    else None
  }

  /** The first search query of a chunk, or "" when it has none. */
  function FirstQuery(c: Chunk): string {
    if c.groundingMetadata.Some? && |c.groundingMetadata.value.webSearchQueries| > 0 then
      c.groundingMetadata.value.webSearchQueries[0]
    else ""
  }

  /** Merge one chunk's grounding data into the session. A non-empty first
      query replaces the stored one; a results or supports array replaces the
      stored list wholesale; the tool-use id and the buffered text are kept. */
  function UpdateWebSearchState(ws: WebSearchState, c: Chunk): (ws': WebSearchState)
    ensures ws'.toolUseId == ws.toolUseId && ws'.bufferedTextParts == ws.bufferedTextParts
    ensures ws'.query == (if FirstQuery(c) != "" then FirstQuery(c) else ws.query)
    ensures ChunkArray(c).Some? ==> ws'.results == ToWebSearchResults(ChunkArray(c).value)
    ensures ChunkArray(c).None? ==> ws'.results == ws.results
    ensures SupportArray(c).Some? ==> ws'.supports == SupportArray(c).value
    ensures SupportArray(c).None? ==> ws'.supports == ws.supports
    ensures !HasGroundingData(c) ==> ws' == ws
  {
    var query := if FirstQuery(c) != "" then FirstQuery(c) else ws.query;
    var results := match ChunkArray(c) case Some(cs) => ToWebSearchResults(cs) case None => ws.results;
    var supports := match SupportArray(c) case Some(ss) => ss case None => ws.supports;
    ws.(query := query, results := results, supports := supports)
  }

  /** The citation a support yields: it needs non-empty cited text and a
      first chunk index that picks one of `results`; anything else is
      silently dropped. The citation's token covers the cited text too, so it
      never equals the result-level token of the same url and title. */
  function BuildCitation(results: seq<SearchResult>, s: Support): (r: Option<Citation>)
    ensures r.Some? <==>
      s.segmentText != "" && |s.groundingChunkIndices| > 0
      && 0 <= s.groundingChunkIndices[0] < |results|
    ensures r.Some? ==>
      var res := results[s.groundingChunkIndices[0]];
      && r.value.citedText == s.segmentText
      && r.value.url == res.url && r.value.title == res.title
      && r.value.encryptedIndex == EncryptedToken(res.url, res.title, s.segmentText)
      && r.value.encryptedIndex != EncryptedToken(res.url, res.title, "")
  {
    if s.segmentText == "" then None
    else if |s.groundingChunkIndices| == 0 then None
    else
      var idx := s.groundingChunkIndices[0];
      if idx < 0 || idx >= |results| then None
      else
        var res := results[idx];
        Some(Citation(s.segmentText, res.url, res.title, EncryptedToken(res.url, res.title, s.segmentText)))
  }

  /** The citations of a list of supports, in support order. */
  function Citations(results: seq<SearchResult>, supports: seq<Support>): (cs: seq<Citation>)
    ensures |cs| <= |supports|
    decreases |supports|
  {
    if |supports| == 0 then []
    else
      (match BuildCitation(results, supports[0]) case Some(c) => [c] case None => [])
      + Citations(results, supports[1..])
  }

  /** Events emitted from block index `index` on, and the next free index. */
  datatype Emitted = Emitted(events: seq<Event>, next: nat)

  /** One cited-text block (start, `citations_delta`, stop) per usable support. */
  function CitationBlocks(index: nat, results: seq<SearchResult>, supports: seq<Support>): (e: Emitted)
    ensures e.next == index + |Citations(results, supports)|
    decreases |supports|
  {
    if |supports| == 0 then Emitted([], index)
    else match BuildCitation(results, supports[0])
      case None => CitationBlocks(index, results, supports[1..])
      case Some(c) =>
        var rest := CitationBlocks(index + 1, results, supports[1..]);
        Emitted(CitedBlock(index, c) + rest.events, rest.next)
  }

  /** One cited-text block: open, the citation, close. */
  function CitedBlock(index: nat, c: Citation): seq<Event> {
    [BlockStart(index, CitedTextStart), BlockDelta(index, CitationsDelta(c)), BlockStop(index)]
  }

  lemma CitedBlockShape(index: nat, c: Citation)
    ensures Replay(Cursor(index, None), CitedBlock(index, c)) == Some(Cursor(index + 1, None))
    ensures StartKinds(CitedBlock(index, c)) == [CitedTextKind]
    ensures CitationPayloads(CitedBlock(index, c)) == [c] && TextPayload(CitedBlock(index, c)) == ""
  {
    var e0, e1, e2 := BlockStart(index, CitedTextStart), BlockDelta(index, CitationsDelta(c)), BlockStop(index);
    assert CitedBlock(index, c) == [e0] + ([e1] + ([e2] + []));
    ReplayCons(Cursor(index, None), e0, [e1] + ([e2] + []));
    ReplayCons(Cursor(index, Some(CitedTextKind)), e1, [e2] + []);
    ReplayCons(Cursor(index, Some(CitedTextKind)), e2, []);
    StartKindsCons(e0, [e1] + ([e2] + []));
    StartKindsCons(e1, [e2] + []);
    StartKindsCons(e2, []);
    PayloadsCons(e0, [e1] + ([e2] + []));
    PayloadsCons(e1, [e2] + []);
    PayloadsCons(e2, []);
  }

  /** One `text_delta` per non-empty buffered text, in arrival order. */
  function TextDeltas(index: nat, texts: seq<string>): (evs: seq<Event>)
    ensures TextPayload(evs) == Concat(texts)
    ensures forall e <- evs :: e.BlockDelta? && e.index == index && e.delta.TextDelta? && e.delta.text != ""
    decreases |texts|
  {
    if |texts| == 0 then []
    else
      var rest := TextDeltas(index, texts[1..]);
      if texts[0] == "" then rest
      else
        var evs := [BlockDelta(index, TextDelta(texts[0]))] + rest;
        assert evs[1..] == rest;
        evs
  }

  /** The closing text block: emitted whenever anything was buffered, even if
      every buffered text is empty. */
  function BufferedTextBlock(index: nat, texts: seq<string>): (e: Emitted)
    ensures e.next == index + (if |texts| > 0 then 1 else 0)
  {
    if |texts| == 0 then Emitted([], index)
    else Emitted([BlockStart(index, TextStart)] + TextDeltas(index, texts) + [BlockStop(index)], index + 1)
  }

  /** How many blocks the grounding of `ws` takes: the tool-use and result
      blocks, one per citation, and one for the buffered text if any. */
  function WebSearchBlockCount(ws: WebSearchState): nat {
    2 + |Citations(ws.results, ws.supports)| + (if |ws.bufferedTextParts| > 0 then 1 else 0)
  }

  /** The grounding blocks of a finished turn, starting at block `index`. */
  function WebSearchBlocks(ws: WebSearchState, index: nat): (e: Emitted)
    ensures e.next == index + 2 + |Citations(ws.results, ws.supports)| + (if |ws.bufferedTextParts| > 0 then 1 else 0)
    ensures e.next == index + WebSearchBlockCount(ws)
  {
    var head := GroundingHead(ws, index);
    var cits := CitationBlocks(index + 2, ws.results, ws.supports);
    var tail := BufferedTextBlock(cits.next, ws.bufferedTextParts);
    Emitted(head + cits.events + tail.events, tail.next)
  }

  /** Citation blocks are well formed from a closed cursor and leave it
      closed at the next free index. */
  lemma {:induction false} CitationBlocksReplay(index: nat, results: seq<SearchResult>, supports: seq<Support>)
    ensures Replay(Cursor(index, None), CitationBlocks(index, results, supports).events)
         == Some(Cursor(CitationBlocks(index, results, supports).next, None))
    decreases |supports|
  {
    if |supports| > 0 {
      match BuildCitation(results, supports[0])
      case None =>
        CitationBlocksReplay(index, results, supports[1..]);
      case Some(c) =>
        var rest := CitationBlocks(index + 1, results, supports[1..]);
        CitationBlocksReplay(index + 1, results, supports[1..]);
        CitedBlockShape(index, c);
        ReplayAppend(Cursor(index, None), CitedBlock(index, c), rest.events);
    }
  }

  /** Citation blocks start only cited-text blocks and carry exactly the
      usable citations, in support order, and no plain text. */
  lemma {:induction false} CitationBlocksContent(index: nat, results: seq<SearchResult>, supports: seq<Support>)
    ensures StartKinds(CitationBlocks(index, results, supports).events) == Repeat(CitedTextKind, |Citations(results, supports)|)
    ensures CitationPayloads(CitationBlocks(index, results, supports).events) == Citations(results, supports)
    ensures TextPayload(CitationBlocks(index, results, supports).events) == ""
    decreases |supports|
  {
    if |supports| > 0 {
      match BuildCitation(results, supports[0])
      case None =>
        CitationBlocksContent(index, results, supports[1..]);
      case Some(c) =>
        var rest := CitationBlocks(index + 1, results, supports[1..]);
        CitationBlocksContent(index + 1, results, supports[1..]);
        CitedBlockShape(index, c);
        StartKindsAppend(CitedBlock(index, c), rest.events);
        CitationPayloadsAppend(CitedBlock(index, c), rest.events);
        TextPayloadAppend(CitedBlock(index, c), rest.events);
    }
  }

  lemma {:induction false} TextDeltasShape(index: nat, texts: seq<string>)
    ensures Replay(Cursor(index, Some(TextKind)), TextDeltas(index, texts)) == Some(Cursor(index, Some(TextKind)))
    ensures StartKinds(TextDeltas(index, texts)) == []
    ensures CitationPayloads(TextDeltas(index, texts)) == []
    decreases |texts|
  {
    if |texts| > 0 {
      TextDeltasShape(index, texts[1..]);
      var rest := TextDeltas(index, texts[1..]);
      if texts[0] != "" {
        var e := BlockDelta(index, TextDelta(texts[0]));
        ReplayCons(Cursor(index, Some(TextKind)), e, rest);
        StartKindsCons(e, rest);
        PayloadsCons(e, rest);
      }
    }
  }

  /** The closing text block is well formed from a closed cursor. */
  lemma BufferedTextBlockReplay(index: nat, texts: seq<string>)
    ensures Replay(Cursor(index, None), BufferedTextBlock(index, texts).events)
         == Some(Cursor(BufferedTextBlock(index, texts).next, None))
  {
    if |texts| > 0 {
      var start := BlockStart(index, TextStart);
      var mid := TextDeltas(index, texts);
      var stop := BlockStop(index);
      TextDeltasShape(index, texts);
      assert BufferedTextBlock(index, texts).events == [start] + (mid + [stop]);
      ReplayCons(Cursor(index, None), start, mid + [stop]);
      ReplayAppend(Cursor(index, Some(TextKind)), mid, [stop]);
      ReplayCons(Cursor(index, Some(TextKind)), stop, []);
      assert [stop] == [stop] + [];
    }
  }

  /** The closing text block starts one text block when anything was
      buffered, and carries no citation. */
  lemma BufferedTextBlockKinds(index: nat, texts: seq<string>)
    ensures StartKinds(BufferedTextBlock(index, texts).events) == (if |texts| > 0 then [TextKind] else [])
    ensures CitationPayloads(BufferedTextBlock(index, texts).events) == []
  {
    if |texts| > 0 {
      var start := BlockStart(index, TextStart);
      var mid := TextDeltas(index, texts);
      var stop := BlockStop(index);
      TextDeltasShape(index, texts);
      assert BufferedTextBlock(index, texts).events == [start] + (mid + [stop]);
      StartKindsCons(stop, []);
      PayloadsCons(stop, []);
      assert [stop] + [] == [stop];
      StartKindsAppend(mid, [stop]);
      CitationPayloadsAppend(mid, [stop]);
      StartKindsCons(start, mid + [stop]);
      PayloadsCons(start, mid + [stop]);
    }
  }

  /** The closing text block carries the buffered text, in arrival order. */
  lemma BufferedTextBlockText(index: nat, texts: seq<string>)
    ensures TextPayload(BufferedTextBlock(index, texts).events) == Concat(texts)
  {
    if |texts| > 0 {
      var start := BlockStart(index, TextStart);
      var mid := TextDeltas(index, texts);
      var stop := BlockStop(index);
      assert BufferedTextBlock(index, texts).events == [start] + (mid + [stop]);
      PayloadsCons(stop, []);
      assert [stop] + [] == [stop];
      TextPayloadAppend(mid, [stop]);
      PayloadsCons(start, mid + [stop]);
    }
  }

  /** The fixed five events that open the grounding blocks. */
  function GroundingHead(ws: WebSearchState, index: nat): seq<Event> {
    [ BlockStart(index, ServerToolUseStart(ws.toolUseId)),
      BlockDelta(index, QueryInputDelta(ws.query)),
      BlockStop(index),
      BlockStart(index + 1, WebSearchToolResultStart(ws.toolUseId, ws.results)),
      BlockStop(index + 1)]
  }

  lemma GroundingHeadShape(ws: WebSearchState, index: nat)
    ensures Replay(Cursor(index, None), GroundingHead(ws, index)) == Some(Cursor(index + 2, None))
    ensures StartKinds(GroundingHead(ws, index)) == [ServerToolUseKind, WebSearchResultKind]
    ensures CitationPayloads(GroundingHead(ws, index)) == [] && TextPayload(GroundingHead(ws, index)) == ""
  {
    var h := GroundingHead(ws, index);
    assert h == [h[0]] + ([h[1]] + ([h[2]] + ([h[3]] + ([h[4]] + []))));
    ReplayCons(Cursor(index, None), h[0], h[1..]);
    ReplayCons(Cursor(index, Some(ServerToolUseKind)), h[1], h[2..]);
    ReplayCons(Cursor(index, Some(ServerToolUseKind)), h[2], h[3..]);
    ReplayCons(Cursor(index + 1, None), h[3], h[4..]);
    ReplayCons(Cursor(index + 1, Some(WebSearchResultKind)), h[4], []);
    StartKindsCons(h[0], h[1..]);
    StartKindsCons(h[1], h[2..]);
    StartKindsCons(h[2], h[3..]);
    StartKindsCons(h[3], h[4..]);
    StartKindsCons(h[4], []);
    PayloadsCons(h[0], h[1..]);
    PayloadsCons(h[1], h[2..]);
    PayloadsCons(h[2], h[3..]);
    PayloadsCons(h[3], h[4..]);
    PayloadsCons(h[4], []);
  }

  /** The grounding blocks are well formed from a closed cursor and leave it
      closed at the next free index. */
  lemma WebSearchBlocksReplay(ws: WebSearchState, index: nat)
    ensures Replay(Cursor(index, None), WebSearchBlocks(ws, index).events)
         == Some(Cursor(WebSearchBlocks(ws, index).next, None))
  {
    var head := GroundingHead(ws, index);
    var cits := CitationBlocks(index + 2, ws.results, ws.supports);
    var tail := BufferedTextBlock(cits.next, ws.bufferedTextParts);
    assert WebSearchBlocks(ws, index).events == head + (cits.events + tail.events);
    GroundingHeadShape(ws, index);
    CitationBlocksReplay(index + 2, ws.results, ws.supports);
    BufferedTextBlockReplay(cits.next, ws.bufferedTextParts);
    ReplayAppend(Cursor(index, None), head, cits.events + tail.events);
    ReplayAppend(Cursor(index + 2, None), cits.events, tail.events);
  }

  /** The grounding blocks in their fixed order: `server_tool_use` (carrying
      the query), `web_search_tool_result` (carrying the results), one
      cited-text block per usable citation, and a text block when anything
      was buffered. */
  lemma WebSearchBlocksOrder(ws: WebSearchState, index: nat)
    ensures StartKinds(WebSearchBlocks(ws, index).events) ==
      [ServerToolUseKind, WebSearchResultKind]
      + (Repeat(CitedTextKind, |Citations(ws.results, ws.supports)|)
         + (if |ws.bufferedTextParts| > 0 then [TextKind] else []))
  {
    var head := GroundingHead(ws, index);
    var cits := CitationBlocks(index + 2, ws.results, ws.supports);
    var tail := BufferedTextBlock(cits.next, ws.bufferedTextParts);
    assert WebSearchBlocks(ws, index).events == head + (cits.events + tail.events);
    GroundingHeadShape(ws, index);
    AfterHeadOrder(ws, index);
    StartKindsAppend(head, cits.events + tail.events);
  }

  /** The kinds of the blocks after the grounding head. */
  lemma AfterHeadOrder(ws: WebSearchState, index: nat)
    ensures var cits := CitationBlocks(index + 2, ws.results, ws.supports);
      StartKinds(cits.events + BufferedTextBlock(cits.next, ws.bufferedTextParts).events) ==
        Repeat(CitedTextKind, |Citations(ws.results, ws.supports)|)
        + (if |ws.bufferedTextParts| > 0 then [TextKind] else [])
  {
    var cits := CitationBlocks(index + 2, ws.results, ws.supports);
    var tail := BufferedTextBlock(cits.next, ws.bufferedTextParts);
    CitationBlocksContent(index + 2, ws.results, ws.supports);
    BufferedTextBlockKinds(cits.next, ws.bufferedTextParts);
    StartKindsAppend(cits.events, tail.events);
  }

  /** The grounding blocks open with the tool-use block carrying the query
      and the result block carrying the results. */
  lemma WebSearchBlocksHead(ws: WebSearchState, index: nat)
    ensures WebSearchBlocks(ws, index).events[..5] == GroundingHead(ws, index)
  {
    var head := GroundingHead(ws, index);
    var cits := CitationBlocks(index + 2, ws.results, ws.supports);
    var tail := BufferedTextBlock(cits.next, ws.bufferedTextParts);
    assert WebSearchBlocks(ws, index).events == head + (cits.events + tail.events);
  }

  /** The cited-text blocks carry exactly the usable citations, in support
      order, and the text block carries the buffered text, in arrival order. */
  lemma WebSearchBlocksPayload(ws: WebSearchState, index: nat)
    ensures CitationPayloads(WebSearchBlocks(ws, index).events) == Citations(ws.results, ws.supports)
    ensures TextPayload(WebSearchBlocks(ws, index).events) == Concat(ws.bufferedTextParts)
  {
    var head := GroundingHead(ws, index);
    var cits := CitationBlocks(index + 2, ws.results, ws.supports);
    var tail := BufferedTextBlock(cits.next, ws.bufferedTextParts);
    assert WebSearchBlocks(ws, index).events == head + (cits.events + tail.events);
    GroundingHeadShape(ws, index);
    CitationBlocksContent(index + 2, ws.results, ws.supports);
    BufferedTextBlockKinds(cits.next, ws.bufferedTextParts);
    BufferedTextBlockText(cits.next, ws.bufferedTextParts);
    CitationPayloadsAppend(head, cits.events + tail.events);
    CitationPayloadsAppend(cits.events, tail.events);
    TextPayloadAppend(head, cits.events + tail.events);
    TextPayloadAppend(cits.events, tail.events);
  }

  /** The cited-text blocks hold block events only, and no tool-use start. */
  lemma {:induction false} CitationBlocksQuiet(index: nat, results: seq<SearchResult>, supports: seq<Support>)
    ensures forall e <- CitationBlocks(index, results, supports).events :: BlockEvent(e) && !IsToolUseStart(e)
    decreases |supports|
  {
    if |supports| > 0 {
      match BuildCitation(results, supports[0])
      case None => CitationBlocksQuiet(index, results, supports[1..]);
      case Some(c) => CitationBlocksQuiet(index + 1, results, supports[1..]);
    }
  }

  /** The grounding blocks hold block events only, and no tool-use start:
      they neither touch the message envelope nor draw a tool serial. */
  lemma WebSearchBlocksQuiet(ws: WebSearchState, index: nat)
    ensures forall e <- WebSearchBlocks(ws, index).events :: BlockEvent(e) && !IsToolUseStart(e)
  {
    CitationBlocksQuiet(index + 2, ws.results, ws.supports);
  }
}

=== FILE: wrappers.dfy ===
/** Optional values: the typed stand-in for a JSON field that may be absent. */
module Wrappers {

  datatype Option<+T> = None | Some(value: T) {

    /** The value, or `default` when absent. */
    function GetOr(default: T): T {
      match this
      case Some(v) => v
      case None => default
    }
  }
}
